=== FILE: README.md ===
# Inno Setup extraction engine — a Dafny model

This project models the part of the 7-Zip Inno Setup handler that turns an
opened installer into extracted files:

- **Handler** (`CHandler::Extract`) walks a batch of item indices. It gets an
  output stream for each item from the host and picks a strategy for files
  that share their data with another file: serve a saved buffer, fill a
  buffer, extract while saving, or extract plainly. It reports one operation
  result per item.
- **Archive** (`CInArchive`) counts items, including the embedded
  pseudo-files, and builds the item views. It finds data locations shared by
  several files and names the archive's method. It keeps a cached chunk
  reader and extracts one file by seeking inside its chunk and copying in
  blocks of 16 KiB (16384 bytes).
- **Items** (`CItem`, `CEmbeddedItem`) derive the metadata the host sees.
  This covers the install path with the architecture prefix that
  `GetArch`'s `check`-expression scan chooses, and the method string.
- **Streams** (`minihead_iostreams.hpp`) is the small pull-based stream
  library under the chunk reader. It covers the buffered stream stage
  (`underflow`), the filter and source wrappers, the symmetric filter
  driver, `restrict` (a window on an input stream) and the `chain` that
  links the stages.
- **Cleaning**, **Text** and **Tristate** hold the string helpers
  (`Flag_Clean`, `OSS_Clean`, `to_lower_copy`, `contains`, `iequals`) and the
  three-valued latch `state3`.

Files:

- `common.dfy`: bytes, `Option` and 32-bit limits.
- `tristate.dfy`, `text.dfy`, `cleaning.dfy`, `items.dfy`, `streams.dfy`,
  `archive.dfy`, `handler.dfy`: one module each. The HRESULT codes are
  defined in `archive.dfy`.

Some source code changes state, and the model keeps that form:

- `state3`, the stream stages, the chain, `restrict`, the chunk reader,
  `CInArchive` and `CHandler` are classes whose methods update their fields.
- Each such method is proved against a specification function, for example
  `ExtractSpec`, `ExtractBatch`, `RestrictRead` or `AlnumOnly`.
- The properties the source promises are proved about those functions as
  lemmas.

The main methods model the code as it is written, including the
discrepancies listed under "## Findings". Each finding also has a corrected
definition with the intended property proved about it.

Two behaviours of the stream code are kept exactly as written:

- `chain::read` reads from the first stage pushed (`_filters.front()`).
  `push` links each new stage to the stage pushed before it.
- `underflow` does not consult `_eof` before it asks `readmore` for more
  data. A stage that reported end of data is asked again on the next
  underflow.

HRESULT values are integers: `S_OK = 0`, `S_FALSE = 1`, `E_FAIL` and
`E_OUTOFMEMORY` are their 32-bit values read as signed numbers. `RINOK`
returns every code other than `S_OK` to its caller, `S_FALSE` included
(7-Zip's own definition; its header is not part of this model).

## Model

| member | source | states |
|---|---|---|
| Tristate.State3.constructor | CPP/7zip/Archive/Inno/InnoUtils.h:15-18 | a new latch is unsure and reads as false |
| Tristate.State3.Assign | CPP/7zip/Archive/Inno/InnoUtils.h:19-28 | the new latch is the merge of the old latch with the assigned value |
| Tristate.State3.AsBool | CPP/7zip/Archive/Inno/InnoUtils.h:29-32 | the latch reads true exactly when it is a definite yes |
| Tristate.Merge | CPP/7zip/Archive/Inno/InnoUtils.h:19-28 | the latch after one assignment: an unsure latch takes the value, a definite latch keeps an agreeing value and falls back to unsure on a contradicting one (its properties are stated by `MergeRule` and the assignment lemmas) |
| Tristate.MergeRule | CPP/7zip/Archive/Inno/InnoUtils.h:19-28 | from unsure an assignment decides the latch; repeating the held value keeps it; the opposite value reverts it to unsure |
| Tristate.YesNeedsTrueLast | CPP/7zip/Archive/Inno/InnoUtils.h:19-32 | a latch reads yes only if the last value assigned was true |
| Tristate.TwoAgreeingAssignmentsDecide | CPP/7zip/Archive/Inno/InnoUtils.h:19-28 | two equal assignments in a row leave the latch definite, whatever came before |
| Tristate.UniformAssignmentsDecide | CPP/7zip/Archive/Inno/InnoUtils.h:15-28 | assigning one value any number of times to a fresh latch decides it to that value |
| Text.LowerChar | CPP/7zip/Archive/Inno/InnoExtract/minihead.cpp:13 | `tolower` in the C locale: an ASCII capital maps to its small letter and every other character to itself |
| Text.Lower | CPP/7zip/Archive/Inno/InnoExtract/minihead.cpp:8-16 | the lower-cased copy: the same length, each character mapped by `LowerChar` (the function `ToLowerCopy` is proved against) |
| Text.ToLowerCopy | CPP/7zip/Archive/Inno/InnoExtract/minihead.cpp:8-16 | the copy has the same length and holds the ASCII lower case of each character at the same position |
| Text.LowerIdempotent | CPP/7zip/Archive/Inno/InnoExtract/minihead.cpp:8-16 | lower-casing twice equals lower-casing once |
| Text.Find | CPP/7zip/Archive/Inno/InnoExtract/minihead.cpp:18-25 | the result is the first position at or after `from` where the needle occurs, or none when it occurs nowhere from there |
| Text.Contains | CPP/7zip/Archive/Inno/InnoExtract/minihead.cpp:18-25 | true exactly when the needle occurs somewhere in the text |
| Text.Iequals | CPP/7zip/Archive/Inno/InnoExtract/minihead.cpp:27-30 | true exactly when the lengths agree and the characters agree position by position up to ASCII case |
| Text.IequalsEquivalence | CPP/7zip/Archive/Inno/InnoExtract/minihead.cpp:27-30 | case-insensitive equality is reflexive, symmetric and transitive |
| Cleaning.FlagClean | CPP/7zip/Archive/Inno/InnoIn.cpp:76-97 | the result is the input with every non-alphanumeric character removed |
| Cleaning.AlnumOnly | CPP/7zip/Archive/Inno/InnoIn.cpp:76-97 | the alphanumeric characters of a flag name in their order: what `Flag_Clean` keeps (the function `FlagClean` is proved against) |
| Cleaning.AlnumOnlyAppend | CPP/7zip/Archive/Inno/InnoIn.cpp:80-94 | cleaning distributes over concatenation |
| Cleaning.AlnumOnlyShape | CPP/7zip/Archive/Inno/InnoIn.cpp:76-97 | the result is no longer than the input and holds only ASCII letters and digits |
| Cleaning.AlnumOnlyCounts | CPP/7zip/Archive/Inno/InnoIn.cpp:76-97 | every alphanumeric character keeps its count, and every other character disappears |
| Cleaning.AlnumOnlyKeepsClean | CPP/7zip/Archive/Inno/InnoIn.cpp:76-97 | an already alphanumeric string is returned unchanged |
| Cleaning.AlnumOnlyIdempotent | CPP/7zip/Archive/Inno/InnoIn.cpp:76-97 | cleaning twice equals cleaning once |
| Cleaning.LastIndexOf | CPP/7zip/Archive/Inno/InnoIn.cpp:55 | the result is the last position holding the character, or none when it does not occur |
| Cleaning.PropertyName | CPP/7zip/Archive/Inno/InnoIn.cpp:55-56 | the part after the last dot has no dot and is no longer than the input |
| Cleaning.OssClean | CPP/7zip/Archive/Inno/InnoIn.cpp:54-74 | the result is the camel-case form of the text after the last dot |
| Cleaning.Camel | CPP/7zip/Archive/Inno/InnoIn.cpp:54-74 | the compacted property name: separators dropped, the first character of each segment upper-cased and the others kept (the function `OssClean` is proved against) |
| Cleaning.CamelSplits | CPP/7zip/Archive/Inno/InnoIn.cpp:58-72 | a separator splits the input into two independently camel-cased halves |
| Cleaning.CamelSegment | CPP/7zip/Archive/Inno/InnoIn.cpp:58-72 | a segment without separators keeps its text with the first character in upper case |
| Cleaning.CamelShape | CPP/7zip/Archive/Inno/InnoIn.cpp:58-72 | the camel-case form is no longer than its input and holds no `-` or `_` |
| Cleaning.CamelRemovesExactlySeparators | CPP/7zip/Archive/Inno/InnoIn.cpp:58-72 | the length drops by exactly the number of `-` and `_` characters |
| Cleaning.OssCleanShape | CPP/7zip/Archive/Inno/InnoIn.cpp:54-74 | the cleaned name is no longer than the input and holds no dot, `-` or `_` |
| Cleaning.CamelNoDot | CPP/7zip/Archive/Inno/InnoIn.cpp:58-72 | camel-casing text without dots produces no dot |
| Cleaning.PropertyNameOfDotted | CPP/7zip/Archive/Inno/InnoIn.cpp:55-56 | for `x.y` with no dot in `y`, the property name is `y` |
| Cleaning.LastIndexOfJoin | CPP/7zip/Archive/Inno/InnoIn.cpp:55 | in `x c y` with no `c` in `y`, the last `c` sits at position length of `x` |
| Cleaning.OssCleanExample | CPP/7zip/Archive/Inno/InnoIn.cpp:54-74 | `x.ab-cd` cleans to `AbCd` |
| Cleaning.DottedExample | CPP/7zip/Archive/Inno/InnoIn.cpp:55-56 | the property name of `x.ab-cd` is `ab-cd` |
| Cleaning.CamelExample | CPP/7zip/Archive/Inno/InnoIn.cpp:58-72 | `ab-cd` camel-cases to `AbCd` |
| Items.ArchCode | CPP/7zip/Archive/Inno/InnoItem.h:15-21 | each architecture has its enumerator value, at most 3 |
| Items.ArchOrder | CPP/7zip/Archive/Inno/InnoItem.h:15-21 | the values are distinct and ordered unknown < x86 < x64 < arm64 |
| Items.Fields | CPP/7zip/Archive/Inno/InnoItem.cpp:40-42 | splitting on spaces gives at least one word and no word contains a space |
| Items.Tokens | CPP/7zip/Archive/Inno/InnoItem.cpp:40-42 | the words of the `Check` expression split at single spaces, with no word for an empty expression |
| Items.FieldsJoin | CPP/7zip/Archive/Inno/InnoItem.cpp:40-42 | joining the words with single spaces gives back the input, empty words included |
| Items.GetArch | CPP/7zip/Archive/Inno/InnoItem.cpp:32-82 | the loop's result equals the architecture function: seed the latches from the options, scan the words, pick the highest confirmed architecture |
| Items.Step | CPP/7zip/Archive/Inno/InnoItem.cpp:44-74 | one word of the scan: `not` arms the negation; a 64-bit keyword or `IsARM64` assigns its latch the negated-or-plain truth; any non-empty word disarms the negation |
| Items.Scan | CPP/7zip/Archive/Inno/InnoItem.cpp:44-74 | the scan state after the words in order, each applied by `Step` |
| Items.Pick | CPP/7zip/Archive/Inno/InnoItem.cpp:75-81 | the priority rule: ARM64 if its latch is definitely true, else x64, else x86, else unknown |
| Items.ArchOf | CPP/7zip/Archive/Inno/InnoItem.cpp:32-82 | the architecture `GetArch` infers: the option flags seed the latches, the words are scanned and `Pick` decides (the function `GetArch` is proved against) |
| Items.StepReverse | CPP/7zip/Archive/Inno/InnoItem.cpp:46-73 | after a word, negation is pending exactly when the word is `not`, or when the word is empty and negation was pending |
| Items.ScanKeepsBits32 | CPP/7zip/Archive/Inno/InnoItem.cpp:34-74 | no word of the check expression changes the 32-bit latch |
| Items.ScanKeepsUntouchedLatches | CPP/7zip/Archive/Inno/InnoItem.cpp:44-74 | without a 64-bit keyword the 64-bit latch is unchanged; without `IsARM64` the ARM latch is unchanged |
| Items.ArmNeedsKeyword | CPP/7zip/Archive/Inno/InnoItem.cpp:65-76 | arm64 is chosen only when `IsARM64` occurs among the words |
| Items.X64NeedsEvidence | CPP/7zip/Archive/Inno/InnoItem.cpp:37-78 | x64 is chosen only with the 64-bit option or a 64-bit keyword among the words |
| Items.X86NeedsOption | CPP/7zip/Archive/Inno/InnoItem.cpp:35-80 | x86 is chosen only with the 32-bit option |
| Items.NoEvidenceUnknown | CPP/7zip/Archive/Inno/InnoItem.cpp:32-82 | with no architecture option and no keyword the result is unknown |
| Items.PickIsHighestConfirmed | CPP/7zip/Archive/Inno/InnoItem.cpp:75-81 | the pick is unknown exactly when nothing is confirmed; otherwise it is confirmed and the highest confirmed architecture |
| Items.NegationScenarios | CPP/7zip/Archive/Inno/InnoItem.cpp:46-73 | `not IsWin64` gives no; it turns a yes into unsure; an empty word keeps the negation; any other word cancels it |
| Items.Path | CPP/7zip/Archive/Inno/InnoItem.cpp:84-104 | the install path: the fixed uninstaller name for the stub, the destination with the architecture prefix when names collide, the destination otherwise, and the embedded prefix plus the name for a generated item |
| Items.Size | CPP/7zip/Archive/Inno/InnoItem.cpp:106-111 | the uncompressed size of a file's data entry, 0 for the uninstaller stub, the given size for a generated item |
| Items.Offset | CPP/7zip/Archive/Inno/InnoItem.cpp:113-118 | the offset of a file's data in its chunk, 0 for the stub and for a generated item |
| Items.Attrib | CPP/7zip/Archive/Inno/InnoItem.cpp:120-123 | a file's attributes, 0 for a generated item |
| Items.Checksum | CPP/7zip/Archive/Inno/InnoItem.cpp:125-128 | a file's stored checksum value, 0 for a generated item |
| Items.IsEncrypted | CPP/7zip/Archive/Inno/InnoItem.cpp:130-133 | a file is encrypted exactly when its chunk is not plaintext; a generated item never is |
| Items.Comment | CPP/7zip/Archive/Inno/InnoItem.cpp:180-183 | a file's `Check` expression, the fixed text for a generated item |
| Items.UninstallerStub | CPP/7zip/Archive/Inno/InnoItem.cpp:84-118 | the uninstaller entry is `unins___.exe`, whatever the collision flag, with size and offset 0 |
| Items.UserFileMetadata | CPP/7zip/Archive/Inno/InnoItem.cpp:84-133 | a file's path is its destination, prefixed by its architecture only in an archive with colliding paths; size, offset and encryption come from its data entry |
| Items.PathsDistinguishArch | CPP/7zip/Archive/Inno/InnoItem.cpp:89-101 | in a colliding archive, two files with the same destination and different known architectures get different paths |
| Items.EmbeddedMetadata | CPP/7zip/Archive/Inno/InnoItem.h:60-71 | an embedded item's path is `embedded\` plus its name; it has the given size and method, offset, attributes and checksum 0, no encryption, and comment `Auto generated` |
| Items.EmbeddedPathInjective | CPP/7zip/Archive/Inno/InnoItem.h:60 | different embedded names give different paths |
| Items.CompressionPart | CPP/7zip/Archive/Inno/InnoItem.cpp:138-158 | the compression name of the method string, empty for stored data |
| Items.FilterPart | CPP/7zip/Archive/Inno/InnoItem.cpp:159-176 | the filter name of the method string, empty for no filter |
| Items.MethodString | CPP/7zip/Archive/Inno/InnoItem.cpp:135-178 | the two names joined by a colon when both are present, otherwise whichever is present |
| Items.Method | CPP/7zip/Archive/Inno/InnoItem.cpp:135-178 | a file's method string from its chunk's compression and its filter; a generated item's given method |
| Items.CompressionPartFacts | CPP/7zip/Archive/Inno/InnoItem.cpp:135-158 | each compression name has no colon, parses back to its method, and is empty only for stored data |
| Items.FilterPartFacts | CPP/7zip/Archive/Inno/InnoItem.cpp:159-176 | each filter name has no colon, parses back to its filter, and is empty only for no filter |
| Items.ParseInvertsMethod | CPP/7zip/Archive/Inno/InnoItem.cpp:135-178 | the method string determines the compression and filter it was made from |
| Items.MethodStringInjective | CPP/7zip/Archive/Inno/InnoItem.cpp:135-178 | different compression and filter pairs give different strings, which hold a colon only when both parts are present |
| Streams.Upstream.Read | CPP/7zip/Archive/Inno/InnoExtract/minihead_iostreams.hpp:146-150 | a read of a scripted device returns the next scripted outcome's count, copies its bytes (at most `n`) to the destination and advances the script |
| Streams.MiniBuffer.constructor | CPP/7zip/Archive/Inno/InnoExtract/minihead_iostreams.hpp:32-41 | a new buffer has storage of the given size, an empty get area at its start, its data window over the whole storage, and end of data unset |
| Streams.MiniBuffer.Set | CPP/7zip/Archive/Inno/InnoExtract/minihead_iostreams.hpp:82-86 | the data window becomes `[p, e)`; the get area and the end-of-data flag are unchanged |
| Streams.SymmetricFilter.constructor | CPP/7zip/Archive/Inno/InnoExtract/minihead_iostreams.hpp:224-226 | a new driver has a fresh input buffer of the given size and state 0, and has absorbed and emitted nothing |
| Streams.SymmetricFilter.Fill | CPP/7zip/Archive/Inno/InnoExtract/minihead_iostreams.hpp:270-280 | the input window becomes what the upstream delivered, with status good, or would-block when nothing came; end of input sets the end flag and keeps the window |
| Streams.SymmetricFilter.Invoke | CPP/7zip/Archive/Inno/InnoExtract/minihead_iostreams.hpp:246-254 | one transform call consumes a prefix of the pending input, writes its output at the cursor within the room left, and with room to spare consumes all input |
| Streams.SymmetricFilter.Round | CPP/7zip/Archive/Inno/InnoExtract/minihead_iostreams.hpp:242-267 | one round appends the transform's output at the cursor; it stops only with the output full, the input exhausted on would-block, or the filter done |
| Streams.SymmetricFilter.Refuel | CPP/7zip/Archive/Inno/InnoExtract/minihead_iostreams.hpp:262-266 | an exhausted input is refilled from upstream, which strictly consumes the upstream script |
| Streams.SymmetricFilter.Begin | CPP/7zip/Archive/Inno/InnoExtract/minihead_iostreams.hpp:232-239 | the first `read` records `f_read` and empties the input window, keeping every byte taken from upstream accounted for; the loop starts at end of data exactly when `f_eof` is set |
| Streams.SymmetricFilter.Drive | CPP/7zip/Archive/Inno/InnoExtract/minihead_iostreams.hpp:242-267 | the loop appends the transform's output from `off` on, at most `n` bytes, keeps the filter's accounting, and when the filter is not done stops only with the request satisfied or the input exhausted on would-block |
| Streams.SymmetricFilter.Read | CPP/7zip/Archive/Inno/InnoExtract/minihead_iostreams.hpp:228-268 | the destination receives exactly the new transform output, at most `n` bytes; if not done the result is that count, which is `n` unless input ran dry on would-block; if done it is the done result; the end flag is sticky |
| Streams.DoneResult | CPP/7zip/Archive/Inno/InnoExtract/minihead_iostreams.hpp:253 | as written, the count a done filter returns: `n` when it produced anything, `-1` otherwise |
| Streams.DoneResultCorrected | CPP/7zip/Archive/Inno/InnoExtract/minihead_iostreams.hpp:253 | the corrected done result is the number of bytes produced, or `-1` when there are none |
| Streams.DoneResultOverstates | CPP/7zip/Archive/Inno/InnoExtract/minihead_iostreams.hpp:253 | as written, a done filter that produced between 1 and `n-1` bytes reports `n` |
| Streams.DoneResultPartialExample | CPP/7zip/Archive/Inno/InnoExtract/minihead_iostreams.hpp:253 | one byte produced for a request of 4096 is reported as 4096 |
| Streams.LinkedFilter.Source | CPP/7zip/Archive/Inno/InnoExtract/minihead_iostreams.hpp:195-199 | a source stage reads its device directly and starts with an empty buffer |
| Streams.LinkedFilter.Filter | CPP/7zip/Archive/Inno/InnoExtract/minihead_iostreams.hpp:165-169 | a filter stage reads through its symmetric filter and starts with an empty buffer |
| Streams.LinkedFilter.ReadMore | CPP/7zip/Archive/Inno/InnoExtract/minihead_iostreams.hpp:181-189 | a source stage copies the upstream's next outcome into its storage and returns its count; a filter stage places the filter's new output at the start of its storage and returns that output's length, `-1` only when there is none, except that a done filter with a partial output claims the whole storage (`overstates`) |
| Streams.LinkedFilter.Underflow | CPP/7zip/Archive/Inno/InnoExtract/minihead_iostreams.hpp:43-75 | with data left it returns the next byte and changes nothing; otherwise it refills from the start of the storage, sets end of data on `-1`, and returns the first new byte or end of file; a filter stage stays exact (produced equals what its filter emitted) unless the refill overstated |
| Streams.LinkedFilter.Refill | CPP/7zip/Archive/Inno/InnoExtract/minihead_iostreams.hpp:51-75 | an empty get area is reset to the storage's start and refilled through `readmore`; `-1` sets end of data and leaves it empty; a filter stage stays exact unless `readmore` overstated, which only a filter does and only by claiming the whole storage |
| Streams.LinkedFilter.Publish | CPP/7zip/Archive/Inno/InnoExtract/minihead_iostreams.hpp:67-74 | the get area covers the bytes that arrived; the result is the first of them, or end of file when none did |
| Streams.LinkedFilter.Get | CPP/7zip/Archive/Inno/InnoExtract/minihead_iostreams.hpp:177-180 | one byte is delivered and returned, or end of file is returned with the get area empty and nothing delivered |
| Streams.LinkedFilter.Sgetn | CPP/7zip/Archive/Inno/InnoExtract/minihead_iostreams.hpp:172 | the bytes copied from `off` on are exactly the next bytes the stage delivers, at most `n`; fewer only when the stage has nothing more to give |
| Streams.LinkedFilter.Read | CPP/7zip/Archive/Inno/InnoExtract/minihead_iostreams.hpp:170-176 | the wrapper copies the next delivered bytes and returns their count, or `-1` when none came and end of data is set; a source stage delivers only what its device gave, and an exact filter stage only what its filter emitted |
| Streams.CounterAfterRead | CPP/7zip/Archive/Inno/InnoExtract/minihead_iostreams.hpp:411-422 | `read` on a non-empty chain adds the requested count to the total; on an empty chain the total is unchanged |
| Streams.CounterAfterXsgetn | CPP/7zip/Archive/Inno/InnoExtract/minihead_iostreams.hpp:427-431 | as written, the total grows by the requested count on an empty chain and by twice the requested count otherwise |
| Streams.CounterAfterXsgetnCorrected | CPP/7zip/Archive/Inno/InnoExtract/minihead_iostreams.hpp:427-431 | corrected, the total grows by the requested count once on a non-empty chain and is unchanged on an empty one |
| Streams.XsgetnCountsTwice | CPP/7zip/Archive/Inno/InnoExtract/minihead_iostreams.hpp:419-431 | as written, an `xsgetn` of `count > 0` bytes advances the total by `2·count`, unlike a plain `read` |
| Streams.XsgetnCorrectedCountsOnce | CPP/7zip/Archive/Inno/InnoExtract/minihead_iostreams.hpp:419-431 | the corrected total advances by exactly the requested count, or not at all on an empty chain |
| Streams.Chain.constructor | CPP/7zip/Archive/Inno/InnoExtract/minihead_iostreams.hpp:426 | a new chain has no stages and a zero total |
| Streams.Chain.Push | CPP/7zip/Archive/Inno/InnoExtract/minihead_iostreams.hpp:378-397 | one fresh stage of the pushed kind is appended, the earlier stages are kept, and the previous last stage is linked to the new one |
| Streams.Chain.Start | CPP/7zip/Archive/Inno/InnoExtract/minihead_iostreams.hpp:378-397 | pushing onto an empty chain makes the new stage the only one |
| Streams.Chain.Extend | CPP/7zip/Archive/Inno/InnoExtract/minihead_iostreams.hpp:391-396 | pushing onto a non-empty chain appends the stage and keeps the head |
| Streams.Chain.NewStage | CPP/7zip/Archive/Inno/InnoExtract/minihead_iostreams.hpp:380-390 | a pushed filter or source becomes a fresh stage of that kind with an empty buffer |
| Streams.Chain.Link | CPP/7zip/Archive/Inno/InnoExtract/minihead_iostreams.hpp:391-395 | the previous last stage is set to pull from the new stage |
| Streams.Chain.Read | CPP/7zip/Archive/Inno/InnoExtract/minihead_iostreams.hpp:411-422 | an empty chain returns 0; otherwise the first stage's next delivered bytes are copied and counted as by the wrapper's `read`, and the total grows by the requested count |
| Streams.Chain.Xsgetn | CPP/7zip/Archive/Inno/InnoExtract/minihead_iostreams.hpp:427-431 | on a non-empty chain the bytes copied from `off` on are the next bytes the front stage delivers, at most `count`, and the result is their number or `-1` exactly when none came at end of data; as written the total grows by twice the requested count (once on an empty chain, which copies nothing and returns 0) |
| Streams.Chain.TotalRead | CPP/7zip/Archive/Inno/InnoExtract/minihead_iostreams.hpp:424 | the chain's running total, as `read` and `xsgetn` leave it |
| Streams.InputStream.SeekCur | CPP/7zip/Archive/Inno/InnoExtract/minihead_iostreams.hpp:333 | a relative seek moves the position; a seek before the start, or on a failed stream, fails the stream and leaves the position |
| Streams.InputStream.Read | CPP/7zip/Archive/Inno/InnoExtract/minihead_iostreams.hpp:343-345 | a read copies `min(k, available)` bytes from the position and advances it; a short read fails the stream; a failed stream reads nothing |
| Streams.Got | CPP/7zip/Archive/Inno/InnoExtract/minihead_iostreams.hpp:344-345 | what a read of `k` bytes gets is at most `k` and at most what the stream still holds |
| Streams.RestrictRead | CPP/7zip/Archive/Inno/InnoExtract/minihead_iostreams.hpp:336-348 | a request of 0 returns 0 and changes nothing; an exhausted window returns `-1` and changes nothing |
| Streams.RestrictReadHealthy | CPP/7zip/Archive/Inno/InnoExtract/minihead_iostreams.hpp:336-348 | on a healthy stream that holds the remaining window, the read delivers and returns `min(n, remaining)` bytes from the position, and the window and position advance by that much |
| Streams.RestrictReadBounds | CPP/7zip/Archive/Inno/InnoExtract/minihead_iostreams.hpp:336-348 | the window never consumes past its length, a read delivers at most `n` bytes, and a non-`-1` result is what the window consumed |
| Streams.RestrictShortReadAsWritten | CPP/7zip/Archive/Inno/InnoExtract/minihead_iostreams.hpp:343-347 | reading 10 from position 1 of a 3-byte stream delivers [8, 9] but returns `-2` and sets the consumed count to `-2` |
| Streams.RestrictReadCorrected | CPP/7zip/Archive/Inno/InnoExtract/minihead_iostreams.hpp:336-348 | the corrected `restrict::read`: the amount read is the stream's own count of bytes delivered |
| Streams.RestrictReadCorrectedSound | CPP/7zip/Archive/Inno/InnoExtract/minihead_iostreams.hpp:336-348 | counting the bytes actually read, the result is the delivered count (or `-1` exactly when none), the bytes are the next ones in the stream, and the window consumes exactly them, never past its length |
| Streams.RestrictReadCorrectedAgrees | CPP/7zip/Archive/Inno/InnoExtract/minihead_iostreams.hpp:336-348 | when the stream is healthy and holds the bytes asked for, the corrected read and the code as written agree |
| Streams.Restrict.constructor | CPP/7zip/Archive/Inno/InnoExtract/minihead_iostreams.hpp:330-334 | a window of the given length starts with nothing consumed; the stream is seeked by `off` as `seekg` does: a failed stream stays failed where it was, a target before the start fails the stream in place, and otherwise the position moves by `off` |
| Streams.Restrict.Read | CPP/7zip/Archive/Inno/InnoExtract/minihead_iostreams.hpp:336-348 | the result, the bytes delivered and the window's new state equal the read function's |
| Archive.ArchiveMethod | CPP/7zip/Archive/Inno/InnoIn.cpp:135-153 | the name is one of the method names; it is `Copy` exactly for stored data and `Unknown` exactly for unknown compression |
| Archive.ArchiveMethodNames | CPP/7zip/Archive/Inno/InnoIn.cpp:42-50 | the archive method names are distinct; for compressed data they equal the item method without a filter |
| Archive.LicensedLanguages | CPP/7zip/Archive/Inno/InnoIn.cpp:359-362 | the number of languages with a licence is at most the number of languages |
| Archive.EmbeddedCount | CPP/7zip/Archive/Inno/InnoIn.cpp:353-366 | the count lies between 1 + languages + images and 2 + 2·languages + images |
| Archive.CountEmbedded | CPP/7zip/Archive/Inno/InnoIn.cpp:353-366 | the loop computes the embedded count |
| Archive.LicensedLanguagesSplit | CPP/7zip/Archive/Inno/InnoIn.cpp:359-362 | the licence count adds up over concatenated language lists |
| Archive.LicensedLanguagesExtremes | CPP/7zip/Archive/Inno/InnoIn.cpp:359-362 | no licences give 0 and all licences give the number of languages |
| Archive.NumberOfItems | CPP/7zip/Archive/Inno/InnoIn.cpp:124-127 | the item count is the file count plus the embedded count, so at least one more than the files |
| Archive.GetItem | CPP/7zip/Archive/Inno/InnoIn.cpp:171-184 | indices past the files give embedded items; a file whose location lies past the data entries gives none; any other file gives its item with the archive's collision flag, with a value-initialised data entry when it has no location (the source binds that entry to a destroyed temporary; see "## Left out") |
| Archive.NoDataSizeZero | CPP/7zip/Archive/Inno/InnoIn.cpp:179-180 | a file without data is an item of size 0, reading the value-initialised data entry the model keeps in place of the source's destroyed temporary (see "## Left out") |
| Archive.FirstAt | CPP/7zip/Archive/Inno/InnoIn.cpp:314-322 | the result is the first file before `upto` at the location, or none when no file there has it |
| Archive.Keep | CPP/7zip/Archive/Inno/InnoIn.cpp:321 | entries already recorded are kept and new keys are added |
| Archive.CollisionsBelow | CPP/7zip/Archive/Inno/InnoIn.cpp:316-322 | among the first `n` files, each file that shares its location with an earlier one maps to the first such file |
| Archive.CollisionMap | CPP/7zip/Archive/Inno/InnoIn.cpp:311-329 | the collision map a scan of all files builds on an empty map |
| Archive.DuplicatePath | CPP/7zip/Archive/Inno/InnoIn.cpp:323-327 | two different files among the first `n` have the same destination, the condition that sets `_hasCollision` |
| Archive.CollisionMapMeaning | CPP/7zip/Archive/Inno/InnoIn.cpp:311-329 | a file is recorded exactly when an earlier file has its location, and then it maps to the first such file |
| Archive.CollisionMapFirstAppearances | CPP/7zip/Archive/Inno/InnoIn.cpp:311-329 | a recorded first appearance is never itself recorded |
| Archive.CheckCollide | CPP/7zip/Archive/Inno/InnoIn.cpp:191-208 | found exactly when the map is non-empty, the index is a file and it is recorded; then the first appearance is reported; a miss resets it to UInt32 max only when the map is non-empty and the index is a file |
| Archive.CheckAfterScan | CPP/7zip/Archive/Inno/InnoIn.cpp:191-208 | after the scan a file is found exactly when an earlier file shares its location, and the result names the first such file |
| Archive.FoundIsAFile | CPP/7zip/Archive/Inno/InnoIn.cpp:191-208 | a found first appearance is a valid item index |
| Archive.SeekPlan | CPP/7zip/Archive/Inno/InnoIn.cpp:228-236 | positioning: discard forward when the file lies ahead of the reader, rebuild the reader and discard from its start when it lies behind, nothing when the reader is at the file |
| Archive.SeekPlanReaches | CPP/7zip/Archive/Inno/InnoIn.cpp:228-236 | the seek plan reaches the file offset, rebuilds the reader exactly when the offset is behind it, and stays exactly when it is already there |
| Archive.FileBytes | CPP/7zip/Archive/Inno/InnoIn.cpp:237 | a file's bytes are its `size` bytes from `offset` in the decoded chunk, shorter only at the end of the chunk |
| Archive.CopySpec | CPP/7zip/Archive/Inno/InnoIn.cpp:238-256 | on success every byte is written (none in test mode) and saved when asked; a write failure leaves nothing written and saves only the first block |
| Archive.EmbeddedSpec | CPP/7zip/Archive/Inno/InnoIn.cpp:478-482 | a generated item: outside test mode its content is written and a refused write's code is returned; otherwise `S_OK` with nothing written; nothing is ever saved |
| Archive.ExtractSpec | CPP/7zip/Archive/Inno/InnoIn.cpp:210-268 | one `ExtractItem` call: its outcome, the bytes saved and written and the cache afterwards, for a generated item, a multi-part setup, a file without data or a bad location, the null-reader case and a file with data (the function `Archive.InArchive.ExtractItem` is proved against) |
| Archive.ExtractOutcomes | CPP/7zip/Archive/Inno/InnoIn.cpp:210-268 | a generated item saves nothing and keeps the cache; outside test mode its content is written and it returns S_OK, or the refused write's code with nothing written; in test mode or with no content it returns S_OK and writes nothing; a file without data returns S_OK and writes nothing; a location past the data entries returns S_FALSE; otherwise, when testing or the output accepts, it returns S_OK, writes the file's bytes unless testing, saves them when asked, and caches a reader on the file's chunk |
| Archive.ExtractMultiPart | CPP/7zip/Archive/Inno/InnoIn.cpp:288-309 | a first extraction from a setup whose data is in external files throws not implemented and changes nothing |
| Archive.ExtractIgnoresSizeMismatch | CPP/7zip/Archive/Inno/InnoIn.cpp:258-266 | a file whose declared size differs from its copied bytes still extracts with S_OK |
| Archive.Sink.Write | CPP/7zip/Archive/Inno/InnoIn.cpp:253 | an accepting sink appends the bytes and returns S_OK; a refusing one returns its failure code (a code other than S_OK, as its constructor demands) and keeps its data |
| Archive.CopyOut | CPP/7zip/Archive/Inno/InnoIn.cpp:238-257 | the block loop's outcome, written bytes and saved bytes equal the copy specification's |
| Archive.ChunkReader.constructor | CPP/7zip/Archive/Inno/InnoIn.cpp:335 | a new reader holds the decoded chunk and has read nothing |
| Archive.ChunkReader.Discard | CPP/7zip/Archive/Inno/InnoIn.cpp:230 | skipping bytes advances the read total by exactly that much |
| Archive.ChunkReader.ReadFile | CPP/7zip/Archive/Inno/InnoIn.cpp:237 | reading a file yields its bytes and advances the total by its declared size |
| Archive.InArchive.constructor | CPP/7zip/Archive/Inno/InnoIn.cpp:106-111 | after opening, the collision map and the path-collision flag describe the files, and no reader is cached |
| Archive.InArchive.FindCollideLocation | CPP/7zip/Archive/Inno/InnoIn.cpp:311-329 | the map gains every later file that shares an earlier file's location, keeping existing entries; the flag is raised exactly when a destination repeats |
| Archive.InArchive.CheckCollideLocations | CPP/7zip/Archive/Inno/InnoIn.cpp:191-208 | the lookup in the archive's collision map: not found for an empty map or an index past the files, otherwise found exactly when the index has an entry, with its first appearance |
| Archive.InArchive.OpenChunk | CPP/7zip/Archive/Inno/InnoIn.cpp:331-339 | the same chunk keeps the cached reader; another chunk gets a fresh reader at position 0, which is cached |
| Archive.InArchive.ResetChunkReader | CPP/7zip/Archive/Inno/InnoIn.cpp:341-345 | a fresh reader for the chunk at position 0 replaces the cached one |
| Archive.InArchive.Position | CPP/7zip/Archive/Inno/InnoIn.cpp:228-236 | the reader ends at the file offset; it is rebuilt exactly when it had read past it |
| Archive.InArchive.ExtractItem | CPP/7zip/Archive/Inno/InnoIn.cpp:210-268 | the outcome, the bytes written and saved, and the new reader cache equal the extraction specification's |
| Archive.InArchive.ExtractEntry | CPP/7zip/Archive/Inno/InnoIn.cpp:224-267 | when the chunk equals the default one and no reader is cached, `ExtractItem` calls `TotalRead()` through the null reader, and the model stops with the `NullReader` fault, changing nothing; otherwise the output receives what the copy specification writes and the cached reader sits on the file's chunk just past the file |
| Archive.ScanFiles | CPP/7zip/Archive/Inno/InnoIn.cpp:314-328 | the scan loop computes the collision map and the repeated-destination flag |
| Archive.ScanLocation | CPP/7zip/Archive/Inno/InnoIn.cpp:316-322 | one file's location is recorded as seen or, when seen before, mapped to its first appearance |
| Archive.ScanPath | CPP/7zip/Archive/Inno/InnoIn.cpp:323-327 | one file's destination is recorded, raising the flag when it was seen before |
| Handler.ReportFor | CPP/7zip/Archive/Inno/InnoHandler.cpp:206-218 | S_OK reports OK, out of memory reports unavailable, and every other code reports a data error |
| Handler.Upto | CPP/7zip/Archive/Inno/InnoHandler.cpp:146-149 | the all-files index list is 0 to n-1 in order |
| Handler.Worklist | CPP/7zip/Archive/Inno/InnoHandler.cpp:140-149 | the batch is every item in order when all files are asked for, otherwise the first `numItems` requested indices |
| Handler.AllFilesBatch | CPP/7zip/Archive/Inno/InnoHandler.cpp:146-149 | the all-files batch has every item once in order, at least one |
| Handler.PrePass | CPP/7zip/Archive/Inno/InnoHandler.cpp:153-165 | the pre-pass from the last position down to `lo`: the reuse-buffer keys for aliases whose first appearance is within the batch, the summed sizes, and failure when an item view cannot be built |
| Handler.PrePassStaysFailed | CPP/7zip/Archive/Inno/InnoHandler.cpp:153-165 | once a position's item is out of range the whole pre-pass fails |
| Handler.PrePassSums | CPP/7zip/Archive/Inno/InnoHandler.cpp:153-165 | the pre-pass succeeds exactly when every item it visits exists, and its total is their size sum |
| Handler.PrePassKeys | CPP/7zip/Archive/Inno/InnoHandler.cpp:155-163 | the buffers prepared are exactly the first appearances, below the batch size, of the visited aliases |
| Handler.PrePassSkipsFirst | CPP/7zip/Archive/Inno/InnoHandler.cpp:153 | the total as written misses exactly the size of the batch's first item |
| Handler.PrePassSingleItem | CPP/7zip/Archive/Inno/InnoHandler.cpp:153 | a one-item batch of a non-empty file reports a total of 0 |
| Handler.PrePassCorrectedTotal | CPP/7zip/Archive/Inno/InnoHandler.cpp:152-165 | a pre-pass from position 0 totals the sizes of all items in the batch |
| Handler.Choose | CPP/7zip/Archive/Inno/InnoHandler.cpp:180-205 | an alias serves a filled buffer or fills an empty one when its first appearance is below the batch size, and is left unserved otherwise; other items extract saving when a buffer waits for them, plainly when not |
| Handler.ChooseCorrected | CPP/7zip/Archive/Inno/InnoHandler.cpp:180-205 | without the batch-size test an alias is always served or filled |
| Handler.ChooseCorrectedAgrees | CPP/7zip/Archive/Inno/InnoHandler.cpp:184 | the code as written and the corrected choice differ only for aliases whose first appearance is not below the batch size |
| Handler.ChooseAfterScan | CPP/7zip/Archive/Inno/InnoHandler.cpp:182-205 | with the scanned map and the all-files batch size, no item is left unserved, and an item is served or filled exactly when an earlier file shares its location |
| Handler.LoneAliasIsDataError | CPP/7zip/Archive/Inno/InnoHandler.cpp:184 | with locations [0,5,5] and the batch [2], item 2 is left unserved and reports a data error; the corrected choice fills it from item 1 |
| Handler.ServeWritesBuffer | CPP/7zip/Archive/Inno/InnoHandler.cpp:186-195 | serving writes the non-empty saved buffer to the host's stream, reports OK and leaves the buffers and the reader cache alone |
| Handler.FillStoresFile | CPP/7zip/Archive/Inno/InnoHandler.cpp:186-191 | filling stores the file's bytes in the buffer of its first appearance, writes them unless testing and reports OK |
| Handler.Record | CPP/7zip/Archive/Inno/InnoHandler.cpp:206-218 | one item's result code is reported as its operation result and its output recorded |
| Handler.Finish | CPP/7zip/Archive/Inno/InnoHandler.cpp:206-218 | an extraction that stopped with a fault ends the batch; a returned code is recorded |
| Handler.Dispatched | CPP/7zip/Archive/Inno/InnoHandler.cpp:180-205 | serving one position once its stream is ready: a lone alias gets E_FAIL, an alias with a filled buffer is served from it, otherwise the file is extracted, filling or extending a reuse buffer when the plan says so |
| Handler.ItemStep | CPP/7zip/Archive/Inno/InnoHandler.cpp:174-221 | one position of the main pass: a stream request or `PrepareOperation` answering any code but S_OK (S_FALSE included) ends the batch with its code, a missing stream with E_FAIL, and otherwise the position is dispatched |
| Handler.FinishReports | CPP/7zip/Archive/Inno/InnoHandler.cpp:206-218 | a returned code adds one report and a thrown error stops the batch without one |
| Handler.DispatchedReports | CPP/7zip/Archive/Inno/InnoHandler.cpp:180-218 | a dispatched item adds one report and one output, or stops the batch only by a thrown error |
| Handler.StepContinues | CPP/7zip/Archive/Inno/InnoHandler.cpp:172-221 | each item adds one report and one output, or stops the batch: a stream request or `PrepareOperation` answering any code but S_OK (S_FALSE included) with its code, a missing stream with E_FAIL, and otherwise only a thrown error |
| Handler.Run | CPP/7zip/Archive/Inno/InnoHandler.cpp:172-222 | the main pass from position `i` on: each position in turn until one stops the batch |
| Handler.RunReportsEveryItem | CPP/7zip/Archive/Inno/InnoHandler.cpp:172-222 | a batch that does not stop reports every item, and one that stops reports fewer |
| Handler.StoppedIsNotOk | CPP/7zip/Archive/Inno/InnoHandler.cpp:172-223 | a batch stops only with a code other than `S_OK` or a fault |
| Handler.EmptyBuffers | CPP/7zip/Archive/Inno/InnoHandler.cpp:159-162 | the prepared buffers are empty, one per key |
| Handler.ExtractBatch | CPP/7zip/Archive/Inno/InnoHandler.cpp:135-224 | a whole `Extract` call: an empty request returns at once; otherwise the pre-pass, then the main pass, returning `S_OK` unless the batch stopped (the function `Handler.Handler.Extract` is proved against) |
| Handler.ExtractBatchReports | CPP/7zip/Archive/Inno/InnoHandler.cpp:135-223 | an empty batch returns S_OK with nothing reported and the reader cache unchanged; a batch that returns S_OK has one report and one output per item |
| Handler.Handler.PrePassLoop | CPP/7zip/Archive/Inno/InnoHandler.cpp:153-165 | the loop's success, total and prepared buffers equal the pre-pass function's |
| Handler.Handler.ExtractOne | CPP/7zip/Archive/Inno/InnoHandler.cpp:174-221 | one item's handling, the reader cache included, equals the item-step function's |
| Handler.Handler.Dispatch | CPP/7zip/Archive/Inno/InnoHandler.cpp:180-205 | the chosen strategy's effect equals the dispatch function's |
| Handler.Handler.ExtractTo | CPP/7zip/Archive/Inno/InnoHandler.cpp:198-205 | extracting into a new output equals the extraction specification, and the archive's cache is the one it reports |
| Handler.Handler.ServePosition | CPP/7zip/Archive/Inno/InnoHandler.cpp:174-221 | the batch state after one position equals the item-step function's |
| Handler.Handler.MainPass | CPP/7zip/Archive/Inno/InnoHandler.cpp:172-222 | the main loop's final state equals the run function's |
| Handler.Handler.Extract | CPP/7zip/Archive/Inno/InnoHandler.cpp:135-224 | the outcome, the announced total, the reports, the outputs and the archive's reader cache equal the batch specification's |

## Left out

- COM plumbing is not modelled: the `IArchiveExtractCallback` and
  `ISequentialOutStream` adapters, property reporting, and the file I/O
  beneath the slice reader.
- The host callback is a scripted list of answers, one per batch position.
  Each answer is a stream failure, a missing stream, or a stream with its
  `PrepareOperation` code, whether it accepts writes and the code it fails
  with.
- A write either takes the whole block or fails with nothing taken. Partial
  writes are not modelled.
- Decompression (zlib, bzip2, LZMA), decryption and the instruction filters
  are not modelled. A symmetric filter's transform is a function value
  constrained by a conformance predicate.
- A chunk's decoded content is a collaborator function of the opened setup,
  standing in for `stream::chunk_reader::get` and the slice reader.
- Each stream stage pulls from a scripted upstream (its device, or the
  stage pushed after it), not from another stage object.
- `util::discard` is modelled as advancing the chunk reader's position
  over the bytes it skips.
- CRC checksums of extracted files are not computed. The code computes
  them but ignores the result.
- The generated (embedded) files are collaborators of the opened setup:
  their item views (`CEmbeddedFiles::GetItem`) and the bytes their
  generators produce (the `Generate...Content` functions). How an index
  picks its generator is part of that collaborator. What
  `CEmbeddedFiles::ExtractItem` does with the bytes is modelled, and so is
  the count of generated items.
- `Archive.InArchive.constructor`: the default chunk value is a parameter,
  because `stream::chunk` is not part of this model. Parsing the setup
  headers (`Open`, `OpenInfo`) is not modelled.
- UInt32 and UInt64 wrap-around of item counts, sizes and running totals is
  not modelled. Counts and sizes are unbounded naturals.
- `SetTotal` and `SetCompleted` progress calls, timestamps, logging and
  `GetHeaderSize` are left out. The total `Extract` announces is returned
  as a value.
- The metadata getters (`GetPath`, `GetSize`, `GetComment` and the rest)
  are functions of an item value. Their COM property wrappers are not
  modelled.
- `std::streambuf::sgetn` and `sbumpc`, used by the wrappers' `read` and
  `get`, follow the standard library's behaviour.
- `Archive.ChunkReader.ReadFile`: assumes that reading a file advances the
  reader's total by exactly the file's declared size, and that the bytes are
  the declared range of the chunk, cut short cleanly at the chunk's end. The
  chain as written does not keep that count. `chain::read` adds the count
  requested, not the count delivered. `xsgetn` adds it twice (the `xsgetn`
  row under "## Findings"). A short `restrict` read reports a negative
  count (the `restrict` row under "## Findings"). The discard arithmetic at
  `CPP/7zip/Archive/Inno/InnoIn.cpp:228-236` relies on this total, so the
  mispositioning those discrepancies could cause is not modelled.
- `Archive.GetItem`: for a file without data (location `(uint32_t)-1`)
  the source builds its item from a temporary `setup::data_entry()`
  (`CPP/7zip/Archive/Inno/InnoIn.cpp:180`). `CItem` keeps only a reference
  to it (`CPP/7zip/Archive/Inno/InnoItem.h:39,43-44`), and the temporary is
  destroyed before `GetItem` returns. Reading the item's data afterwards is
  undefined behaviour in C++. This includes `GetSize` in the handler's
  pre-pass (`CPP/7zip/Archive/Inno/InnoHandler.cpp:164`) for a file that is
  not the uninstaller. The model keeps the value-initialised entry
  (`EmptyData`) instead, so `Archive.NoDataSizeZero` states the size that
  entry would give, not a guarantee of the source.
- `Items.Method`: `CItem::GetMethod` returns a `std::string_view` into a
  local `std::string` that is destroyed on return
  (`CPP/7zip/Archive/Inno/InnoItem.cpp:135,177`), so the view dangles. The
  model returns the string the view was meant to show. No caller inside
  this model reads that view.
- `Archive.InArchive.ExtractEntry`: when no chunk reader was ever made and
  the file's chunk equals the default chunk, `ExtractItem` calls
  `TotalRead()` on the null `_pChunkReader`
  (`CPP/7zip/Archive/Inno/InnoIn.cpp:228`). That is undefined behaviour in
  C++. The model turns it into a stop with the `NullReader` fault that
  changes nothing.
- Strings are sequences of Dafny `char`, not bytes in a code page.
  `LowerChar`, `UpperChar` and `IsAlnum` follow the C locale: only the
  ASCII letters and digits are recognised and case-mapped.
- `Streams.InputStream.Read`: models only what `restrict::read` relies on:
  a short read sets the fail state, and `tellg` then answers `-1`.

## Findings

| source | as written | input that shows it | evidently intended | confidence | as-written member | corrected member |
|---|---|---|---|---|---|---|
| CPP/7zip/Archive/Inno/InnoExtract/minihead_iostreams.hpp:253 | when the filter reports it is done, `read` returns `n` whatever it produced | a done filter that produced 1 byte for a request of 4096 reports 4096 bytes | return the number of bytes produced, or `-1` when none | not executed; high | Streams.DoneResultPartialExample | Streams.DoneResultCorrected |
| CPP/7zip/Archive/Inno/InnoExtract/minihead_iostreams.hpp:427-431 | `xsgetn` adds `count` to the total and then calls `read`, which adds it again | one `xsgetn` of 10 bytes advances `TotalRead` by 20 | count each request once | not executed; medium | Streams.XsgetnCountsTwice | Streams.CounterAfterXsgetnCorrected |
| CPP/7zip/Archive/Inno/InnoHandler.cpp:153 | the pre-pass loop runs while `i > 0`, so position 0 is never visited | a batch of one non-empty file announces a total size of 0 | visit every position of the batch | not executed; high | Handler.PrePassSingleItem | Handler.PrePassCorrectedTotal |
| CPP/7zip/Archive/Inno/InnoHandler.cpp:184 | an alias's first appearance, an archive index, is compared with the batch size | files at locations [0,5,5], batch [2]: item 2's first appearance 1 is not below 1, so nothing is written and a data error is reported | serve or fill the alias whatever its first appearance | not executed; high | Handler.LoneAliasIsDataError | Handler.ChooseCorrected |
| CPP/7zip/Archive/Inno/InnoExtract/minihead_iostreams.hpp:343-347 | the amount read is taken as the difference of two `tellg` calls, and the second is `-1` after a short read fails the stream | a read of 10 through a 4096-byte window at position 1 of a 3-byte stream gets 2 bytes but reports `-2`, and the consumed count becomes `-2` | use the stream's own count of bytes read (`gcount`) | not executed; high | Streams.RestrictShortReadAsWritten | Streams.RestrictReadCorrectedSound |

=== FILE: archive.dfy ===
/**
 * The archive-level extraction logic of the Inno Setup reader (InnoIn.cpp):
 * the collision scan run when an archive is opened, its lookup, the item
 * counts, the archive's method name, the one-slot chunk-reader cache and
 * `ExtractItem`, which positions the chunk reader at a file and copies the
 * file out in 16 KiB blocks.
 *
 * The setup headers, the slice and chunk readers and the embedded
 * (generated) files are collaborators: the headers are a `SetupInfo` value,
 * decompressing a chunk is the function `decode`, and the generated files
 * are the functions `embeddedItem` (their item views) and `embeddedContent`
 * (the bytes their generators produce).
 */
module Archive {
  import opened Common
  import opened Items

  // ------------------------------------------------------------ result codes

  /** COM result codes, as the signed 32-bit values `HRESULT` holds. */
  const S_OK: int := 0
  const S_FALSE: int := 1
  const E_FAIL: int := -0x7FFF_BFFB            // 0x80004005
  const E_OUTOFMEMORY: int := -0x7FF8_FFF2     // 0x8007000E

  /** The codes `RINOK` passes straight back: every code but `S_OK`,
      including the positive `S_FALSE`. */
  predicate NotOk(hr: int) { hr != S_OK }

  /** How the extraction path stops without returning a code: the two C++
      exceptions it can raise, and a call through a null chunk reader, which
      is undefined behaviour in C++ and is modelled as a stop. */
  datatype Fault =
    | NotImplemented   // `PrepareExtraction` throws on a multi-part setup
    | OutOfRange       // `data_entries.at` throws for a location past the end
    | NullReader       // `TotalRead()` called on a chunk reader never made

  /** How a call ends: it returns a code or it stops with a fault. */
  datatype Outcome = Returned(hr: int) | Threw(fault: Fault)

  // --------------------------------------------------------------- the setup

  datatype Language = Language(licence: string)
  datatype Header = Header(compression: Compression, licence: string)

  /** The parts of `setup::info` the extraction logic reads. */
  datatype SetupInfo = SetupInfo(header: Header, files: seq<FileEntry>,
                                 dataEntries: seq<DataEntry>, languages: seq<Language>,
                                 wizardImages: seq<seq<byte>>, wizardImagesSmall: seq<seq<byte>>)

  /** What an opened archive is made of: the headers, the offset of the
      setup data in the installer (0 for a multi-part setup), the
      decompressed content of each chunk, the generated items, and the
      content generated for each of them (`None` when no generator matches
      the index). */
  datatype Setup = Setup(info: SetupInfo, dataOffset: nat,
                         decode: Chunk -> seq<byte>,
                         embeddedItem: nat -> Item,
                         embeddedContent: nat -> Option<seq<byte>>)

  /** `(uint32_t)-1`: the location of a file without data. */
  const NO_LOCATION: nat := UINT32_MAX

  /** The block size of the copy loop in `ExtractItem`. */
  const BLOCK_SIZE: nat := 16 * 1024

  // ----------------------------------------------------------- method names

  /** `kMethods`, indexed by the archive's compression method. */
  const ARCHIVE_METHODS: seq<string> := ["Copy", "Deflate", "BZip2", "LZMA", "LZMA2", "Unknown"]

  /** `CInArchive::GetMethod`: the name of the archive-wide compression. */
  function ArchiveMethod(c: Compression): (name: string)
    ensures name in ARCHIVE_METHODS
    ensures name == "Copy" <==> c == Stored
    ensures name == "Unknown" <==> c == UnknownCompression
  {
    match c
    case Stored => ARCHIVE_METHODS[0]
    case Zlib => ARCHIVE_METHODS[1]
    case BZip2 => ARCHIVE_METHODS[2]
    case LZMA1 => ARCHIVE_METHODS[3]
    case LZMA2 => ARCHIVE_METHODS[4]
    case UnknownCompression => ARCHIVE_METHODS[5]
  }

  /** Distinct methods get distinct names, and apart from stored data the
      archive's name is the compression half of an item's method string. */
  lemma ArchiveMethodNames(c: Compression, d: Compression)
    ensures ArchiveMethod(c) == ArchiveMethod(d) ==> c == d
    ensures c != Stored ==> ArchiveMethod(c) == MethodString(c, NoFilter)
    ensures c == Stored ==> MethodString(c, NoFilter) == ""
  {
  }

  // ------------------------------------------------------------ item counts

  /** The languages that carry a licence text of their own. */
  function LicensedLanguages(langs: seq<Language>): (k: nat)
    ensures k <= |langs|
  {
    if langs == [] then 0
    else LicensedLanguages(langs[..|langs| - 1]) + (if langs[|langs| - 1].licence != [] then 1 else 0)
  }

  /** The number of generated items: the setup script, the licence when the
      header has one, a file per language, a licence per language that has
      one, and the large and small wizard images. */
  function EmbeddedCount(info: SetupInfo): (k: nat)
    ensures 1 + |info.languages| + |info.wizardImages| + |info.wizardImagesSmall| <= k
    ensures k <= 2 + 2 * |info.languages| + |info.wizardImages| + |info.wizardImagesSmall|
  {
    1 + (if info.header.licence == [] then 0 else 1) + |info.languages|
    + LicensedLanguages(info.languages) + |info.wizardImages| + |info.wizardImagesSmall|
  }

  /** `CEmbeddedFiles::GetNumberOfItems`, counting the licensed languages
      in a loop. */
  method CountEmbedded(info: SetupInfo) returns (k: nat)
    ensures k == EmbeddedCount(info)
  {
    k := 1;
    k := k + (if info.header.licence == [] then 0 else 1);
    k := k + |info.languages|;
    var base := k;
    var i := 0;
    while i < |info.languages|
      invariant 0 <= i <= |info.languages|
      invariant k == base + LicensedLanguages(info.languages[..i])
    {
      assert info.languages[..i + 1][..i] == info.languages[..i];
      k := k + (if info.languages[i].licence == [] then 0 else 1);
      i := i + 1;
    }
    assert info.languages[..i] == info.languages;
    k := k + |info.wizardImages| + |info.wizardImagesSmall|;
  }

  /** Licensed languages add up over a split list. */
  lemma {:induction false} LicensedLanguagesSplit(a: seq<Language>, b: seq<Language>)
    ensures LicensedLanguages(a + b) == LicensedLanguages(a) + LicensedLanguages(b)
    decreases |b|
  {
    if b == [] {
      assert a + b == a;
    } else {
      var b' := b[..|b| - 1];
      assert (a + b)[..|a + b| - 1] == a + b';
      LicensedLanguagesSplit(a, b');
    }
  }

  /** Every language is counted once more exactly when it has a licence. */
  lemma {:induction false} LicensedLanguagesExtremes(langs: seq<Language>)
    ensures (forall i :: 0 <= i < |langs| ==> langs[i].licence == []) ==> LicensedLanguages(langs) == 0
    ensures (forall i :: 0 <= i < |langs| ==> langs[i].licence != []) ==> LicensedLanguages(langs) == |langs|
  {
    if langs != [] {
      var init := langs[..|langs| - 1];
      assert forall i :: 0 <= i < |init| ==> init[i] == langs[i];
      LicensedLanguagesExtremes(init);
    }
  }

  /** `CInArchive::GetNumberOfItems`: the files of the setup followed by
      the generated items. */
  function NumberOfItems(info: SetupInfo): (n: nat)
    ensures n >= |info.files| + 1
    ensures n - |info.files| == EmbeddedCount(info)
  {
    |info.files| + EmbeddedCount(info)
  }

  /** `CInArchive::GetItem`: a generated item past the files; a file with
      no location gets the value-initialised data entry; `None` stands for
      the `std::out_of_range` that `data_entries.at` throws for any other
      location past the data entries. */
  function GetItem(a: Setup, hasCollision: bool, index: nat): (r: Option<Item>)
    ensures index >= |a.info.files| ==> r == Some(a.embeddedItem(index - |a.info.files|))
    ensures index < |a.info.files| ==>
      var f := a.info.files[index];
      (r.None? <==> f.location != NO_LOCATION && f.location >= |a.info.dataEntries|)
      && (r.Some? ==> r.value.FileItem? && r.value.file == f && r.value.hasCollision == hasCollision)
      && (f.location == NO_LOCATION ==> r == Some(FileItem(f, EmptyData, hasCollision)))
  {
    if index >= |a.info.files| then Some(a.embeddedItem(index - |a.info.files|))
    else
      var f := a.info.files[index];
      if f.location == NO_LOCATION then Some(FileItem(f, EmptyData, hasCollision))
      else if f.location < |a.info.dataEntries| then Some(FileItem(f, a.info.dataEntries[f.location], hasCollision))
      else None
  }

  /** A file without data has size 0 (as the uninstaller stub does). */
  lemma NoDataSizeZero(a: Setup, hasCollision: bool, index: nat)
    requires index < |a.info.files| && a.info.files[index].location == NO_LOCATION
    ensures GetItem(a, hasCollision, index).Some? && Size(GetItem(a, hasCollision, index).value) == 0
  {
  }

  // ------------------------------------------------------- collision scan

  /** The first of the first `upto` files whose data location is `loc`. */
  function FirstAt(files: seq<FileEntry>, loc: nat, upto: nat): (r: Option<nat>)
    requires upto <= |files|
    ensures r.Some? ==> r.value < upto && files[r.value].location == loc
    ensures r.Some? ==> forall k :: 0 <= k < r.value ==> files[k].location != loc
    ensures r.None? ==> forall k :: 0 <= k < upto ==> files[k].location != loc
  {
    if upto == 0 then None
    else match FirstAt(files, loc, upto - 1)
      case Some(j) => Some(j)
      case None => if files[upto - 1].location == loc then Some(upto - 1) else None
  }

  /** The collision entries of the first `n` files: each file that shares
      its location with an earlier file maps to the first of those. */
  function CollisionsBelow(files: seq<FileEntry>, n: nat): map<nat, nat>
    requires n <= |files|
  {
    map i: nat | i < n && FirstAt(files, files[i].location, i).Some? :: FirstAt(files, files[i].location, i).value
  }

  /** `_collisionLocations` as the scan leaves it on a fresh archive. */
  function CollisionMap(files: seq<FileEntry>): map<nat, nat>
  {
    CollisionsBelow(files, |files|)
  }

  /** Two different files install to the same destination. */
  ghost predicate DuplicatePath(files: seq<FileEntry>, n: nat)
    requires n <= |files|
  {
    exists i, j :: 0 <= i < j < n && files[i].destination == files[j].destination
  }

  /** `emplace` into `kept` of every entry of `added`: existing keys win. */
  function Keep(kept: map<nat, nat>, added: map<nat, nat>): (m: map<nat, nat>)
    ensures m.Keys == kept.Keys + added.Keys
    ensures forall k :: k in kept ==> m[k] == kept[k]
    ensures forall k :: k in added && k !in kept ==> m[k] == added[k]
  {
    map k | k in kept.Keys + added.Keys :: if k in kept then kept[k] else added[k]
  }

  /** A file has an entry exactly when an earlier file has the same data
      location, and the entry is the first such file. */
  lemma CollisionMapMeaning(files: seq<FileEntry>, i: nat)
    requires i < |files|
    ensures i in CollisionMap(files) <==> exists j :: 0 <= j < i && files[j].location == files[i].location
    ensures i in CollisionMap(files) ==>
      var j := CollisionMap(files)[i];
      j < i && files[j].location == files[i].location
      && forall k :: 0 <= k < j ==> files[k].location != files[i].location
  {
    var r := FirstAt(files, files[i].location, i);
    if r.Some? {
      assert i in CollisionMap(files);
    }
  }

  /** The first file at a location never has an entry, and an entry always
      points at one that has none. */
  lemma CollisionMapFirstAppearances(files: seq<FileEntry>, i: nat)
    requires i in CollisionMap(files)
    ensures CollisionMap(files)[i] !in CollisionMap(files)
  {
    var j := CollisionMap(files)[i];
    CollisionMapMeaning(files, i);
    CollisionMapMeaning(files, j);
  }

  // ---------------------------------------------------------- the lookup

  /** `CheckCollideLocations`' answer and what it leaves in its reference
      argument `firstAppearance`. */
  datatype Lookup = Lookup(found: bool, firstAppearance: nat)

  /** `CheckCollideLocations(index, firstAppearance)` on the map `m`, for
      an archive of `fileCount` files; `prior` is the argument's value on
      entry, which the two early exits leave untouched. */
  function CheckCollide(m: map<nat, nat>, fileCount: nat, index: nat, prior: nat): (r: Lookup)
    ensures r.found <==> m != map[] && index < fileCount && index in m
    ensures r.found ==> r.firstAppearance == m[index]
    ensures !r.found && m != map[] && index < fileCount ==> r.firstAppearance == UINT32_MAX
    ensures !r.found && (m == map[] || index >= fileCount) ==> r.firstAppearance == prior
  {
    if m == map[] then Lookup(false, prior)
    else if index >= fileCount then Lookup(false, prior)
    else if index in m then Lookup(true, m[index])
    else Lookup(false, UINT32_MAX)
  }

  /** After the scan, the lookup finds a file exactly when an earlier file
      shares its location, and names the first of those. */
  lemma CheckAfterScan(files: seq<FileEntry>, index: nat, prior: nat)
    ensures var r := CheckCollide(CollisionMap(files), |files|, index, prior);
      (r.found <==> index < |files| && exists j :: 0 <= j < index && files[j].location == files[index].location)
      && (r.found ==> r.firstAppearance < index
                      && files[r.firstAppearance].location == files[index].location
                      && forall k :: 0 <= k < r.firstAppearance ==> files[k].location != files[index].location)
  {
    if index < |files| {
      CollisionMapMeaning(files, index);
      if index in CollisionMap(files) {
        assert CollisionMap(files) != map[];
      }
    }
  }

  /** A file found by the lookup always has a first appearance that is a
      file index, below the archive's item count. */
  lemma FoundIsAFile(info: SetupInfo, index: nat, prior: nat)
    requires CheckCollide(CollisionMap(info.files), |info.files|, index, prior).found
    ensures CheckCollide(CollisionMap(info.files), |info.files|, index, prior).firstAppearance < NumberOfItems(info)
  {
    CheckAfterScan(info.files, index, prior);
  }

  // ------------------------------------------------------- positioning

  /** How `ExtractItem` reaches a file's offset from a chunk reader that has
      consumed `total` bytes: discard forward, rebuild the reader and
      discard from its start, or nothing. */
  datatype Seek = Stay | Skip(count: nat) | Rebuild(count: nat)

  function SeekPlan(offset: nat, total: nat): Seek
  {
    if offset > total then Skip(offset - total)
    else if offset < total then Rebuild(offset)
    else Stay
  }

  /** The reader's count once the plan has been carried out. */
  function Reached(s: Seek, total: nat): nat
  {
    match s
    case Stay => total
    case Skip(k) => total + k
    case Rebuild(k) => k
  }

  /** Every plan lands on the offset, and the reader is rebuilt exactly
      when it has already gone past it. */
  lemma SeekPlanReaches(offset: nat, total: nat)
    ensures Reached(SeekPlan(offset, total), total) == offset
    ensures SeekPlan(offset, total).Rebuild? <==> offset < total
    ensures SeekPlan(offset, total) == Stay <==> offset == total
  {
  }

  // ------------------------------------------------------- extraction spec

  /** The bytes `file_reader` yields for a file: its window of the
      decompressed chunk, cut short where the chunk ends. */
  function FileBytes(content: seq<byte>, loc: FileLocation): (b: seq<byte>)
    ensures |b| <= loc.size
    ensures loc.offset + loc.size <= |content| ==> b == content[loc.offset..loc.offset + loc.size]
    ensures loc.offset >= |content| ==> b == []
  {
    if loc.offset >= |content| then []
    else content[loc.offset..Min(|content|, loc.offset + loc.size)]
  }

  /** The result of the copy loop: whether it finished, what went to the
      saved buffer and what the output stream accepted. */
  datatype Copied = Copied(ok: bool, saved: seq<byte>, written: seq<byte>)

  /** The copy loop over `bytes`: in test mode nothing is written; a
      refused write stops the loop after its block was already saved. */
  function CopySpec(bytes: seq<byte>, testMode: bool, save: bool, accepts: bool): (c: Copied)
    ensures c.ok ==> c.saved == (if save then bytes else []) && c.written == (if testMode then [] else bytes)
    ensures !c.ok ==> !testMode && !accepts && c.written == []
    ensures !c.ok && save ==> c.saved == bytes[..Min(BLOCK_SIZE, |bytes|)]
  {
    if testMode || accepts then Copied(true, if save then bytes else [], if testMode then [] else bytes)
    else Copied(false, if save then bytes[..Min(BLOCK_SIZE, |bytes|)] else [], [])
  }

  /** What an archive's extraction state looks like from outside: whether
      `PrepareExtraction` has run, the chunk last opened and whether a
      chunk reader exists. */
  datatype CacheState = CacheState(initialized: bool, chunk: Chunk, hasReader: bool)

  /** One `ExtractItem` call: its outcome, what it appended to the saved
      buffer, what the output stream received and the cache afterwards. */
  datatype Extraction = Extraction(outcome: Outcome, saved: seq<byte>, written: seq<byte>, cache: CacheState)

  /** `CEmbeddedFiles::ExtractItem`: outside test mode the generated content
      is written, and a refused write's code is passed back by `RINOK`;
      otherwise, and when nothing was generated, it returns `S_OK`. Nothing
      is ever saved. */
  function EmbeddedSpec(content: Option<seq<byte>>, testMode: bool, accepts: bool, failure: int, c: CacheState): Extraction
  {
    if content.None? || testMode then Extraction(Returned(S_OK), [], [], c)
    else if accepts then Extraction(Returned(S_OK), [], content.value, c)
    else Extraction(Returned(failure), [], [], c)
  }

  /** `ExtractItem(index, testMode, sink, save ? buffer : null)` on an
      output stream that accepts every write or refuses every write with
      `failure`. */
  function ExtractSpec(a: Setup, c: CacheState, index: nat, testMode: bool, save: bool,
                       accepts: bool, failure: int): (e: Extraction)
  {
    var files := a.info.files;
    if index >= |files| then
      EmbeddedSpec(a.embeddedContent(index - |files|), testMode, accepts, failure, c)
    else if !c.initialized && a.dataOffset == 0 then
      Extraction(Threw(NotImplemented), [], [], c)
    else
      var c1 := c.(initialized := true);
      var loc := files[index].location;
      if loc >= |a.info.dataEntries| then
        Extraction(Returned(if loc == NO_LOCATION then S_OK else S_FALSE), [], [], c1)
      else
        var d := a.info.dataEntries[loc];
        if d.chunk == c.chunk && !c.hasReader then
          Extraction(Threw(NullReader), [], [], c1)
        else
          var cp := CopySpec(FileBytes(a.decode(d.chunk), d.file), testMode, save, accepts);
          Extraction(Returned(if cp.ok then S_OK else failure), cp.saved, cp.written,
                     CacheState(true, d.chunk, true))
  }

  /** The outcomes of `ExtractItem`: a generated item's content is written
      unless testing, with `S_OK` or the refused write's code, a file
      without data succeeds with no output, any other location past the
      data entries gives `S_FALSE`, and a file with data succeeds whenever
      its bytes could be written, whatever their number or checksum. */
  lemma ExtractOutcomes(a: Setup, c: CacheState, index: nat, testMode: bool, save: bool,
                        accepts: bool, failure: int)
    requires c.initialized || a.dataOffset != 0
    requires |a.info.dataEntries| <= NO_LOCATION
    ensures var e := ExtractSpec(a, c, index, testMode, save, accepts, failure);
      var files := a.info.files;
      (index >= |files| ==>
            var content := a.embeddedContent(index - |files|);
            e.saved == [] && e.cache == c
            && (content.None? || testMode ==> e.outcome == Returned(S_OK) && e.written == [])
            && (content.Some? && !testMode && accepts ==> e.outcome == Returned(S_OK) && e.written == content.value)
            && (content.Some? && !testMode && !accepts ==> e.outcome == Returned(failure) && e.written == []))
      && (index < |files| && files[index].location == NO_LOCATION ==> e.outcome == Returned(S_OK) && e.written == [])
      && (index < |files| && |a.info.dataEntries| <= files[index].location != NO_LOCATION ==>
            e.outcome == Returned(S_FALSE) && e.written == [])
      && (index < |files| && files[index].location < |a.info.dataEntries| && (c.hasReader || c.chunk != a.info.dataEntries[files[index].location].chunk) ==>
            var d := a.info.dataEntries[files[index].location];
            var bytes := FileBytes(a.decode(d.chunk), d.file);
            (testMode || accepts ==> e.outcome == Returned(S_OK)
                                     && e.written == (if testMode then [] else bytes)
                                     && e.saved == (if save then bytes else []))
            && e.cache == CacheState(true, d.chunk, true))
  {
  }

  /** A multi-part setup (no data offset) fails on its first file before
      anything is read. */
  lemma ExtractMultiPart(a: Setup, c: CacheState, index: nat, testMode: bool, save: bool,
                         accepts: bool, failure: int)
    requires !c.initialized && a.dataOffset == 0 && index < |a.info.files|
    ensures ExtractSpec(a, c, index, testMode, save, accepts, failure) == Extraction(Threw(NotImplemented), [], [], c)
  {
  }

  /** The declared size and checksum are never compared: a file whose
      stored bytes are fewer than its declared size is still `S_OK`. */
  lemma ExtractIgnoresSizeMismatch()
    ensures var d := DataEntry(Chunk(0, 0, 3, Stored, Plaintext), FileLocation(0, 3, 7, NoFilter), 100, 0);
      var f := FileEntry("a.txt", "", false, false, UserFile, 0, 0);
      var a := Setup(SetupInfo(Header(Stored, ""), [f], [d], [], [], []), 1,
                     (ch: Chunk) => [1, 2, 3], (k: nat) => EmbeddedItem("", 0, "", 0), (k: nat) => None);
      var e := ExtractSpec(a, CacheState(false, Chunk(0, 0, 0, Stored, Plaintext), false), 0, false, false, true, E_FAIL);
      e.outcome == Returned(S_OK) && e.written == [1, 2, 3] && |e.written| != d.uncompressedSize
  {
    var d := DataEntry(Chunk(0, 0, 3, Stored, Plaintext), FileLocation(0, 3, 7, NoFilter), 100, 0);
    var content: seq<byte> := [1, 2, 3];
    assert FileBytes(content, d.file) == content[0..3];
    assert content[0..3] == [1, 2, 3];
  }

  // ------------------------------------------------------------- objects

  /** The output stream of one item (the writer over the host's stream):
      it accepts every write, or refuses every write with `failure`. */
  class Sink {
    var data: seq<byte>
    const accepts: bool
    const failure: int

    constructor (accepts: bool, failure: int)
      requires NotOk(failure)
      ensures data == [] && this.accepts == accepts && this.failure == failure
    {
      data, this.accepts, this.failure := [], accepts, failure;
    }

    /** `Write(buffer, size)`. */
    method Write(bytes: seq<byte>) returns (hr: int)
      modifies this`data
      ensures accepts ==> hr == S_OK && data == old(data) + bytes
      ensures !accepts ==> hr == failure && data == old(data)
    {
      if accepts {
        data := data + bytes;
        hr := S_OK;
      } else {
        hr := failure;
      }
    }
  }

  /** The copy loop of `ExtractItem`: reads the file in blocks of
      `BLOCK_SIZE` until a short block marks the end, appending each block
      to the saved buffer when there is one and, outside test mode, writing
      it out, stopping at the first refused write. */
  method CopyOut(bytes: seq<byte>, testMode: bool, sink: Sink, save: bool) returns (ok: bool, saved: seq<byte>)
    requires NotOk(sink.failure)
    modifies sink`data
    ensures var c := CopySpec(bytes, testMode, save, sink.accepts);
      ok == c.ok && saved == c.saved && sink.data == old(sink.data) + c.written
  {
    var pos := 0;
    var eof := false;
    saved := [];
    while !eof
      invariant pos <= |bytes|
      invariant eof ==> pos == |bytes|
      invariant saved == (if save then bytes[..pos] else [])
      invariant sink.data == old(sink.data) + (if testMode then [] else bytes[..pos])
      invariant !testMode && !sink.accepts ==> pos == 0 && !eof
      decreases |bytes| - pos, if eof then 0 else 1
    {
      var n := Min(BLOCK_SIZE, |bytes| - pos);
      eof := n < BLOCK_SIZE;
      var block := bytes[pos..pos + n];
      if save {
        saved := saved + block;
        assert saved == bytes[..pos + n];
      }
      if !testMode {
        var hr := sink.Write(block);
        if NotOk(hr) {
          return false, saved;
        }
        assert bytes[..pos] + block == bytes[..pos + n];
      }
      pos := pos + n;
    }
    assert bytes[..pos] == bytes;
    ok := true;
  }

  /** The decompressed view of one chunk (`chunk_reader`): its chunk, the
      bytes it yields and `TotalRead()`, what has been asked of it. */
  class ChunkReader {
    const chunk: Chunk
    const content: seq<byte>
    var totalRead: nat

    constructor (chunk: Chunk, content: seq<byte>)
      ensures this.chunk == chunk && this.content == content && totalRead == 0
    {
      this.chunk, this.content, totalRead := chunk, content, 0;
    }

    /** `util::discard(reader, k)`: skips `k` bytes. */
    method Discard(k: nat)
      modifies this`totalRead
      ensures totalRead == old(totalRead) + k
    {
      totalRead := totalRead + k;
    }

    /** `file_reader::get(reader, loc)` read to its end: the file's bytes,
        with the file's size asked of the chunk. */
    method ReadFile(loc: FileLocation) returns (bytes: seq<byte>)
      modifies this`totalRead
      ensures bytes == FileBytes(content, loc)
      ensures totalRead == old(totalRead) + loc.size
    {
      bytes := FileBytes(content, loc);
      totalRead := totalRead + loc.size;
    }
  }

  /** `CInArchive`: the opened setup and its extraction state. */
  class InArchive {
    const setup: Setup
    var collisionLocations: map<nat, nat>
    var hasCollision: bool
    var extractInitialized: bool
    /** `_chunk`: the chunk the cached reader belongs to. */
    var currentChunk: Chunk
    /** `_pChunkReader`. */
    var reader: ChunkReader?

    /** The cached reader, when there is one, decodes `currentChunk`. */
    ghost predicate Valid()
      reads this`reader, this`currentChunk
    {
      reader != null ==> reader.chunk == currentChunk && reader.content == setup.decode(currentChunk)
    }

    /** The collision scan's results describe the files. */
    ghost predicate Scanned()
      reads this`collisionLocations, this`hasCollision
    {
      collisionLocations == CollisionMap(setup.info.files)
      && (hasCollision <==> DuplicatePath(setup.info.files, |setup.info.files|))
    }

    function Cache(): CacheState
      reads this`extractInitialized, this`currentChunk, this`reader
    {
      CacheState(extractInitialized, currentChunk, reader != null)
    }

    /** The reader objects an extraction may advance. */
    function ReaderFrame(): set<object>
      reads this`reader
    {
      if reader == null then {} else {reader}
    }

    /** The end of `Open` once the headers are loaded: the collision scan,
        with the extraction state as member initialisation leaves it
        (`defaultChunk` is a default-constructed `stream::chunk`). */
    constructor (setup: Setup, defaultChunk: Chunk)
      ensures this.setup == setup && Valid() && Scanned()
      ensures !extractInitialized && currentChunk == defaultChunk && reader == null
    {
      this.setup := setup;
      collisionLocations, hasCollision := map[], false;
      extractInitialized, currentChunk, reader := false, defaultChunk, null;
      new;
      FindCollideLocation();
      assert collisionLocations == CollisionMap(setup.info.files);
    }

    /** `FindCollideLocation`: records for every file that shares its data
        location with an earlier file the first of those (without replacing
        an existing entry), and raises `_hasCollision` when a destination
        repeats. */
    method FindCollideLocation()
      modifies this`collisionLocations, this`hasCollision
      ensures collisionLocations == Keep(old(collisionLocations), CollisionMap(setup.info.files))
      ensures hasCollision <==> old(hasCollision) || DuplicatePath(setup.info.files, |setup.info.files|)
    {
      collisionLocations, hasCollision := ScanFiles(setup.info.files, collisionLocations, hasCollision);
    }

    /** `CheckCollideLocations(index, firstAppearance)`. */
    function CheckCollideLocations(index: nat, prior: nat): Lookup
      reads this`collisionLocations
    {
      CheckCollide(collisionLocations, |setup.info.files|, index, prior)
    }

    /** `OpenChunk`: keeps the cached reader for the chunk it already holds,
        otherwise makes a reader for `chunk` and records it. */
    method OpenChunk(chunk: Chunk) returns (r: ChunkReader?)
      requires Valid()
      modifies this`reader, this`currentChunk
      ensures Valid()
      ensures chunk == old(currentChunk) ==> r == reader == old(reader) && currentChunk == old(currentChunk)
      ensures chunk != old(currentChunk) ==> r != null && fresh(r) && r.totalRead == 0 && reader == r && currentChunk == chunk
      ensures r != null ==> r.chunk == chunk
    {
      if chunk != currentChunk {
        reader := new ChunkReader(chunk, setup.decode(chunk));
        currentChunk := chunk;
      }
      r := reader;
    }

    /** `ResetChunkReader`: always makes a new reader, and leaves `_chunk`
        as it is. */
    method ResetChunkReader(chunk: Chunk) returns (r: ChunkReader)
      modifies this`reader
      ensures fresh(r) && reader == r && r.chunk == chunk && r.totalRead == 0
      ensures r.content == setup.decode(chunk)
    {
      reader := new ChunkReader(chunk, setup.decode(chunk));
      r := reader;
    }

    /** The positioning step of `ExtractItem`: brings the reader to the
        file's offset in its chunk, rebuilding it when it is already past. */
    method Position(r: ChunkReader, offset: nat) returns (r': ChunkReader)
      requires Valid() && reader == r
      modifies this`reader, r`totalRead
      ensures Valid() && reader == r' && r'.chunk == r.chunk && r'.totalRead == offset
      ensures Reached(SeekPlan(offset, old(r.totalRead)), old(r.totalRead)) == offset
      ensures SeekPlan(offset, old(r.totalRead)).Rebuild? <==> r' != r
      ensures r' == r || fresh(r')
    {
      r' := r;
      if offset > r.totalRead {
        r.Discard(offset - r.totalRead);
      } else if offset < r.totalRead {
        r' := ResetChunkReader(r.chunk);
        r'.Discard(offset - r'.totalRead);
      }
    }

    /** `ExtractItem(index, testMode, sink, save ? buffer : null)`; the
        bytes appended to the buffer are returned in `saved`. */
    method ExtractItem(index: nat, testMode: bool, sink: Sink, save: bool) returns (o: Outcome, saved: seq<byte>)
      requires Valid() && NotOk(sink.failure)
      modifies this`extractInitialized, this`currentChunk, this`reader, ReaderFrame(), sink`data
      ensures Valid()
      ensures var e := ExtractSpec(setup, old(Cache()), index, testMode, save, sink.accepts, sink.failure);
        o == e.outcome && saved == e.saved && sink.data == old(sink.data) + e.written && Cache() == e.cache
      ensures reader == old(reader) || fresh(reader)
    {
      var files := setup.info.files;
      if index >= |files| {
        var content := setup.embeddedContent(index - |files|);
        if content.Some? && !testMode {
          var hr := sink.Write(content.value);
          if NotOk(hr) {
            return Returned(hr), [];
          }
        }
        return Returned(S_OK), [];
      }
      if !extractInitialized {
        if setup.dataOffset == 0 {
          return Threw(NotImplemented), [];
        }
        extractInitialized := true;
      }
      var loc := files[index].location;
      if loc >= |setup.info.dataEntries| {
        o := Returned(if loc == NO_LOCATION then S_OK else S_FALSE);
        return o, [];
      }
      o, saved := ExtractEntry(setup.info.dataEntries[loc], testMode, sink, save);
    }

    /** The part of `ExtractItem` for a file with data: open the chunk,
        position the reader at the file, and copy the file out. */
    method ExtractEntry(d: DataEntry, testMode: bool, sink: Sink, save: bool) returns (o: Outcome, saved: seq<byte>)
      requires Valid() && NotOk(sink.failure)
      modifies this`currentChunk, this`reader, ReaderFrame(), sink`data
      ensures Valid() && (reader == old(reader) || fresh(reader))
      ensures d.chunk == old(currentChunk) && old(reader) == null ==>
        o == Threw(NullReader) && saved == [] && sink.data == old(sink.data) && Cache() == old(Cache())
      ensures d.chunk != old(currentChunk) || old(reader) != null ==>
        var cp := CopySpec(FileBytes(setup.decode(d.chunk), d.file), testMode, save, sink.accepts);
        o == Returned(if cp.ok then S_OK else sink.failure) && saved == cp.saved
        && sink.data == old(sink.data) + cp.written
        && currentChunk == d.chunk && reader != null && reader.totalRead == d.file.offset + d.file.size
    {
      var r := OpenChunk(d.chunk);
      if r == null {
        return Threw(NullReader), [];
      }
      r := Position(r, d.file.offset);
      var bytes := r.ReadFile(d.file);
      var ok;
      ok, saved := CopyOut(bytes, testMode, sink, save);
      o := Returned(if ok then S_OK else sink.failure);
    }
  }

  /** The loop of `FindCollideLocation` over the files, from the collision
      map and flag it starts with. */
  method ScanFiles(files: seq<FileEntry>, collisions0: map<nat, nat>, flag0: bool)
      returns (collisions: map<nat, nat>, flag: bool)
    ensures collisions == Keep(collisions0, CollisionMap(files))
    ensures flag <==> flag0 || DuplicatePath(files, |files|)
  {
    var uniqueLocations: map<nat, nat> := map[];
    var uniquePaths: set<string> := {};
    collisions, flag := collisions0, flag0;
    var i := 0;
    while i < |files|
      invariant 0 <= i <= |files|
      invariant LocationsSeen(files, uniqueLocations, i)
      invariant PathsSeen(files, uniquePaths, i)
      invariant collisions == Keep(collisions0, CollisionsBelow(files, i))
      invariant flag <==> flag0 || DuplicatePath(files, i)
    {
      uniqueLocations, collisions := ScanLocation(files, i, uniqueLocations, collisions, collisions0);
      uniquePaths, flag := ScanPath(files, i, uniquePaths, flag, flag0);
      i := i + 1;
    }
  }

  /** `unique_locations` after the first `i` files: every location seen,
      mapped to the first file that has it. */
  ghost predicate LocationsSeen(files: seq<FileEntry>, seen: map<nat, nat>, i: nat)
    requires i <= |files|
  {
    (forall loc :: loc in seen <==> FirstAt(files, loc, i).Some?)
    && (forall loc :: loc in seen ==> seen[loc] == FirstAt(files, loc, i).value)
  }

  /** `unique_paths` after the first `i` files. */
  ghost predicate PathsSeen(files: seq<FileEntry>, seen: set<string>, i: nat)
    requires i <= |files|
  {
    forall p :: p in seen <==> exists k :: 0 <= k < i && files[k].destination == p
  }

  /** The location half of one round of `FindCollideLocation`: the
      insertion into `unique_locations` and, when it finds the location
      taken, the `emplace` into the collision map. */
  method ScanLocation(files: seq<FileEntry>, i: nat, seen: map<nat, nat>, collisions: map<nat, nat>,
                      ghost kept: map<nat, nat>)
      returns (seen': map<nat, nat>, collisions': map<nat, nat>)
    requires i < |files| && LocationsSeen(files, seen, i)
    requires collisions == Keep(kept, CollisionsBelow(files, i))
    ensures LocationsSeen(files, seen', i + 1)
    ensures collisions' == Keep(kept, CollisionsBelow(files, i + 1))
  {
    var loc := files[i].location;
    if loc in seen {
      SeenAgain(files, seen, i, kept);
      seen', collisions' := seen, collisions;
      if i !in collisions {
        collisions' := collisions[i := seen[loc]];
      }
    } else {
      SeenFirst(files, seen, i, kept);
      seen', collisions' := seen[loc := i], collisions;
    }
  }

  /** A round that meets a location already seen. */
  lemma SeenAgain(files: seq<FileEntry>, seen: map<nat, nat>, i: nat, kept: map<nat, nat>)
    requires i < |files| && LocationsSeen(files, seen, i) && files[i].location in seen
    ensures LocationsSeen(files, seen, i + 1)
    ensures var before := Keep(kept, CollisionsBelow(files, i));
      Keep(kept, CollisionsBelow(files, i + 1))
        == if i in before then before else before[i := seen[files[i].location]]
  {
    FirstAtStep(files, i);
    var first := seen[files[i].location];
    CollisionsBelowStep(files, i);
    KeepStep(kept, CollisionsBelow(files, i), i, first);
  }

  /** A round that meets a new location. */
  lemma SeenFirst(files: seq<FileEntry>, seen: map<nat, nat>, i: nat, kept: map<nat, nat>)
    requires i < |files| && LocationsSeen(files, seen, i) && files[i].location !in seen
    ensures LocationsSeen(files, seen[files[i].location := i], i + 1)
    ensures Keep(kept, CollisionsBelow(files, i + 1)) == Keep(kept, CollisionsBelow(files, i))
  {
    FirstAtStep(files, i);
    CollisionsBelowStep(files, i);
  }

  /** The path half of one round: the insertion into `unique_paths`, which
      raises the flag when the destination was already there. */
  method ScanPath(files: seq<FileEntry>, i: nat, seen: set<string>, flag: bool, ghost flag0: bool)
      returns (seen': set<string>, flag': bool)
    requires i < |files| && PathsSeen(files, seen, i)
    requires flag <==> flag0 || DuplicatePath(files, i)
    ensures PathsSeen(files, seen', i + 1)
    ensures flag' <==> flag0 || DuplicatePath(files, i + 1)
  {
    var d := files[i].destination;
    DuplicateStep(files, i);
    if d in seen {
      seen', flag' := seen, true;
    } else {
      seen', flag' := seen + {d}, flag;
    }
  }

  /** One more file in the first-appearance table. */
  lemma FirstAtStep(files: seq<FileEntry>, i: nat)
    requires i < |files|
    ensures forall loc :: (FirstAt(files, loc, i + 1) ==
      if FirstAt(files, loc, i).Some? then FirstAt(files, loc, i)
      else if files[i].location == loc then Some(i) else None)
  {
  }

  /** One more file in the collision entries. */
  lemma CollisionsBelowStep(files: seq<FileEntry>, i: nat)
    requires i < |files|
    ensures i !in CollisionsBelow(files, i)
    ensures FirstAt(files, files[i].location, i).Some? ==>
      CollisionsBelow(files, i + 1) == CollisionsBelow(files, i)[i := FirstAt(files, files[i].location, i).value]
    ensures FirstAt(files, files[i].location, i).None? ==>
      CollisionsBelow(files, i + 1) == CollisionsBelow(files, i)
  {
  }

  /** Adding one entry under a new key to what is emplaced. */
  lemma KeepStep(kept: map<nat, nat>, added: map<nat, nat>, i: nat, v: nat)
    ensures i in kept ==> Keep(kept, added[i := v]) == Keep(kept, added)
    ensures i !in kept ==> Keep(kept, added[i := v]) == Keep(kept, added)[i := v]
  {
    if i in kept {
      assert Keep(kept, added[i := v]).Keys == Keep(kept, added).Keys;
    } else {
      assert Keep(kept, added[i := v]).Keys == Keep(kept, added)[i := v].Keys;
    }
  }

  /** One step of the destination scan. */
  lemma DuplicateStep(files: seq<FileEntry>, i: nat)
    requires i < |files|
    ensures DuplicatePath(files, i + 1) <==>
      DuplicatePath(files, i) || exists k :: 0 <= k < i && files[k].destination == files[i].destination
  {
    if DuplicatePath(files, i + 1) && !DuplicatePath(files, i) {
      var a, b :| 0 <= a < b < i + 1 && files[a].destination == files[b].destination;
      assert b == i;
    }
  }
}

=== FILE: cleaning.dfy ===
/**
 * The two name-cleaning routines of the archive reader: `Flag_Clean`, which
 * keeps only the alphanumeric characters of an enumerator name, and
 * `OSS_Clean`, which turns a dotted, dash- or underscore-separated field
 * name into its CamelCase last component. Both compact a string copy in
 * place behind a write cursor.
 */
module Cleaning {
  import opened Common
  import opened Text

  // ---------------------------------------------------------------- Flag_Clean

  /** The alphanumeric characters of `s`, in order. */
  function AlnumOnly(s: string): string
  {
    if |s| == 0 then []
    else AlnumOnly(s[..|s| - 1]) + (if IsAlnum(s[|s| - 1]) then [s[|s| - 1]] else [])
  }

  /** `Flag_Clean`: moves every alphanumeric character down to the write
      cursor (writing only once a non-alphanumeric character has been
      seen, since before that the cursors coincide) and truncates the copy
      at the cursor. */
  method FlagClean(s: string) returns (r: string)
    ensures r == AlnumOnly(s)
  {
    var a := s;
    var wit := 0;
    var write := false;
    var rit := 0;
    while rit < |a|
      invariant 0 <= wit <= rit <= |a| == |s|
      invariant a[..wit] == AlnumOnly(s[..rit])
      invariant forall k :: rit <= k < |a| ==> a[k] == s[k]
      invariant !write ==> wit == rit
    {
      assert a[rit] == s[rit];
      assert s[..rit + 1][..rit] == s[..rit];
      if IsAlnum(a[rit]) {
        if write {
          a := a[wit := a[rit]];
        }
        assert a[..wit + 1] == a[..wit] + [s[rit]];
        wit := wit + 1;
      } else {
        write := true;
      }
      rit := rit + 1;
    }
    assert s[..rit] == s;
    r := a[..wit];
  }

  /** Filtering distributes over concatenation. */
  lemma {:induction false} AlnumOnlyAppend(x: string, y: string)
    ensures AlnumOnly(x + y) == AlnumOnly(x) + AlnumOnly(y)
    decreases |y|
  {
    if |y| == 0 {
      assert x + y == x;
    } else {
      var y' := y[..|y| - 1];
      assert (x + y)[..|x + y| - 1] == x + y';
      AlnumOnlyAppend(x, y');
    }
  }

  /** The cleaned name holds only alphanumeric characters and is no longer
      than the original. */
  lemma {:induction false} AlnumOnlyShape(s: string)
    ensures |AlnumOnly(s)| <= |s|
    ensures forall i :: 0 <= i < |AlnumOnly(s)| ==> IsAlnum(AlnumOnly(s)[i])
  {
    if |s| > 0 {
      AlnumOnlyShape(s[..|s| - 1]);
    }
  }

  /** Every alphanumeric character keeps its number of occurrences and
      every other character disappears. */
  lemma {:induction false} AlnumOnlyCounts(s: string, c: char)
    ensures multiset(AlnumOnly(s))[c] == if IsAlnum(c) then multiset(s)[c] else 0
  {
    if |s| > 0 {
      var p := s[..|s| - 1];
      AlnumOnlyCounts(p, c);
      assert s == p + [s[|s| - 1]];
    }
  }

  /** A name that is already clean is left as it is. */
  lemma {:induction false} AlnumOnlyKeepsClean(s: string)
    requires forall i :: 0 <= i < |s| ==> IsAlnum(s[i])
    ensures AlnumOnly(s) == s
  {
    if |s| > 0 {
      AlnumOnlyKeepsClean(s[..|s| - 1]);
      assert s[..|s| - 1] + [s[|s| - 1]] == s;
    }
  }

  /** Cleaning twice is cleaning once. */
  lemma AlnumOnlyIdempotent(s: string)
    ensures AlnumOnly(AlnumOnly(s)) == AlnumOnly(s)
  {
    AlnumOnlyShape(s);
    AlnumOnlyKeepsClean(AlnumOnly(s));
  }

  // ----------------------------------------------------------------- OSS_Clean

  predicate IsSep(c: char) { c == '-' || c == '_' }

  /** `find_last_of(c)`: the last position holding `c`. */
  function LastIndexOf(s: string, c: char): (r: Option<nat>)
    ensures r.Some? ==> r.value < |s| && s[r.value] == c
    ensures r.Some? ==> forall k :: r.value < k < |s| ==> s[k] != c
    ensures r.None? ==> forall k :: 0 <= k < |s| ==> s[k] != c
  {
    if |s| == 0 then None
    else if s[|s| - 1] == c then Some(|s| - 1)
    else LastIndexOf(s[..|s| - 1], c)
  }

  /** The part after the last dot, or the whole name when it has none. */
  function PropertyName(s: string): (p: string)
    ensures forall k :: 0 <= k < |p| ==> p[k] != '.'
    ensures |p| <= |s|
  {
    match LastIndexOf(s, '.')
    case Some(d) => s[d + 1..]
    case None => s
  }

  /** The `tail` flag of the loop after it has read `q`: set by any
      non-separator, cleared by a separator, initially clear. */
  predicate TailAfter(q: string)
  {
    |q| > 0 && !IsSep(q[|q| - 1])
  }

  /** What the loop writes for character `c` after reading `q`. */
  function CamelStep(q: string, c: char): string
  {
    if IsSep(c) then [] else if TailAfter(q) then [c] else [UpperChar(c)]
  }

  /** The CamelCase form the loop produces from `s`. */
  function Camel(s: string): string
  {
    if |s| == 0 then [] else Camel(s[..|s| - 1]) + CamelStep(s[..|s| - 1], s[|s| - 1])
  }

  /** `OSS_Clean`: takes the part after the last dot and compacts it in
      place, dropping separators and upper-casing the first character of
      every segment between them. */
  method OssClean(s: string) returns (r: string)
    ensures r == Camel(PropertyName(s))
  {
    var p := PropertyName(s);
    var a := p;
    var tail := false;
    var n := 0;
    var i := 0;
    while i < |p|
      invariant 0 <= n <= i <= |p| == |a|
      invariant a[..n] == Camel(p[..i])
      invariant forall k :: i <= k < |a| ==> a[k] == p[k]
      invariant tail == TailAfter(p[..i])
    {
      var c := a[i];
      CamelSnoc(p, i);
      if IsSep(c) {
        tail := false;
      } else if tail {
        a := a[n := c];
        n := n + 1;
      } else {
        tail := true;
        a := a[n := UpperChar(c)];
        n := n + 1;
      }
      i := i + 1;
    }
    assert p[..i] == p;
    r := a[..n];
  }

  /** One more character read: the loop's state after `p[..i + 1]`. */
  lemma CamelSnoc(p: string, i: nat)
    requires i < |p|
    ensures Camel(p[..i + 1]) == Camel(p[..i]) + CamelStep(p[..i], p[i])
    ensures TailAfter(p[..i + 1]) == !IsSep(p[i])
  {
    assert p[..i + 1][..i] == p[..i];
  }

  /** Reading one more character appends its cleaned form. */
  lemma CamelAppend(p: string, c: char)
    ensures Camel(p + [c]) == Camel(p) + CamelStep(p, c)
  {
    assert (p + [c])[..|p|] == p;
  }

  /** A separator splits the name into two independently cleaned halves. */
  lemma {:induction false} CamelSplits(x: string, sep: char, y: string)
    requires IsSep(sep)
    ensures Camel(x + [sep] + y) == Camel(x) + Camel(y)
    decreases |y|
  {
    var xs := x + [sep];
    if |y| == 0 {
      assert xs + y == xs;
      CamelAppend(x, sep);
    } else {
      var y', last := y[..|y| - 1], y[|y| - 1];
      assert xs + y == (xs + y') + [last];
      assert y == y' + [last];
      CamelAppend(xs + y', last);
      CamelAppend(y', last);
      assert TailAfter(xs + y') == TailAfter(y');
      CamelSplits(x, sep, y');
    }
  }

  /** A segment without separators keeps every character, upper-casing
      only its first one. */
  lemma {:induction false} CamelSegment(seg: string)
    requires |seg| > 0
    requires forall k :: 0 <= k < |seg| ==> !IsSep(seg[k])
    ensures Camel(seg) == [UpperChar(seg[0])] + seg[1..]
  {
    var q := seg[..|seg| - 1];
    if |q| == 0 {
      assert Camel(q) == [];
    } else {
      CamelSegment(q);
      assert seg[1..] == q[1..] + [seg[|seg| - 1]];
    }
  }

  /** The cleaned name is no longer than its input and holds no separator. */
  lemma {:induction false} CamelShape(s: string)
    ensures |Camel(s)| <= |s|
    ensures forall k :: 0 <= k < |Camel(s)| ==> !IsSep(Camel(s)[k])
  {
    if |s| > 0 {
      CamelShape(s[..|s| - 1]);
    }
  }

  /** The characters of the result are those of the input with separators
      removed, each upper-cased or kept: a lower-case letter that is not
      at the start of a segment is never changed. */
  lemma {:induction false} CamelRemovesExactlySeparators(s: string)
    ensures |Camel(s)| == |s| - multiset(s)['-'] - multiset(s)['_']
  {
    if |s| > 0 {
      var q, c := s[..|s| - 1], s[|s| - 1];
      CamelRemovesExactlySeparators(q);
      assert s == q + [c];
      assert multiset(s) == multiset(q) + multiset{c};
      assert multiset(s)['-'] == multiset(q)['-'] + (if c == '-' then 1 else 0);
      assert multiset(s)['_'] == multiset(q)['_'] + (if c == '_' then 1 else 0);
      assert |CamelStep(q, c)| == if IsSep(c) then 0 else 1;
    }
  }

  /** `OSS_Clean` output: no longer than the input, free of separators and of
      dots. */
  lemma OssCleanShape(s: string)
    ensures |Camel(PropertyName(s))| <= |s|
    ensures forall k :: 0 <= k < |Camel(PropertyName(s))| ==>
      !IsSep(Camel(PropertyName(s))[k]) && Camel(PropertyName(s))[k] != '.'
  {
    var p := PropertyName(s);
    CamelShape(p);
    CamelNoDot(p);
  }

  lemma {:induction false} CamelNoDot(p: string)
    requires forall k :: 0 <= k < |p| ==> p[k] != '.'
    ensures forall k :: 0 <= k < |Camel(p)| ==> Camel(p)[k] != '.'
  {
    if |p| > 0 {
      CamelNoDot(p[..|p| - 1]);
    }
  }

  /** The property name of a dotted path is its last component. */
  lemma PropertyNameOfDotted(x: string, y: string)
    requires forall k :: 0 <= k < |y| ==> y[k] != '.'
    ensures PropertyName(x + ['.'] + y) == y
  {
    var s := x + ['.'] + y;
    LastIndexOfJoin(x, '.', y);
    assert s[|x| + 1..] == y;
  }

  /** In `x + [c] + y` with no `c` in `y`, the last `c` is the joining one. */
  lemma {:induction false} LastIndexOfJoin(x: string, c: char, y: string)
    requires forall k :: 0 <= k < |y| ==> y[k] != c
    ensures LastIndexOf(x + [c] + y, c) == Some(|x|)
    decreases |y|
  {
    var s := x + [c] + y;
    if |y| > 0 {
      assert s[..|s| - 1] == x + [c] + y[..|y| - 1];
      LastIndexOfJoin(x, c, y[..|y| - 1]);
    } else {
      assert s[|s| - 1] == c;
    }
  }

  /** A concrete field name: `x.ab-cd` is cleaned to `AbCd`. */
  lemma OssCleanExample()
    ensures Camel(PropertyName("x.ab-cd")) == "AbCd"
  {
    DottedExample();
    CamelExample();
  }

  lemma DottedExample()
    ensures PropertyName("x.ab-cd") == "ab-cd"
  {
    assert "x.ab-cd" == "x" + ['.'] + "ab-cd";
    PropertyNameOfDotted("x", "ab-cd");
  }

  lemma CamelExample()
    ensures Camel("ab-cd") == "AbCd"
  {
    assert "ab-cd" == "ab" + ['-'] + "cd";
    CamelSplits("ab", '-', "cd");
    CamelSegment("ab");
    CamelSegment("cd");
  }
}

=== FILE: common.dfy ===
/** Types shared by every part of the model. */
module Common {

  /** One octet of a stream (`char` in the C++ stream code, `Byte` in 7-Zip). */
  newtype byte = x: int | 0 <= x < 256

  /** The largest `UInt32`, used by the source as the "no value" sentinel `(UInt32)(-1)`. */
  const UINT32_MAX: nat := 0xFFFF_FFFF

  datatype Option<T> = None | Some(value: T)

  function Min(a: int, b: int): int { if a <= b then a else b }
}

=== FILE: handler.dfy ===
/**
 * `CHandler::Extract` (InnoHandler.cpp): the batch extraction the host asks
 * for. A pre-pass over the worklist sums the item sizes and opens an empty
 * reuse buffer for every first appearance that a later item aliases; the
 * main pass then serves each item: an alias from its filled buffer, or by
 * extracting into the buffer while it is still empty; a first appearance
 * with a buffer by extracting into it; anything else by a plain
 * extraction. Each item's code is reported to the host, and a missing
 * output stream ends the batch.
 *
 * The host's callback is a list of scripted answers, one per position.
 */
module Handler {
  import opened Common
  import opened Items
  import opened Archive

  // ---------------------------------------------------------------- reports

  /** `NExtract::NOperationResult`, as far as `Extract` reports it. */
  datatype OperationResult = OK | Unavailable | DataError

  /** The `switch` that turns an item's code into its report: only `S_OK`
      is a success and only `E_OUTOFMEMORY` is "unavailable". */
  function ReportFor(hr: int): (r: OperationResult)
    ensures r == OK <==> hr == S_OK
    ensures r == Unavailable <==> hr == E_OUTOFMEMORY
    ensures r == DataError <==> hr != S_OK && hr != E_OUTOFMEMORY
  {
    if hr == S_OK then OK else if hr == E_OUTOFMEMORY then Unavailable else DataError
  }

  /** What the host does for one position: `GetStream` fails with `code`,
      or succeeds without a stream, or gives a stream, after which
      `PrepareOperation` returns `prepare` and the stream accepts every
      write or refuses every write with `failure`. */
  datatype StreamAnswer =
    | StreamFailed(code: int)
    | NoStream
    | Stream(prepare: int, accepts: bool, failure: int)

  /** A call that does not succeed answers a code other than `S_OK`. */
  predicate WellFormed(ans: StreamAnswer)
  {
    (ans.StreamFailed? ==> NotOk(ans.code)) && (ans.Stream? ==> NotOk(ans.failure))
  }

  // --------------------------------------------------------------- worklist

  /** The positions `0 .. n-1`. */
  function Upto(n: nat): (r: seq<nat>)
    ensures |r| == n && forall i :: 0 <= i < n ==> r[i] == i
  {
    if n == 0 then [] else Upto(n - 1) + [n - 1]
  }

  /** The number of items a batch covers: the archive's item count for the
      sentinel `(UInt32)-1`, otherwise `numItems`. */
  function BatchSize(info: SetupInfo, numItems: nat): nat
  {
    if numItems == UINT32_MAX then NumberOfItems(info) else numItems
  }

  /** The index each position of the batch stands for. */
  function Worklist(info: SetupInfo, indices: seq<nat>, numItems: nat): (work: seq<nat>)
    requires numItems != UINT32_MAX ==> numItems <= |indices|
    ensures |work| == BatchSize(info, numItems)
    ensures numItems == UINT32_MAX ==> forall i :: 0 <= i < |work| ==> work[i] == i
    ensures numItems != UINT32_MAX ==> work == indices[..numItems]
  {
    if numItems == UINT32_MAX then Upto(NumberOfItems(info)) else indices[..numItems]
  }

  /** The all-files batch covers every item and is never empty, so the
      pre-pass's `numItems - 1` cannot wrap around. */
  lemma AllFilesBatch(info: SetupInfo, indices: seq<nat>)
    ensures var work := Worklist(info, indices, UINT32_MAX);
      |work| == NumberOfItems(info) >= 1
      && forall i :: 0 <= i < |work| ==> work[i] == i && work[i] < NumberOfItems(info)
  {
  }

  // ---------------------------------------------------------------- pre-pass

  /** The pre-pass's result: whether it finished (`GetItem` throws for a
      file whose location is past the data entries), the keys of the reuse
      buffers it opened and the size it summed. */
  datatype PrePassResult = PrePassResult(ok: bool, keys: set<nat>, total: nat)

  /** The pre-pass over the positions from the last down to `lo`. */
  function PrePass(a: Setup, m: map<nat, nat>, hasCollision: bool, count: nat, work: seq<nat>, lo: nat): PrePassResult
    decreases |work| - lo
  {
    if lo >= |work| then PrePassResult(true, {}, 0)
    else
      var r := PrePass(a, m, hasCollision, count, work, lo + 1);
      if !r.ok then r
      else
        var look := CheckCollide(m, |a.info.files|, work[lo], UINT32_MAX);
        var keys := if look.found && look.firstAppearance < count then r.keys + {look.firstAppearance} else r.keys;
        match GetItem(a, hasCollision, work[lo])
        case None => PrePassResult(false, keys, r.total)
        case Some(item) => PrePassResult(true, keys, r.total + Size(item))
  }

  /** One position of the pre-pass: the buffer key it may open and the
      size it adds. */
  lemma PrePassAt(a: Setup, m: map<nat, nat>, hasCollision: bool, count: nat, work: seq<nat>, i: nat)
    requires i < |work| && PrePass(a, m, hasCollision, count, work, i + 1).ok
    ensures var r := PrePass(a, m, hasCollision, count, work, i + 1);
      var look := CheckCollide(m, |a.info.files|, work[i], UINT32_MAX);
      var keys := if look.found && look.firstAppearance < count then r.keys + {look.firstAppearance} else r.keys;
      var item := GetItem(a, hasCollision, work[i]);
      PrePass(a, m, hasCollision, count, work, i)
        == if item.None? then PrePassResult(false, keys, r.total) else PrePassResult(true, keys, r.total + Size(item.value))
  {
  }

  /** A pre-pass that fails at position `k` fails from every lower start. */
  lemma {:induction false} PrePassStaysFailed(a: Setup, m: map<nat, nat>, hasCollision: bool, count: nat, work: seq<nat>, lo: nat, k: nat)
    requires lo <= k && !PrePass(a, m, hasCollision, count, work, k).ok
    ensures !PrePass(a, m, hasCollision, count, work, lo).ok
    decreases k - lo
  {
    if lo < k {
      PrePassStaysFailed(a, m, hasCollision, count, work, lo + 1, k);
    }
  }

  /** The sizes of the items at `work`, or `None` when one of them throws. */
  function SizeSum(a: Setup, hasCollision: bool, work: seq<nat>): Option<nat>
  {
    if work == [] then Some(0)
    else match (GetItem(a, hasCollision, work[0]), SizeSum(a, hasCollision, work[1..]))
      case (Some(item), Some(rest)) => Some(Size(item) + rest)
      case _ => None
  }

  /** The pre-pass from `lo` sums exactly the sizes of the items at
      positions `lo` and above, and finishes exactly when all of them
      exist. */
  lemma {:induction false} PrePassSums(a: Setup, m: map<nat, nat>, hasCollision: bool, count: nat, work: seq<nat>, lo: nat)
    requires lo <= |work|
    ensures var r := PrePass(a, m, hasCollision, count, work, lo);
      (r.ok <==> SizeSum(a, hasCollision, work[lo..]).Some?)
      && (r.ok ==> r.total == SizeSum(a, hasCollision, work[lo..]).value)
    decreases |work| - lo
  {
    if lo < |work| {
      PrePassSums(a, m, hasCollision, count, work, lo + 1);
      assert work[lo..][1..] == work[lo + 1..];
    }
  }

  /** Opening one more empty buffer. */
  lemma EmptyBuffersAdd(keys: set<nat>, key: nat)
    ensures EmptyBuffers(keys)[key := []] == EmptyBuffers(keys + {key})
  {
  }

  /** The buffers opened from `lo` on are exactly the first appearances
      below `count` of the aliased items at those positions. */
  lemma {:induction false} PrePassKeys(a: Setup, m: map<nat, nat>, hasCollision: bool, count: nat, work: seq<nat>, lo: nat)
    requires PrePass(a, m, hasCollision, count, work, lo).ok
    ensures forall key: nat :: key in PrePass(a, m, hasCollision, count, work, lo).keys <==>
      exists p :: lo <= p < |work| && CheckCollide(m, |a.info.files|, work[p], UINT32_MAX) == Lookup(true, key) && key < count
    decreases |work| - lo
  {
    if lo < |work| {
      PrePassKeys(a, m, hasCollision, count, work, lo + 1);
      var keys := PrePass(a, m, hasCollision, count, work, lo).keys;
      forall key: nat
        ensures key in keys <==>
          exists p :: lo <= p < |work| && CheckCollide(m, |a.info.files|, work[p], UINT32_MAX) == Lookup(true, key) && key < count
      {
        if key in keys && key !in PrePass(a, m, hasCollision, count, work, lo + 1).keys {
          assert CheckCollide(m, |a.info.files|, work[lo], UINT32_MAX) == Lookup(true, key);
        }
      }
    }
  }

  /** As written, the pre-pass starts at the last position and stops above
      position 0: the size of the first item is never added. */
  lemma PrePassSkipsFirst(a: Setup, m: map<nat, nat>, hasCollision: bool, count: nat, work: seq<nat>)
    requires |work| >= 1 && PrePass(a, m, hasCollision, count, work, 0).ok
    ensures PrePass(a, m, hasCollision, count, work, 1).ok
    ensures GetItem(a, hasCollision, work[0]).Some?
    ensures PrePass(a, m, hasCollision, count, work, 0).total
         == PrePass(a, m, hasCollision, count, work, 1).total + Size(GetItem(a, hasCollision, work[0]).value)
  {
  }

  /** A one-item batch of a non-empty file reports a total of 0. */
  lemma PrePassSingleItem(a: Setup, m: map<nat, nat>, hasCollision: bool, index: nat)
    requires GetItem(a, hasCollision, index).Some? && Size(GetItem(a, hasCollision, index).value) > 0
    ensures PrePass(a, m, hasCollision, 1, [index], 1) == PrePassResult(true, {}, 0)
    ensures PrePass(a, m, hasCollision, 1, [index], 0).total > 0
  {
  }

  /** Covering every position, the total is the size of the whole batch. */
  lemma PrePassCorrectedTotal(a: Setup, m: map<nat, nat>, hasCollision: bool, count: nat, work: seq<nat>)
    requires SizeSum(a, hasCollision, work).Some?
    ensures PrePass(a, m, hasCollision, count, work, 0).ok
    ensures PrePass(a, m, hasCollision, count, work, 0).total == SizeSum(a, hasCollision, work).value
  {
    PrePassSums(a, m, hasCollision, count, work, 0);
    assert work[0..] == work;
  }

  // ---------------------------------------------------------------- dispatch

  /** How the main pass serves one item. */
  datatype Action =
    | Serve(key: nat)    // an alias whose buffer holds data: write the buffer
    | Fill(key: nat)     // an alias whose buffer is empty or missing: extract into it
    | Unserved           // an alias whose first appearance is not below the batch size
    | ExtractSaving      // an item with a buffer of its own: extract and append to it
    | ExtractPlain       // anything else: extract without a buffer

  /** The dispatch of the main pass on the lookup's answer for `index`. */
  function Choose(look: Lookup, count: nat, reuse: map<nat, seq<byte>>, index: nat): (act: Action)
    ensures look.found && look.firstAppearance < count ==>
      act == (if look.firstAppearance in reuse && reuse[look.firstAppearance] != []
              then Serve(look.firstAppearance) else Fill(look.firstAppearance))
    ensures look.found && look.firstAppearance >= count ==> act == Unserved
    ensures !look.found ==> act == (if index in reuse then ExtractSaving else ExtractPlain)
  {
    if look.found then
      if look.firstAppearance < count then
        var key := look.firstAppearance;
        if key in reuse && reuse[key] != [] then Serve(key) else Fill(key)
      else Unserved
    else if index in reuse then ExtractSaving
    else ExtractPlain
  }

  /** The dispatch as evidently intended: every alias is served from, or
      fills, the buffer of its first appearance. */
  function ChooseCorrected(look: Lookup, reuse: map<nat, seq<byte>>, index: nat): (act: Action)
    ensures act != Unserved
    ensures look.found ==> act.Serve? || act.Fill?
  {
    if look.found then
      var key := look.firstAppearance;
      if key in reuse && reuse[key] != [] then Serve(key) else Fill(key)
    else if index in reuse then ExtractSaving
    else ExtractPlain
  }

  /** The two dispatches agree whenever the first appearance is below the
      batch size, which always holds in the all-files mode. */
  lemma ChooseCorrectedAgrees(look: Lookup, count: nat, reuse: map<nat, seq<byte>>, index: nat)
    ensures look.found ==>
      (look.firstAppearance < count <==> Choose(look, count, reuse, index) == ChooseCorrected(look, reuse, index))
    ensures !look.found ==> Choose(look, count, reuse, index) == ChooseCorrected(look, reuse, index)
  {
  }

  /** After the collision scan, aliases are the files with an earlier file
      at the same location; the all-files batch never leaves one unserved. */
  lemma ChooseAfterScan(info: SetupInfo, reuse: map<nat, seq<byte>>, index: nat)
    ensures var look := CheckCollide(CollisionMap(info.files), |info.files|, index, UINT32_MAX);
      var act := Choose(look, NumberOfItems(info), reuse, index);
      act != Unserved
      && ((act.Serve? || act.Fill?) <==>
           index < |info.files| && exists j :: 0 <= j < index && info.files[j].location == info.files[index].location)
  {
    CheckAfterScan(info.files, index, UINT32_MAX);
  }

  /** A lone alias requested on its own: three files of which the last two
      share a location, and a batch holding only the third. Its first
      appearance, 1, is not below the batch size 1, so it is reported as a
      data error. */
  lemma LoneAliasIsDataError()
    ensures var f := (loc: nat) => FileEntry("f", "", false, false, UserFile, loc, 0);
      var files := [f(0), f(5), f(5)];
      var look := CheckCollide(CollisionMap(files), |files|, 2, UINT32_MAX);
      look == Lookup(true, 1)
      && Choose(look, 1, map[], 2) == Unserved
      && ChooseCorrected(look, map[], 2) == Fill(1)
      && ReportFor(E_FAIL) == DataError
  {
    var f := (loc: nat) => FileEntry("f", "", false, false, UserFile, loc, 0);
    var files := [f(0), f(5), f(5)];
    CollisionMapMeaning(files, 2);
    assert files[1].location == files[2].location;
  }

  // --------------------------------------------------------------- one item

  /** The state of the main pass: the archive's extraction cache, the
      reuse buffers, the reports and what each item's stream received, and
      how the batch ended if it has. */
  datatype Batch = Batch(cache: CacheState, reuse: map<nat, seq<byte>>,
                         reports: seq<OperationResult>, outputs: seq<seq<byte>>,
                         stopped: Option<Outcome>)

  /** The item's code is reported and its output recorded. */
  function Record(b: Batch, hr: int, out: seq<byte>): Batch
  {
    b.(reports := b.reports + [ReportFor(hr)], outputs := b.outputs + [out])
  }

  /** After an extraction: an exception ends the batch; a code is reported. */
  function Finish(b: Batch, e: Extraction): Batch
  {
    match e.outcome
    case Threw(f) => b.(stopped := Some(Threw(f)))
    case Returned(hr) => Record(b, hr, e.written)
  }

  /** One position of the main pass, serving `index` with the host's answer. */
  function ItemStep(a: Setup, m: map<nat, nat>, count: nat, testMode: bool, b: Batch, index: nat, ans: StreamAnswer): Batch
  {
    match ans
    case StreamFailed(code) => b.(stopped := Some(Returned(code)))
    case NoStream => b.(stopped := Some(Returned(E_FAIL)))
    case Stream(prepare, accepts, failure) =>
      if NotOk(prepare) then b.(stopped := Some(Returned(prepare)))
      else Dispatched(a, m, count, testMode, b, index, accepts, failure)
  }

  /** Serving `index` once its stream is ready. */
  function Dispatched(a: Setup, m: map<nat, nat>, count: nat, testMode: bool, b: Batch, index: nat,
                      accepts: bool, failure: int): Batch
  {
    var act := Choose(CheckCollide(m, |a.info.files|, index, UINT32_MAX), count, b.reuse, index);
    if act.Unserved? then Record(b, E_FAIL, [])
    else if act.Serve? then
      Record(b, if accepts then S_OK else failure, if accepts then b.reuse[act.key] else [])
    else
      var e := ExtractSpec(a, b.cache, index, testMode, !act.ExtractPlain?, accepts, failure);
      var reuse := if act.Fill? then b.reuse[act.key := e.saved]
                   else if act.ExtractSaving? then b.reuse[index := b.reuse[index] + e.saved]
                   else b.reuse;
      Finish(b.(cache := e.cache, reuse := reuse), e)
  }

  /** An alias with a filled buffer is written from the buffer: the
      archive is not touched and the buffers stay as they are. */
  lemma ServeWritesBuffer(a: Setup, m: map<nat, nat>, count: nat, testMode: bool, b: Batch, index: nat,
                          prepare: int, failure: int, key: nat)
    requires prepare == S_OK
    requires Choose(CheckCollide(m, |a.info.files|, index, UINT32_MAX), count, b.reuse, index) == Serve(key)
    ensures var b' := ItemStep(a, m, count, testMode, b, index, Stream(prepare, true, failure));
      key in b.reuse && b.reuse[key] != []
      && b'.cache == b.cache && b'.reuse == b.reuse && b'.stopped == b.stopped
      && b'.reports == b.reports + [OK] && b'.outputs == b.outputs + [b.reuse[key]]
  {
  }

  /** An alias whose buffer is empty extracts into it: once the extraction
      succeeds the buffer holds the file's bytes, which is what later
      aliases are served. */
  lemma FillStoresFile(a: Setup, m: map<nat, nat>, count: nat, testMode: bool, b: Batch, index: nat,
                       prepare: int, failure: int, key: nat)
    requires prepare == S_OK && (b.cache.initialized || a.dataOffset != 0)
    requires Choose(CheckCollide(m, |a.info.files|, index, UINT32_MAX), count, b.reuse, index) == Fill(key)
    requires index < |a.info.files| && a.info.files[index].location < |a.info.dataEntries|
    requires var d := a.info.dataEntries[a.info.files[index].location];
      b.cache.hasReader || b.cache.chunk != d.chunk
    ensures var d := a.info.dataEntries[a.info.files[index].location];
      var bytes := FileBytes(a.decode(d.chunk), d.file);
      var b' := ItemStep(a, m, count, testMode, b, index, Stream(prepare, true, failure));
      b'.reuse == b.reuse[key := bytes] && b'.stopped == b.stopped
      && b'.reports == b.reports + [OK] && b'.outputs == b.outputs + [if testMode then [] else bytes]
  {
  }

  /** After an extraction the item is reported, unless it threw. */
  lemma FinishReports(b: Batch, e: Extraction)
    requires b.stopped.None?
    ensures var b' := Finish(b, e);
      (e.outcome.Returned? ==> b'.stopped.None? && b'.reports == b.reports + [ReportFor(e.outcome.hr)]
                                && b'.outputs == b.outputs + [e.written])
      && (e.outcome.Threw? ==> b'.stopped == Some(e.outcome) && b'.reports == b.reports && b'.outputs == b.outputs)
  {
  }

  /** A ready item is reported, unless its extraction threw. */
  lemma DispatchedReports(a: Setup, m: map<nat, nat>, count: nat, testMode: bool, b: Batch, index: nat,
                          accepts: bool, failure: int)
    requires b.stopped.None?
    ensures var b' := Dispatched(a, m, count, testMode, b, index, accepts, failure);
      (b'.stopped.None? ==> |b'.reports| == |b.reports| + 1 && |b'.outputs| == |b.outputs| + 1)
      && (b'.stopped.Some? ==> b'.stopped.value.Threw? && b'.reports == b.reports && b'.outputs == b.outputs)
  {
    var act := Choose(CheckCollide(m, |a.info.files|, index, UINT32_MAX), count, b.reuse, index);
    if !act.Unserved? && !act.Serve? {
      var e := ExtractSpec(a, b.cache, index, testMode, !act.ExtractPlain?, accepts, failure);
      var reuse := if act.Fill? then b.reuse[act.key := e.saved]
                   else if act.ExtractSaving? then b.reuse[index := b.reuse[index] + e.saved]
                   else b.reuse;
      FinishReports(b.(cache := e.cache, reuse := reuse), e);
    }
  }

  /** An item that returns a code, whatever it is, is reported and the
      batch goes on; only a missing or failing stream, a failing
      `PrepareOperation` or an exception ends it. */
  lemma StepContinues(a: Setup, m: map<nat, nat>, count: nat, testMode: bool, b: Batch, index: nat, ans: StreamAnswer)
    requires b.stopped.None?
    ensures var b' := ItemStep(a, m, count, testMode, b, index, ans);
      (b'.stopped.None? ==> |b'.reports| == |b.reports| + 1 && |b'.outputs| == |b.outputs| + 1)
      && (b'.stopped.Some? ==> b'.reports == b.reports && b'.outputs == b.outputs)
      && (ans == NoStream ==> b'.stopped == Some(Returned(E_FAIL)))
      && (ans.StreamFailed? ==> b'.stopped == Some(Returned(ans.code)))
      && (ans.Stream? && NotOk(ans.prepare) ==> b'.stopped == Some(Returned(ans.prepare)))
      && (b'.stopped.Some? && ans.Stream? && ans.prepare == S_OK ==> b'.stopped.value.Threw?)
  {
    if ans.Stream? && ans.prepare == S_OK {
      DispatchedReports(a, m, count, testMode, b, index, ans.accepts, ans.failure);
    }
  }

  // --------------------------------------------------------------- the batch

  /** The main pass from position `i` on: each position is served in
      turn, and the first one that stops the batch ends it. */
  function Run(a: Setup, m: map<nat, nat>, count: nat, testMode: bool, work: seq<nat>,
               answers: seq<StreamAnswer>, b: Batch, i: nat): Batch
    requires |work| <= |answers|
    decreases |work| - i
  {
    if i >= |work| || b.stopped.Some? then b
    else Run(a, m, count, testMode, work, answers, ItemStep(a, m, count, testMode, b, work[i], answers[i]), i + 1)
  }

  /** A batch that runs to the end reports every position exactly once, in
      order; a stopped batch has reported fewer. */
  lemma {:induction false} RunReportsEveryItem(a: Setup, m: map<nat, nat>, count: nat, testMode: bool, work: seq<nat>,
                                               answers: seq<StreamAnswer>, b: Batch, i: nat)
    requires i <= |work| <= |answers| && b.stopped.None?
    ensures var r := Run(a, m, count, testMode, work, answers, b, i);
      (r.stopped.None? ==> |r.reports| == |b.reports| + |work| - i && |r.outputs| == |b.outputs| + |work| - i)
      && (r.stopped.Some? ==> |r.reports| < |b.reports| + |work| - i)
    decreases |work| - i
  {
    if i < |work| {
      var b' := ItemStep(a, m, count, testMode, b, work[i], answers[i]);
      StepContinues(a, m, count, testMode, b, work[i], answers[i]);
      if b'.stopped.None? {
        RunReportsEveryItem(a, m, count, testMode, work, answers, b', i + 1);
      }
    }
  }

  /** A batch never stops with `S_OK`. */
  lemma {:induction false} StoppedIsNotOk(a: Setup, m: map<nat, nat>, count: nat, testMode: bool, work: seq<nat>,
                                          answers: seq<StreamAnswer>, b: Batch, i: nat)
    requires i <= |work| <= |answers| && b.stopped.None?
    requires forall j :: 0 <= j < |answers| ==> WellFormed(answers[j])
    ensures var r := Run(a, m, count, testMode, work, answers, b, i);
      r.stopped.Some? ==> r.stopped.value != Returned(S_OK)
    decreases |work| - i
  {
    if i < |work| {
      var b' := ItemStep(a, m, count, testMode, b, work[i], answers[i]);
      assert WellFormed(answers[i]);
      StepContinues(a, m, count, testMode, b, work[i], answers[i]);
      if b'.stopped.None? {
        StoppedIsNotOk(a, m, count, testMode, work, answers, b', i + 1);
      }
    }
  }

  /** Empty reuse buffers under the given keys. */
  function EmptyBuffers(keys: set<nat>): (reuse: map<nat, seq<byte>>)
    ensures reuse.Keys == keys && forall k :: k in reuse ==> reuse[k] == []
  {
    map k | k in keys :: []
  }

  /** What a whole `Extract` call returns and reports. */
  datatype Report = Report(outcome: Outcome, total: nat, reports: seq<OperationResult>,
                           outputs: seq<seq<byte>>, cache: CacheState)

  /** `Extract(indices, numItems, testMode, callback)` over an archive with
      collision map `m`, from the extraction cache `c`. */
  function ExtractBatch(a: Setup, m: map<nat, nat>, hasCollision: bool, c: CacheState,
                        indices: seq<nat>, numItems: nat, testMode: bool, answers: seq<StreamAnswer>): Report
    requires numItems != UINT32_MAX ==> numItems <= |indices|
    requires BatchSize(a.info, numItems) <= |answers|
  {
    if numItems == 0 then Report(Returned(S_OK), 0, [], [], c)
    else
      var count := BatchSize(a.info, numItems);
      var work := Worklist(a.info, indices, numItems);
      var pre := PrePass(a, m, hasCollision, count, work, 1);
      if !pre.ok then Report(Threw(OutOfRange), 0, [], [], c)
      else
        var b := Run(a, m, count, testMode, work, answers, Batch(c, EmptyBuffers(pre.keys), [], [], None), 0);
        Report(if b.stopped.Some? then b.stopped.value else Returned(S_OK), pre.total, b.reports, b.outputs, b.cache)
  }

  /** An empty request returns at once; otherwise a batch that is not
      stopped reports every item, in order, and returns `S_OK`. */
  lemma ExtractBatchReports(a: Setup, m: map<nat, nat>, hasCollision: bool, c: CacheState,
                            indices: seq<nat>, numItems: nat, testMode: bool, answers: seq<StreamAnswer>)
    requires numItems != UINT32_MAX ==> numItems <= |indices|
    requires BatchSize(a.info, numItems) <= |answers|
    requires forall i :: 0 <= i < |answers| ==> WellFormed(answers[i])
    ensures numItems == 0 ==> ExtractBatch(a, m, hasCollision, c, indices, numItems, testMode, answers)
                              == Report(Returned(S_OK), 0, [], [], c)
    ensures var r := ExtractBatch(a, m, hasCollision, c, indices, numItems, testMode, answers);
      r.outcome == Returned(S_OK) && numItems != 0 ==> |r.reports| == |r.outputs| == BatchSize(a.info, numItems)
  {
    if numItems != 0 {
      var count := BatchSize(a.info, numItems);
      var work := Worklist(a.info, indices, numItems);
      var pre := PrePass(a, m, hasCollision, count, work, 1);
      if pre.ok {
        var b0 := Batch(c, EmptyBuffers(pre.keys), [], [], None);
        RunReportsEveryItem(a, m, count, testMode, work, answers, b0, 0);
        StoppedIsNotOk(a, m, count, testMode, work, answers, b0, 0);
      }
    }
  }

  // ----------------------------------------------------------------- handler

  /** `CHandler`, over an opened archive. */
  class Handler {
    const archive: InArchive

    constructor (archive: InArchive)
      ensures this.archive == archive
    {
      this.archive := archive;
    }

    /** The pre-pass: from the last position down to position 1, opens an
        empty reuse buffer for each alias whose first appearance is below
        the batch size, and sums the item sizes. */
    method PrePassLoop(indices: seq<nat>, allFiles: bool, count: nat, ghost work: seq<nat>)
        returns (ok: bool, reuse: map<nat, seq<byte>>, total: nat)
      requires count >= 1 && (!allFiles ==> count <= |indices|)
      requires work == if allFiles then Upto(count) else indices[..count]
      ensures var p := PrePass(archive.setup, archive.collisionLocations, archive.hasCollision, count, work, 1);
        ok == p.ok && (ok ==> reuse == EmptyBuffers(p.keys) && total == p.total)
    {
      reuse, total := map[], 0;
      var i := count - 1;
      while i > 0
        invariant 0 <= i < count
        invariant var p := PrePass(archive.setup, archive.collisionLocations, archive.hasCollision, count, work, i + 1);
          p.ok && reuse == EmptyBuffers(p.keys) && total == p.total
      {
        var index := if allFiles then i else indices[i];
        assert index == work[i];
        PrePassAt(archive.setup, archive.collisionLocations, archive.hasCollision, count, work, i);
        var look := archive.CheckCollideLocations(index, UINT32_MAX);
        if look.found && look.firstAppearance < count {
          EmptyBuffersAdd(reuse.Keys, look.firstAppearance);
          reuse := reuse[look.firstAppearance := []];
        }
        var item := GetItem(archive.setup, archive.hasCollision, index);
        if item.None? {
          PrePassStaysFailed(archive.setup, archive.collisionLocations, archive.hasCollision, count, work, 1, i);
          return false, reuse, total;
        }
        total := total + Size(item.value);
        i := i - 1;
      }
      ok := true;
    }

    /** One position of the main pass. */
    method ExtractOne(index: nat, count: nat, testMode: bool, ans: StreamAnswer, b: Batch) returns (b': Batch)
      requires archive.Valid() && WellFormed(ans) && b.stopped.None? && b.cache == archive.Cache()
      modifies archive`extractInitialized, archive`currentChunk, archive`reader, archive.ReaderFrame()
      ensures archive.Valid() && (archive.reader == old(archive.reader) || fresh(archive.reader))
      ensures b' == ItemStep(archive.setup, archive.collisionLocations, count, testMode, b, index, ans)
      ensures b'.cache == archive.Cache()
    {
      match ans
      case StreamFailed(code) =>
        return b.(stopped := Some(Returned(code)));
      case NoStream =>
        return b.(stopped := Some(Returned(E_FAIL)));
      case Stream(prepare, accepts, failure) =>
        if NotOk(prepare) {
          return b.(stopped := Some(Returned(prepare)));
        }
        b' := Dispatch(index, count, testMode, accepts, failure, b);
    }

    /** Serving `index` once its stream is ready: writes an alias's buffer,
        or extracts the item into the stream and, where the dispatch says
        so, into its reuse buffer. */
    method Dispatch(index: nat, count: nat, testMode: bool, accepts: bool, failure: int, b: Batch) returns (b': Batch)
      requires archive.Valid() && NotOk(failure) && b.cache == archive.Cache()
      modifies archive`extractInitialized, archive`currentChunk, archive`reader, archive.ReaderFrame()
      ensures archive.Valid() && (archive.reader == old(archive.reader) || fresh(archive.reader))
      ensures b' == Dispatched(archive.setup, archive.collisionLocations, count, testMode, b, index, accepts, failure)
      ensures b'.cache == archive.Cache()
    {
      var look := archive.CheckCollideLocations(index, UINT32_MAX);
      match Choose(look, count, b.reuse, index) {
        case Unserved =>
          return Record(b, E_FAIL, []);
        case Serve(key) =>
          var sink := new Sink(accepts, failure);
          var hr := sink.Write(b.reuse[key]);
          assert sink.data == (if accepts then b.reuse[key] else []);
          return Record(b, hr, sink.data);
        case Fill(key) =>
          var e := ExtractTo(index, testMode, accepts, failure, true);
          b' := Finish(b.(cache := e.cache, reuse := b.reuse[key := e.saved]), e);
        case ExtractSaving =>
          var e := ExtractTo(index, testMode, accepts, failure, true);
          b' := Finish(b.(cache := e.cache, reuse := b.reuse[index := b.reuse[index] + e.saved]), e);
        case ExtractPlain =>
          var e := ExtractTo(index, testMode, accepts, failure, false);
          b' := Finish(b.(cache := e.cache), e);
      }
    }

    /** `ExtractItem` into a fresh stream that accepts every write or refuses
        every write with `failure`. */
    method ExtractTo(index: nat, testMode: bool, accepts: bool, failure: int, save: bool) returns (e: Extraction)
      requires archive.Valid() && NotOk(failure)
      modifies archive`extractInitialized, archive`currentChunk, archive`reader, archive.ReaderFrame()
      ensures archive.Valid() && (archive.reader == old(archive.reader) || fresh(archive.reader))
      ensures e == ExtractSpec(archive.setup, old(archive.Cache()), index, testMode, save, accepts, failure)
      ensures e.cache == archive.Cache()
    {
      var sink := new Sink(accepts, failure);
      var o, saved := archive.ExtractItem(index, testMode, sink, save);
      assert sink.data == [] + sink.data;
      e := Extraction(o, saved, sink.data, archive.Cache());
    }

    /** Position `i` of the main pass. */
    method ServePosition(indices: seq<nat>, allFiles: bool, count: nat, testMode: bool, answers: seq<StreamAnswer>,
                         ghost work: seq<nat>, i: nat, b: Batch) returns (b': Batch)
      requires (!allFiles ==> count <= |indices|) && work == (if allFiles then Upto(count) else indices[..count])
      requires archive.Valid() && b.stopped.None? && b.cache == archive.Cache()
      requires i < count <= |answers| && WellFormed(answers[i])
      modifies archive`extractInitialized, archive`currentChunk, archive`reader, archive.ReaderFrame()
      ensures archive.Valid() && (archive.reader == old(archive.reader) || fresh(archive.reader))
      ensures b'.cache == archive.Cache()
      ensures b' == ItemStep(archive.setup, archive.collisionLocations, count, testMode, b, work[i], answers[i])
    {
      var index := if allFiles then i else indices[i];
      b' := ExtractOne(index, count, testMode, answers[i], b);
    }

    /** The main pass: serves the positions in order until one stops the
        batch. */
    method MainPass(indices: seq<nat>, allFiles: bool, count: nat, testMode: bool, answers: seq<StreamAnswer>,
                    ghost work: seq<nat>, b0: Batch) returns (b: Batch)
      requires (!allFiles ==> count <= |indices|) && work == (if allFiles then Upto(count) else indices[..count])
      requires archive.Valid() && b0.stopped.None? && b0.cache == archive.Cache()
      requires count <= |answers| && forall i :: 0 <= i < |answers| ==> WellFormed(answers[i])
      modifies archive`extractInitialized, archive`currentChunk, archive`reader, archive.ReaderFrame()
      ensures archive.Valid() && b.cache == archive.Cache()
      ensures b == Run(archive.setup, archive.collisionLocations, count, testMode, work, answers, b0, 0)
    {
      b := b0;
      var i := 0;
      while i < count
        invariant 0 <= i <= count
        invariant archive.Valid() && (archive.reader == old(archive.reader) || fresh(archive.reader))
        invariant Run(archive.setup, archive.collisionLocations, count, testMode, work, answers, b, i)
               == Run(archive.setup, archive.collisionLocations, count, testMode, work, answers, b0, 0)
        invariant b.stopped.None? && b.cache == archive.Cache()
      {
        b := ServePosition(indices, allFiles, count, testMode, answers, work, i, b);
        if b.stopped.Some? {
          return;
        }
        i := i + 1;
      }
    }

    /** `Extract(indices, numItems, testMode, callback)`: `answers[i]` is the
        host's answer for position `i`; returns the call's outcome, the total
        size reported through `SetTotal`, the reports of the items and what
        each item's stream received. */
    method Extract(indices: seq<nat>, numItems: nat, testMode: bool, answers: seq<StreamAnswer>)
        returns (o: Outcome, total: nat, reports: seq<OperationResult>, outputs: seq<seq<byte>>)
      requires archive.Valid() && numItems <= UINT32_MAX
      requires numItems != UINT32_MAX ==> numItems <= |indices|
      requires BatchSize(archive.setup.info, numItems) <= |answers|
      requires forall i :: 0 <= i < |answers| ==> WellFormed(answers[i])
      modifies archive`extractInitialized, archive`currentChunk, archive`reader, archive.ReaderFrame()
      ensures archive.Valid()
      ensures var r := ExtractBatch(archive.setup, archive.collisionLocations, archive.hasCollision, old(archive.Cache()),
                                    indices, numItems, testMode, answers);
        o == r.outcome && total == r.total && reports == r.reports && outputs == r.outputs
        && archive.Cache() == r.cache
    {
      if numItems == 0 {
        return Returned(S_OK), 0, [], [];
      }
      var allFiles := numItems == UINT32_MAX;
      var count := numItems;
      if allFiles {
        count := NumberOfItems(archive.setup.info);
      }
      ghost var work := Worklist(archive.setup.info, indices, numItems);
      assert work == if allFiles then Upto(count) else indices[..count];
      var ok, reuse;
      ok, reuse, total := PrePassLoop(indices, allFiles, count, work);
      if !ok {
        return Threw(OutOfRange), 0, [], [];
      }
      var b := MainPass(indices, allFiles, count, testMode, answers, work, Batch(archive.Cache(), reuse, [], [], None));
      o := if b.stopped.Some? then b.stopped.value else Returned(S_OK);
      reports, outputs := b.reports, b.outputs;
    }
  }
}

=== FILE: items.dfy ===
/**
 * Per-item metadata of the Inno Setup reader (InnoItem.h, InnoItem.cpp):
 * the records a file item is built from, the architecture inferred from a
 * file's `Check` expression, the displayed path, size, offset and method
 * string, and the generated ("embedded") items.
 */
module Items {
  import opened Common
  import opened Tristate
  import opened Text
  import Cleaning

  // ------------------------------------------------------------------ records

  datatype Compression = Stored | Zlib | BZip2 | LZMA1 | LZMA2 | UnknownCompression
  datatype Encryption = Plaintext | Encrypted
  datatype CompressionFilter = NoFilter | InstructionFilter4108 | InstructionFilter5200
                             | InstructionFilter5309 | ZlibFilter
  datatype FileType = UserFile | UninstExe

  /** A compressed chunk of the setup data. */
  datatype Chunk = Chunk(firstSlice: nat, offset: nat, size: nat,
                         compression: Compression, encryption: Encryption)

  /** Where a file sits inside its chunk once decompressed. */
  datatype FileLocation = FileLocation(offset: nat, size: nat, checksum: nat,
                                       filter: CompressionFilter)

  /** A data entry: the chunk, the location inside it and the expected size. */
  datatype DataEntry = DataEntry(chunk: Chunk, file: FileLocation,
                                 uncompressedSize: nat, timestamp: int)

  /** A file entry of the setup script; `location` indexes the data entries. */
  datatype FileEntry = FileEntry(destination: string, check: string,
                                 bits32: bool, bits64: bool, ftype: FileType,
                                 location: nat, attributes: nat)

  /** The value-initialised data entry used for a file without data. */
  const EmptyData: DataEntry :=
    DataEntry(Chunk(0, 0, 0, Stored, Plaintext), FileLocation(0, 0, 0, NoFilter), 0, 0)

  // ---------------------------------------------------------- architecture

  /** `FileArch`, with its enumerator values. */
  datatype FileArch = Unknown | X86 | X64 | Arm64

  function ArchCode(a: FileArch): (code: nat)
    ensures code <= 3
  {
    match a
    case Unknown => 0
    case X86 => 1
    case X64 => 2
    case Arm64 => 3
  }

  /** The enumerator values are distinct and ordered unknown < x86 < x64 < arm64. */
  lemma ArchOrder(a: FileArch, b: FileArch)
    ensures ArchCode(a) == ArchCode(b) <==> a == b
    ensures ArchCode(Unknown) < ArchCode(X86) < ArchCode(X64) < ArchCode(Arm64)
  {
  }

  /** The fields between single spaces, as `views::split(' ')` yields them:
      adjacent or trailing spaces yield empty fields. */
  function Fields(s: string): (ws: seq<string>)
    decreases |s|
    ensures |ws| >= 1
    ensures forall i :: 0 <= i < |ws| ==> forall k :: 0 <= k < |ws[i]| ==> ws[i][k] != ' '
  {
    match Find(s, " ", 0)
    case None =>
      assert forall k :: 0 <= k < |s| ==> s[k] != ' ' by {
        forall k | 0 <= k < |s| ensures s[k] != ' ' {
          assert !OccursAt(s, " ", k);
          assert s[k..k + 1] == [s[k]];
        }
      }
      [s]
    case Some(i) =>
      assert s[i..i + 1] == " ";
      assert forall k :: 0 <= k < i ==> s[k] != ' ' by {
        forall k | 0 <= k < i ensures s[k] != ' ' {
          assert !OccursAt(s, " ", k);
          assert s[k..k + 1] == [s[k]];
        }
      }
      [s[..i]] + Fields(s[i + 1..])
  }

  /** The words of a `Check` expression: none for an empty string. */
  function Tokens(s: string): seq<string>
  {
    if s == "" then [] else Fields(s)
  }

  /** Joining the words back with single spaces. */
  function Join(ws: seq<string>): string
    requires |ws| >= 1
  {
    if |ws| == 1 then ws[0] else ws[0] + " " + Join(ws[1..])
  }

  /** Splitting loses nothing: joining the fields gives the string back. */
  lemma {:induction false} FieldsJoin(s: string)
    decreases |s|
    ensures Join(Fields(s)) == s
  {
    match Find(s, " ", 0)
    case None =>
    case Some(i) =>
      var rest := s[i + 1..];
      FieldsJoin(rest);
      calc {
        Join(Fields(s));
        { var ws := Fields(s);
          assert ws == [s[..i]] + Fields(rest);
          assert ws[1..] == Fields(rest); }
        s[..i] + " " + Join(Fields(rest));
        s[..i] + " " + rest;
        { assert s[i..i + 1] == " "; }
        s;
      }
  }

  /** The scan state of `GetArch`: the three latches and the `reverse` flag. */
  datatype ScanState = ScanState(bits32: Latch, bits64: Latch, arm: Latch, reverse: bool)

  predicate IsBits64Keyword(w: string) { w == "Is64BitInstallMode" || w == "IsWin64" }

  /** One word of the loop: `not` arms the negation and skips the rest;
      the 64-bit keywords and `IsARM64` assign their latch; any other
      non-empty word disarms the negation. */
  function Step(st: ScanState, w: string): ScanState
  {
    if w == "not" then st.(reverse := true)
    else
      var b64 := if IsBits64Keyword(w) then Merge(st.bits64, !st.reverse) else st.bits64;
      var arm := if w == "IsARM64" then Merge(st.arm, !st.reverse) else st.arm;
      ScanState(st.bits32, b64, arm, if w != "" then false else st.reverse)
  }

  /** The state after all of `ws`. */
  function Scan(st: ScanState, ws: seq<string>): ScanState
  {
    if ws == [] then st else Step(Scan(st, ws[..|ws| - 1]), ws[|ws| - 1])
  }

  /** The latches after the option flags are applied to fresh latches. */
  function Seed(file: FileEntry): ScanState
  {
    ScanState(if file.bits32 then Merge(Unsure, true) else Unsure,
              if file.bits64 then Merge(Unsure, true) else Unsure,
              Unsure, false)
  }

  /** The priority rule at the end of `GetArch`. */
  function Pick(st: ScanState): FileArch
  {
    if st.arm == Yes then Arm64
    else if st.bits64 == Yes then X64
    else if st.bits32 == Yes then X86
    else Unknown
  }

  /** The architecture `GetArch` infers for a file entry. */
  function ArchOf(file: FileEntry): FileArch
  {
    Pick(Scan(Seed(file), Tokens(file.check)))
  }

  /** `CItem::GetArch`: three latches updated in place while the words of
      the `Check` expression are scanned. */
  method GetArch(file: FileEntry) returns (r: FileArch)
    ensures r == ArchOf(file)
  {
    var bits32 := new State3();
    var bits64 := new State3();
    var arm := new State3();
    if file.bits32 {
      bits32.Assign(true);
    }
    if file.bits64 {
      bits64.Assign(true);
    }
    var words := Tokens(file.check);
    var reverse := false;
    var i := 0;
    while i < |words|
      invariant 0 <= i <= |words|
      invariant ScanState(bits32.latch, bits64.latch, arm.latch, reverse) == Scan(Seed(file), words[..i])
    {
      var word := words[i];
      assert words[..i + 1][..i] == words[..i];
      if word == "not" {
        reverse := true;
      } else {
        if word == "Is64BitInstallMode" {
          bits64.Assign(!reverse);
        } else if word == "IsWin64" {
          bits64.Assign(!reverse);
        } else if word == "IsARM64" {
          arm.Assign(!reverse);
        }
        if word != "" {
          reverse := false;
        }
      }
      i := i + 1;
    }
    assert words[..i] == words;
    if arm.AsBool() {
      return Arm64;
    }
    if bits64.AsBool() {
      return X64;
    }
    if bits32.AsBool() {
      return X86;
    }
    return Unknown;
  }

  /** The `reverse` flag after a word: armed by `not`, cleared by any other
      non-empty word, kept by an empty one. */
  lemma StepReverse(st: ScanState, w: string)
    ensures Step(st, w).reverse <==> w == "not" || (w == "" && st.reverse)
  {
  }

  /** The option flags seed fresh latches with true, and the `Check` words
      never touch the 32-bit latch. */
  lemma {:induction false} ScanKeepsBits32(st: ScanState, ws: seq<string>)
    ensures Scan(st, ws).bits32 == st.bits32
  {
    if ws != [] {
      ScanKeepsBits32(st, ws[..|ws| - 1]);
    }
  }

  /** A latch moves only on its own keywords. */
  lemma {:induction false} ScanKeepsUntouchedLatches(st: ScanState, ws: seq<string>)
    ensures (forall i :: 0 <= i < |ws| ==> !IsBits64Keyword(ws[i])) ==> Scan(st, ws).bits64 == st.bits64
    ensures (forall i :: 0 <= i < |ws| ==> ws[i] != "IsARM64") ==> Scan(st, ws).arm == st.arm
  {
    if ws != [] {
      var init := ws[..|ws| - 1];
      ScanKeepsUntouchedLatches(st, init);
      assert forall i :: 0 <= i < |init| ==> init[i] == ws[i];
    }
  }

  /** `arm64` is inferred only when the expression mentions `IsARM64`. */
  lemma ArmNeedsKeyword(file: FileEntry)
    requires ArchOf(file) == Arm64
    ensures exists i :: 0 <= i < |Tokens(file.check)| && Tokens(file.check)[i] == "IsARM64"
  {
    ScanKeepsUntouchedLatches(Seed(file), Tokens(file.check));
  }

  /** `x64` is inferred only from the 64-bit option or a 64-bit keyword. */
  lemma X64NeedsEvidence(file: FileEntry)
    requires ArchOf(file) == X64
    ensures file.bits64 || exists i :: 0 <= i < |Tokens(file.check)| && IsBits64Keyword(Tokens(file.check)[i])
  {
    ScanKeepsUntouchedLatches(Seed(file), Tokens(file.check));
  }

  /** `x86` is inferred only from the 32-bit option. */
  lemma X86NeedsOption(file: FileEntry)
    requires ArchOf(file) == X86
    ensures file.bits32
  {
    ScanKeepsBits32(Seed(file), Tokens(file.check));
  }

  /** Without options and keywords the architecture is unknown. */
  lemma NoEvidenceUnknown(file: FileEntry)
    requires !file.bits32 && !file.bits64
    requires forall i :: 0 <= i < |Tokens(file.check)| ==>
      !IsBits64Keyword(Tokens(file.check)[i]) && Tokens(file.check)[i] != "IsARM64"
    ensures ArchOf(file) == Unknown
  {
    ScanKeepsUntouchedLatches(Seed(file), Tokens(file.check));
    ScanKeepsBits32(Seed(file), Tokens(file.check));
  }

  /** An architecture whose latch reads yes. */
  predicate Confirmed(st: ScanState, a: FileArch)
  {
    (a == Arm64 && st.arm == Yes) || (a == X64 && st.bits64 == Yes) || (a == X86 && st.bits32 == Yes)
  }

  /** The result is the highest confirmed architecture, or unknown when none
      is confirmed. */
  lemma PickIsHighestConfirmed(st: ScanState)
    ensures Pick(st) == Unknown <==> forall a :: !Confirmed(st, a)
    ensures Pick(st) != Unknown ==> Confirmed(st, Pick(st))
    ensures forall a :: Confirmed(st, a) ==> ArchCode(a) <= ArchCode(Pick(st))
  {
    if Pick(st) != Unknown {
      assert Confirmed(st, Pick(st));
    }
  }

  /** `not IsWin64` negates the keyword; a contradicting keyword cancels the
      64-bit option; the negation survives an empty word between two
      spaces. */
  lemma NegationScenarios(st: ScanState)
    requires st.bits64 == Unsure && st.arm == Unsure && !st.reverse
    ensures Scan(st, ["not", "IsWin64"]).bits64 == No
    ensures Scan(st.(bits64 := Yes), ["not", "IsWin64"]).bits64 == Unsure
    ensures Scan(st, ["not", "", "IsARM64"]).arm == No
    ensures Scan(st, ["not", "x", "IsARM64"]).arm == Yes
  {
    ScanPair(st, "not", "IsWin64");
    ScanPair(st.(bits64 := Yes), "not", "IsWin64");
    ScanTriple(st, "not", "", "IsARM64");
    ScanTriple(st, "not", "x", "IsARM64");
  }

  lemma ScanPair(st: ScanState, a: string, b: string)
    ensures Scan(st, [a, b]) == Step(Step(st, a), b)
  {
    assert [a, b][..1] == [a] && [a][..0] == [];
    assert Scan(st, [a]) == Step(Scan(st, []), a);
  }

  lemma ScanTriple(st: ScanState, a: string, b: string, c: string)
    ensures Scan(st, [a, b, c]) == Step(Step(Step(st, a), b), c)
  {
    assert [a, b, c][..2] == [a, b];
    ScanPair(st, a, b);
  }

  // ------------------------------------------------------------------ items

  /** `CAbstractItem`: a file of the setup, or a generated text item. */
  datatype Item =
    | FileItem(file: FileEntry, data: DataEntry, hasCollision: bool)
    | EmbeddedItem(name: string, size: nat, methodName: string, timestamp: int)

  const UNINSTALLER_NAME := "unins___.exe"
  const EMBEDDED_PREFIX := "embedded\\"
  const EMBEDDED_COMMENT := "Auto generated"

  /** The directory prefix that tells colliding destinations apart. */
  function ArchPrefix(a: FileArch): string
  {
    match a
    case Unknown => ""
    case X86 => "{x86}\\"
    case X64 => "{x64}\\"
    case Arm64 => "{arm64}\\"
  }

  /** `GetPath`. */
  function Path(item: Item): string
  {
    match item
    case FileItem(file, _, collision) =>
      if file.ftype == UninstExe then UNINSTALLER_NAME
      else if collision then ArchPrefix(ArchOf(file)) + file.destination
      else file.destination
    case EmbeddedItem(name, _, _, _) => EMBEDDED_PREFIX + name
  }

  /** `GetSize`. */
  function Size(item: Item): nat
  {
    match item
    case FileItem(file, data, _) => if file.ftype == UninstExe then 0 else data.uncompressedSize
    case EmbeddedItem(_, size, _, _) => size
  }

  /** `GetOffset`. */
  function Offset(item: Item): nat
  {
    match item
    case FileItem(file, data, _) => if file.ftype == UninstExe then 0 else data.file.offset
    case EmbeddedItem(_, _, _, _) => 0
  }

  /** `GetAttrib`. */
  function Attrib(item: Item): nat
  {
    if item.FileItem? then item.file.attributes else 0
  }

  /** `GetChecksum`. */
  function Checksum(item: Item): nat
  {
    if item.FileItem? then item.data.file.checksum else 0
  }

  /** `GetEnryption`. */
  function IsEncrypted(item: Item): bool
  {
    item.FileItem? && item.data.chunk.encryption != Plaintext
  }

  /** `GetComment`: the `Check` expression of a file, a fixed text otherwise. */
  function Comment(item: Item): string
  {
    if item.FileItem? then item.file.check else EMBEDDED_COMMENT
  }

  /** The uninstaller stub always has the fixed name, whatever the
      collision flag, and reports no size and no offset. */
  lemma UninstallerStub(item: Item)
    requires item.FileItem? && item.file.ftype == UninstExe
    ensures Path(item) == UNINSTALLER_NAME == Path(item.(hasCollision := !item.hasCollision))
    ensures Size(item) == 0 && Offset(item) == 0
  {
  }

  /** A user file keeps its destination, prefixed by its architecture only
      when names collide in the archive and the architecture is known; its
      size and offset are those of its data entry. */
  lemma UserFileMetadata(item: Item)
    requires item.FileItem? && item.file.ftype == UserFile
    ensures !item.hasCollision ==> Path(item) == item.file.destination
    ensures ArchOf(item.file) == Unknown ==> Path(item) == item.file.destination
    ensures Path(item) == ArchPrefix(if item.hasCollision then ArchOf(item.file) else Unknown) + item.file.destination
    ensures Size(item) == item.data.uncompressedSize && Offset(item) == item.data.file.offset
    ensures IsEncrypted(item) <==> item.data.chunk.encryption == Encrypted
  {
  }

  /** With the collision flag set, two files with the same destination and
      different known architectures get different paths. */
  lemma PathsDistinguishArch(a: Item, b: Item)
    requires a.FileItem? && b.FileItem? && a.hasCollision && b.hasCollision
    requires a.file.ftype == UserFile && b.file.ftype == UserFile
    requires a.file.destination == b.file.destination
    requires ArchOf(a.file) != ArchOf(b.file) && ArchOf(a.file) != Unknown && ArchOf(b.file) != Unknown
    ensures Path(a) != Path(b)
  {
    var pa, pb := ArchPrefix(ArchOf(a.file)), ArchPrefix(ArchOf(b.file));
    assert Path(a)[3] == pa[3];
    assert Path(b)[3] == pb[3];
  }

  /** A generated item reports its constructor's size and method, and
      zero offset, attributes and checksum, no encryption and the fixed
      comment. */
  lemma EmbeddedMetadata(name: string, size: nat, methodName: string, timestamp: int)
    ensures var item := EmbeddedItem(name, size, methodName, timestamp);
      Size(item) == size && Method(item) == methodName && Offset(item) == 0 && Attrib(item) == 0
      && Checksum(item) == 0 && !IsEncrypted(item) && Comment(item) == "Auto generated"
      && Path(item) == "embedded\\" + name
  {
  }

  /** Generated items with different names have different paths. */
  lemma EmbeddedPathInjective(n1: string, n2: string)
    requires Path(EmbeddedItem(n1, 0, "", 0)) == Path(EmbeddedItem(n2, 0, "", 0))
    ensures n1 == n2
  {
    var p := EMBEDDED_PREFIX;
    assert n1 == (p + n1)[|p|..] && n2 == (p + n2)[|p|..];
  }

  // ----------------------------------------------------------------- method

  const COMPRESSION_METHODS: seq<string> := ["Copy", "Deflate", "BZip2", "LZMA", "LZMA2", "Unknown"]
  const FILTER_METHODS: seq<string> := ["NoFilter", "IF4108", "IF5200", "IF5309", "ZlibFilter"]

  /** The compression half of the method string; stored data contributes
      nothing. */
  function CompressionPart(c: Compression): string
  {
    match c
    case Stored => ""
    case Zlib => COMPRESSION_METHODS[1]
    case BZip2 => COMPRESSION_METHODS[2]
    case LZMA1 => COMPRESSION_METHODS[3]
    case LZMA2 => COMPRESSION_METHODS[4]
    case UnknownCompression => COMPRESSION_METHODS[5]
  }

  /** The filter half of the method string; no filter contributes nothing. */
  function FilterPart(f: CompressionFilter): string
  {
    match f
    case NoFilter => ""
    case InstructionFilter4108 => FILTER_METHODS[1]
    case InstructionFilter5200 => FILTER_METHODS[2]
    case InstructionFilter5309 => FILTER_METHODS[3]
    case ZlibFilter => FILTER_METHODS[4]
  }

  /** `CItem::GetMethod`: the two halves, joined by a colon only when both
      are present. */
  function MethodString(c: Compression, f: CompressionFilter): string
  {
    var s1, s2 := CompressionPart(c), FilterPart(f);
    if s1 == "" || s2 == "" then s1 + s2 else s1 + ":" + s2
  }

  /** `GetMethod` of any item. */
  function Method(item: Item): string
  {
    match item
    case FileItem(_, data, _) => MethodString(data.chunk.compression, data.file.filter)
    case EmbeddedItem(_, _, m, _) => m
  }

  function CompressionNamed(n: string): Compression
  {
    if n == "Deflate" then Zlib
    else if n == "BZip2" then BZip2
    else if n == "LZMA" then LZMA1
    else if n == "LZMA2" then LZMA2
    else if n == "Unknown" then UnknownCompression
    else Stored
  }

  function FilterNamed(n: string): CompressionFilter
  {
    if n == "IF4108" then InstructionFilter4108
    else if n == "IF5200" then InstructionFilter5200
    else if n == "IF5309" then InstructionFilter5309
    else if n == "ZlibFilter" then ZlibFilter
    else NoFilter
  }

  /** Reads a method string back into its compression and filter. */
  function ParseMethod(s: string): (Compression, CompressionFilter)
  {
    match Cleaning.LastIndexOf(s, ':')
    case Some(i) => (CompressionNamed(s[..i]), FilterNamed(s[i + 1..]))
    case None =>
      if FilterNamed(s) != NoFilter then (Stored, FilterNamed(s)) else (CompressionNamed(s), NoFilter)
  }

  predicate NoColon(s: string) { forall k :: 0 <= k < |s| ==> s[k] != ':' }

  lemma CompressionPartFacts(c: Compression)
    ensures NoColon(CompressionPart(c))
    ensures CompressionNamed(CompressionPart(c)) == c
    ensures FilterNamed(CompressionPart(c)) == NoFilter
    ensures CompressionPart(c) == "" <==> c == Stored
  {
  }

  lemma FilterPartFacts(f: CompressionFilter)
    ensures NoColon(FilterPart(f))
    ensures FilterNamed(FilterPart(f)) == f
    ensures FilterPart(f) == "" <==> f == NoFilter
  {
  }

  /** The method string loses nothing: it can be read back. */
  lemma ParseInvertsMethod(c: Compression, f: CompressionFilter)
    ensures ParseMethod(MethodString(c, f)) == (c, f)
  {
    var s1, s2 := CompressionPart(c), FilterPart(f);
    CompressionPartFacts(c);
    FilterPartFacts(f);
    if s1 == "" || s2 == "" {
      var s := s1 + s2;
      assert Cleaning.LastIndexOf(s, ':') == None by {
        assert NoColon(s);
      }
    } else {
      Cleaning.LastIndexOfJoin(s1, ':', s2);
      var s := s1 + [':'] + s2;
      assert s == s1 + ":" + s2;
      assert s[..|s1|] == s1 && s[|s1| + 1..] == s2;
    }
  }

  /** Different compression/filter pairs give different method strings, and
      the colon appears exactly when both halves are present. */
  lemma MethodStringInjective(c1: Compression, f1: CompressionFilter, c2: Compression, f2: CompressionFilter)
    ensures MethodString(c1, f1) == MethodString(c2, f2) ==> c1 == c2 && f1 == f2
    ensures (exists k :: 0 <= k < |MethodString(c1, f1)| && MethodString(c1, f1)[k] == ':')
        <==> c1 != Stored && f1 != NoFilter
  {
    ParseInvertsMethod(c1, f1);
    ParseInvertsMethod(c2, f2);
    CompressionPartFacts(c1);
    FilterPartFacts(f1);
    var s1, s2 := CompressionPart(c1), FilterPart(f1);
    if c1 != Stored && f1 != NoFilter {
      assert MethodString(c1, f1)[|s1|] == ':';
    } else {
      assert NoColon(s1 + s2);
    }
  }
}

=== FILE: streams.dfy ===
/**
 * The pull-based stream pipeline of minihead_iostreams.hpp, a small
 * replacement for part of Boost.Iostreams: a fixed buffer with a get
 * window (`basic_mini_buffer`), the wrappers that link stages together
 * (`source_wrapper`, `filter_wrapper`), the driver of a block transform
 * (`symmetric_filter`), a length-limited source (`restrict`) and the
 * vector of stages with its read counter (`chain`).
 *
 * What a stage obtains from its `_next` stage (or from its device, for a
 * source) is modelled by an `Upstream`: a finite script of read outcomes
 * that answers each `read(dest, n)` call in turn.
 */
module Streams {
  import opened Common

  const DEFAULT_BUFFER_SIZE: nat := 4096

  /** The `flag_type` bits kept in `symmetric_filter::_state`. */
  const F_READ: bv8 := 1
  const F_WRITE: bv8 := 2
  const F_EOF: bv8 := 4

  /** The loop status of `symmetric_filter::read`: `f_good`, `f_would_block`
      or `f_eof`. */
  datatype Status = Good | WouldBlock | AtEof

  /** Orders the statuses by how far the loop is from giving up. */
  function StatusRank(s: Status): nat
  {
    match s
    case Good => 2
    case AtEof => 1
    case WouldBlock => 0
  }

  /** `s` with `bytes` written over it from position `off`. */
  function Overwrite(s: seq<byte>, off: nat, bytes: seq<byte>): (r: seq<byte>)
    requires off + |bytes| <= |s|
    ensures |r| == |s|
  {
    s[..off] + bytes + s[off + |bytes|..]
  }

  /** Two consecutive writes are one write of the concatenation. */
  lemma OverwriteTwice(s: seq<byte>, off: nat, a: seq<byte>, b: seq<byte>)
    requires off + |a| + |b| <= |s|
    ensures Overwrite(Overwrite(s, off, a), off + |a|, b) == Overwrite(s, off, a + b)
  {
  }

  /** A sequence that grew by the bytes written at the start of a buffer is
      its old value followed by the buffer's first bytes. */
  lemma GrownByPrefix(e0: seq<byte>, e: seq<byte>, d0: seq<byte>, d: seq<byte>)
    requires |e0| <= |e| && e[..|e0|] == e0 && |e| - |e0| <= |d0|
    requires d == Overwrite(d0, 0, e[|e0|..])
    ensures e == e0 + d[..|e| - |e0|]
  {
    assert d[..|e| - |e0|] == e[|e0|..];
  }

  /** Copies `bytes` into `dest` from position `off`. */
  method CopyInto(dest: array<byte>, off: nat, bytes: seq<byte>)
    requires off + |bytes| <= dest.Length
    modifies dest
    ensures dest[..] == Overwrite(old(dest[..]), off, bytes)
  {
    forall i | off <= i < off + |bytes| {
      dest[i] := bytes[i - off];
    }
    assert dest[..] == Overwrite(old(dest[..]), off, bytes);
  }

  // ---------------------------------------------------------------- upstream

  /** One answer of an upstream: some bytes (possibly none, which the
      stage reads as "would block"), or the end of the data. */
  datatype ReadOutcome = Data(bytes: seq<byte>) | End

  /** A bound on the number of non-final answers still to come. */
  function Weight(script: seq<ReadOutcome>): nat
  {
    if script == [] then 0
    else (if script[0].Data? then |script[0].bytes| + 1 else 0) + Weight(script[1..])
  }

  /** The result of one `read(dest, n)`: the count returned (-1 at the end),
      the bytes delivered and the answers still to come. */
  datatype Pulled = Pulled(count: int, bytes: seq<byte>, rest: seq<ReadOutcome>)

  /** One `read(dest, n)` against a script: at the end it answers -1 and
      stays at the end; otherwise it hands out at most `n` bytes of the
      next answer and keeps the remainder for the following read. */
  function Pull(script: seq<ReadOutcome>, n: nat): (p: Pulled)
    ensures p.count == -1 <==> script == [] || script[0].End?
    ensures p.count == -1 ==> p.bytes == [] && p.rest == script
    ensures p.count != -1 ==> p.count == |p.bytes| <= n && Weight(p.rest) <= Weight(script)
    ensures p.count > 0 ==> Weight(p.rest) < Weight(script)
    ensures p.count == 0 && n > 0 ==> Weight(p.rest) < Weight(script)
  {
    if script == [] || script[0].End? then Pulled(-1, [], script)
    else
      var b := script[0].bytes;
      var k := Min(n, |b|);
      var rest := if k < |b| then [Data(b[k..])] + script[1..] else script[1..];
      assert rest == [] || rest[1..] == script[1..] || rest == script[1..];
      Pulled(k, b[..k], rest)
  }

  /** The data a stage can obtain from `_next` (or from its device). */
  class Upstream {
    var script: seq<ReadOutcome>
    /** Every byte handed out so far, in order. */
    ghost var taken: seq<byte>

    constructor (script: seq<ReadOutcome>)
      ensures this.script == script && taken == []
    {
      this.script := script;
      taken := [];
    }

    /** `read(dest, n)`. */
    method Read(dest: array<byte>, off: nat, n: nat) returns (r: int)
      requires off + n <= dest.Length
      modifies this, dest
      ensures var p := Pull(old(script), n);
        r == p.count && script == p.rest && taken == old(taken) + p.bytes
        && dest[..] == Overwrite(old(dest[..]), off, p.bytes)
    {
      var p := Pull(script, n);
      CopyInto(dest, off, p.bytes);
      script := p.rest;
      taken := taken + p.bytes;
      r := p.count;
    }
  }

  // ------------------------------------------------------------------ buffer

  /** `basic_mini_buffer`: a fixed array with the get window
      `[eback, gptr, egptr)` of a stream buffer, the `[ptr, eptr)` window a
      symmetric filter consumes, and the end-of-data flag. */
  class MiniBuffer {
    const data: array<byte>
    var eback: nat
    var gptr: nat
    var egptr: nat
    var ptr: nat
    var eptr: nat
    var eof: bool

    predicate Valid()
      reads this
    {
      eback <= gptr <= egptr <= data.Length && ptr <= eptr <= data.Length
    }

    /** A new buffer: empty get window at the start, the `[ptr, eptr)`
        window over the whole array, end of data not seen. */
    constructor (size: nat)
      ensures Valid() && fresh(data) && data.Length == size
      ensures eback == 0 && gptr == 0 && egptr == 0 && ptr == 0 && eptr == size && !eof
    {
      data := new byte[size];
      eback, gptr, egptr := 0, 0, 0;
      ptr, eptr := 0, size;
      eof := false;
    }

    /** `set(ptr, end)`. */
    method Set(p: nat, e: nat)
      requires p <= e <= data.Length
      modifies this
      ensures Valid() == old(eback <= gptr <= egptr <= data.Length)
      ensures ptr == p && eptr == e
      ensures eback == old(eback) && gptr == old(gptr) && egptr == old(egptr) && eof == old(eof)
    {
      ptr, eptr := p, e;
    }
  }

  // --------------------------------------------------------- symmetric filter

  /** The state a block transform keeps between calls. */
  type CodecState = seq<byte>

  /** One call of the transform: its new state, how many window bytes it
      consumed, what it wrote, and whether it wants to be called again
      (false means done). */
  datatype Filtered = Filtered(next: CodecState, consumed: nat, output: seq<byte>, more: bool)

  /** `filter(src_begin, src_end, dest_begin, dest_end, flush)`. */
  type Transform = (CodecState, seq<byte>, nat, bool) -> Filtered

  /** What `symmetric_filter::read` relies on from its transform: it stays
      inside the window and the room it is given, it leaves input behind
      only when the output is full, and when flushing it either finishes or
      writes something. */
  predicate Fits(f: Filtered, window: seq<byte>, room: nat, flush: bool)
  {
    f.consumed <= |window| && |f.output| <= room
    && (f.more && |f.output| < room ==> f.consumed == |window|)
    && (f.more && flush && room > 0 ==> |f.output| > 0)
  }

  ghost predicate Conforms(t: Transform)
  {
    forall st, window, room, flush :: Fits(t(st, window, room, flush), window, room, flush)
  }

  /** The count `symmetric_filter::read` returns once the transform is done. */
  function DoneResult(produced: nat, n: nat): int
  {
    if produced != 0 then n else -1
  }

  /** The count the caller of `read` expects once the transform is done: the
      bytes produced by this call, or -1 when there were none. */
  function DoneResultCorrected(produced: nat): (r: int)
    ensures r == -1 <==> produced == 0
    ensures r >= 0 ==> r == produced
  {
    if produced != 0 then produced else -1
  }

  /** The two agree exactly when nothing or the whole request was produced;
      on any partial last output the count returned as written claims bytes
      that were never written. */
  lemma DoneResultOverstates(produced: nat, n: nat)
    requires produced <= n
    ensures DoneResult(produced, n) == DoneResultCorrected(produced) <==> produced == 0 || produced == n
    ensures 0 < produced < n ==> DoneResult(produced, n) > DoneResultCorrected(produced)
  {
  }

  /** The concrete case: one byte produced into a 4096-byte request. */
  lemma DoneResultPartialExample()
    ensures DoneResult(1, 4096) == 4096 && DoneResultCorrected(1) == 1
  {
  }

  /** `symmetric_filter<Impl>`: the state bits, the transform's state and the
      input buffer it fills from upstream. */
  class SymmetricFilter {
    var state: bv8
    var impl: CodecState
    const transform: Transform
    const input: MiniBuffer
    /** The upstream bytes handed to the transform so far. */
    ghost var absorbed: seq<byte>
    /** Everything the transform has written so far. */
    ghost var emitted: seq<byte>

    ghost predicate Valid()
      reads this, input
    {
      input.Valid() && Conforms(transform)
    }

    /** Every byte taken from upstream has been handed to the transform
        exactly once, in order, or still waits in the input window. */
    ghost predicate Conserves(src: Upstream)
      reads this, input, input.data, src
      requires input.Valid()
    {
      if state & F_READ == 0 then absorbed == [] && src.taken == []
      else src.taken == absorbed + input.data[input.ptr..input.eptr]
    }

    constructor (transform: Transform, bufferSize: nat)
      requires Conforms(transform)
      ensures Valid() && state == 0 && absorbed == [] && emitted == []
      ensures this.transform == transform && fresh(input) && fresh(input.data)
      ensures input.data.Length == bufferSize
    {
      state := 0;
      impl := [];
      this.transform := transform;
      input := new MiniBuffer(bufferSize);
      absorbed, emitted := [], [];
    }

    /** `fill(src)`: reads a whole buffer's worth from upstream. At the end
        of the data it records `f_eof` in the state; otherwise the input
        window becomes the bytes read, and an empty read means "would block". */
    method Fill(src: Upstream) returns (status: Status)
      requires Valid()
      modifies this, input, input.data, src
      ensures Valid()
      ensures var p := Pull(old(src.script), input.data.Length);
        src.script == p.rest && src.taken == old(src.taken) + p.bytes
        && (p.count == -1 ==>
              (status == AtEof && state == old(state) | F_EOF
               && input.ptr == old(input.ptr) && input.eptr == old(input.eptr)))
        && (p.count != -1 ==>
              (state == old(state) && input.ptr == 0 && input.eptr == p.count
               && input.data[..p.count] == p.bytes
               && status == if p.count != 0 then Good else WouldBlock))
      ensures impl == old(impl) && absorbed == old(absorbed) && emitted == old(emitted)
      ensures input.gptr == old(input.gptr) && input.egptr == old(input.egptr) && input.eback == old(input.eback)
      ensures input.eof == old(input.eof)
    {
      var amt := src.Read(input.data, 0, input.data.Length);
      if amt == -1 {
        state := state | F_EOF;
        return AtEof;
      }
      input.Set(0, amt);
      status := if amt != 0 then Good else WouldBlock;
    }

    /** One call of the transform on the input window, writing into `dest`
        from `at` with `room` bytes of space; the window start advances by
        what the transform consumed. */
    method Invoke(dest: array<byte>, at: nat, room: nat, flush: bool)
        returns (more: bool, wrote: nat, ghost output: seq<byte>)
      requires Valid() && at + room <= dest.Length && dest != input.data
      modifies this, input, dest
      ensures Valid()
      ensures wrote == |output| <= room && emitted == old(emitted) + output
      ensures dest[..] == Overwrite(old(dest[..]), at, output)
      ensures old(input.ptr) <= input.ptr && input.eptr == old(input.eptr)
      ensures absorbed + input.data[input.ptr..input.eptr] == old(absorbed + input.data[input.ptr..input.eptr])
      ensures more && wrote < room ==> input.ptr == input.eptr
      ensures more && flush && room > 0 ==> wrote > 0
      ensures state == old(state)
      ensures input.gptr == old(input.gptr) && input.egptr == old(input.egptr) && input.eback == old(input.eback)
      ensures input.eof == old(input.eof)
    {
      var window := input.data[input.ptr..input.eptr];
      var f := transform(impl, window, room, flush);
      assert Fits(f, window, room, flush);
      ghost var rest := input.data[input.ptr + f.consumed..input.eptr];
      assert window == window[..f.consumed] + rest;
      CopyInto(dest, at, f.output);
      input.ptr := input.ptr + f.consumed;
      impl := f.next;
      absorbed := absorbed + window[..f.consumed];
      assert input.data[input.ptr..input.eptr] == rest;
      emitted := emitted + f.output;
      more, wrote, output := f.more, |f.output|, f.output;
    }

    /** The facts `read` keeps between the rounds of its loop. */
    ghost predicate Steady(src: Upstream, status: Status)
      reads this, input, input.data, src
    {
      Valid() && Conserves(src) && state & F_READ != 0
      && (status == AtEof <==> state & F_EOF != 0)
      && (status == WouldBlock ==> input.ptr == input.eptr)
    }

    /** One round of the loop of `read`: invoke the transform when the
        window holds input or the filter must be flushed; stop when it is
        done, when the output is full, or when the input would block;
        otherwise refill the window while the status is good. A round that
        does not stop writes something, uses up upstream data, or moves the
        status towards giving up. */
    method Round(src: Upstream, dest: array<byte>, off: nat, n: nat, written: nat, status: Status)
        returns (stop: bool, more: bool, written': nat, status': Status, ghost output: seq<byte>)
      requires Steady(src, status)
      requires written <= n && off + n <= dest.Length && dest != input.data
      modifies this, input, input.data, src, dest
      ensures Steady(src, status')
      ensures old(state) & F_EOF != 0 ==> state & F_EOF != 0
      ensures written' == written + |output| <= n && emitted == old(emitted) + output
      ensures dest[..] == Overwrite(old(dest[..]), off + written, output)
      ensures stop && more ==> written' == n || (status' == WouldBlock && input.ptr == input.eptr)
      ensures !stop ==> more && written' < n
      ensures !stop && written' == written ==>
        Weight(src.script) < old(Weight(src.script))
        || (Weight(src.script) == old(Weight(src.script)) && StatusRank(status') < StatusRank(status))
      ensures input.gptr == old(input.gptr) && input.egptr == old(input.egptr) && input.eback == old(input.eback)
      ensures input.eof == old(input.eof)
    {
      written', status', output, more := written, status, [], true;
      var flush := status == AtEof;
      if input.ptr != input.eptr || flush {
        var wrote;
        more, wrote, output := Invoke(dest, off + written, n - written, flush);
        written' := written + wrote;
        if !more {
          return true, more, written', status', output;
        }
      }
      if (status == WouldBlock && input.ptr == input.eptr) || written' == n {
        return true, more, written', status', output;
      }
      if status == Good {
        status' := Refuel(src);
      }
      stop := false;
    }

    /** The refill that ends a round whose status is good: the window is
        used up, and what `fill` brings in is either new data, an empty
        read (would block) or the end of the data. */
    method Refuel(src: Upstream) returns (status: Status)
      requires Steady(src, Good) && input.ptr == input.eptr
      modifies this, input, input.data, src
      ensures Steady(src, status)
      ensures Weight(src.script) < old(Weight(src.script))
        || (Weight(src.script) == old(Weight(src.script)) && StatusRank(status) < StatusRank(Good))
      ensures emitted == old(emitted) && (old(state) & F_EOF != 0 ==> state & F_EOF != 0)
      ensures input.gptr == old(input.gptr) && input.egptr == old(input.egptr) && input.eback == old(input.eback)
      ensures input.eof == old(input.eof)
    {
      status := Fill(src);
    }

    /** `read(src, s, n)`: drives the transform until it is done, the output
        is full, or no more input is available without blocking. */
    method Read(src: Upstream, dest: array<byte>, off: nat, n: nat)
        returns (r: int, ghost produced: nat, ghost done: bool, ghost exit: Status)
      requires Valid() && Conserves(src)
      requires off + n <= dest.Length && dest != input.data
      modifies this, input, input.data, src, dest
      ensures Valid() && Conserves(src)
      ensures state & F_READ != 0
      ensures old(state) & F_EOF != 0 ==> state & F_EOF != 0
      ensures exit == AtEof <==> state & F_EOF != 0
      ensures produced <= n && |emitted| == |old(emitted)| + produced
      ensures emitted[..|old(emitted)|] == old(emitted)
      ensures dest[..] == Overwrite(old(dest[..]), off, emitted[|old(emitted)|..])
      ensures done ==> r == DoneResult(produced, n)
      ensures !done ==> r == produced && (produced == n || (exit == WouldBlock && input.ptr == input.eptr))
      ensures input.gptr == old(input.gptr) && input.egptr == old(input.egptr) && input.eback == old(input.eback)
      ensures input.eof == old(input.eof)
    {
      var status := Begin(src);
      var written: nat, more: bool;
      ghost var out;
      written, more, status, out := Drive(src, dest, off, n, status);
      assert emitted[|old(emitted)|..] == out;
      produced, done, exit := written, !more, status;
      r := if more then written else DoneResult(written, n);
    }

    /** The start of `read`: the first call records `f_read` and empties the
        input window; the status is at end of data once `f_eof` is set. */
    method Begin(src: Upstream) returns (status: Status)
      requires Valid() && Conserves(src)
      modifies this`state, input
      ensures Steady(src, status) && (status == AtEof <==> old(state) & F_EOF != 0)
      ensures old(state) & F_EOF != 0 ==> state & F_EOF != 0
      ensures input.gptr == old(input.gptr) && input.egptr == old(input.egptr) && input.eback == old(input.eback)
      ensures input.eof == old(input.eof)
    {
      if state & F_READ == 0 {
        state := state | F_READ;
        input.Set(0, 0);
      }
      status := if state & F_EOF != 0 then AtEof else Good;
    }

    /** The loop of `read`: rounds until one stops, collecting the output. */
    method Drive(src: Upstream, dest: array<byte>, off: nat, n: nat, status: Status)
        returns (written: nat, more: bool, status': Status, ghost out: seq<byte>)
      requires Steady(src, status)
      requires off + n <= dest.Length && dest != input.data
      modifies this, input, input.data, src, dest
      ensures Steady(src, status')
      ensures old(state) & F_EOF != 0 ==> state & F_EOF != 0
      ensures written == |out| <= n && emitted == old(emitted) + out
      ensures dest[..] == Overwrite(old(dest[..]), off, out)
      ensures more ==> written == n || (status' == WouldBlock && input.ptr == input.eptr)
      ensures input.gptr == old(input.gptr) && input.egptr == old(input.egptr) && input.eback == old(input.eback)
      ensures input.eof == old(input.eof)
    {
      written, status', out := 0, status, [];
      ghost var d0 := dest[..];
      while true
        invariant Steady(src, status')
        invariant old(state) & F_EOF != 0 ==> state & F_EOF != 0
        invariant written == |out| <= n && emitted == old(emitted) + out
        invariant dest[..] == Overwrite(d0, off, out)
        invariant input.gptr == old(input.gptr) && input.egptr == old(input.egptr) && input.eback == old(input.eback)
        invariant input.eof == old(input.eof)
        decreases n - written, Weight(src.script), StatusRank(status')
      {
        var stop;
        ghost var output;
        stop, more, written, status', output := Round(src, dest, off, n, written, status');
        OverwriteTwice(d0, off, out, output);
        out := out + output;
        if stop {
          return;
        }
      }
    }
  }

  // ------------------------------------------------------------------ stages

  /** A stage of a chain: `source_wrapper<T>` when `codec` is null (its
      `readmore` reads the device), `filter_wrapper<T>` otherwise (its
      `readmore` runs the symmetric filter over the data of `_next`). In both
      cases the data from further up is what `upstream` delivers. */
  class LinkedFilter {
    const buf: MiniBuffer
    const codec: SymmetricFilter?
    const upstream: Upstream
    /** `_next`, patched when a later stage is pushed. */
    var next: LinkedFilter?
    /** Every byte `readmore` has placed in the get window. */
    ghost var produced: seq<byte>
    /** Every byte handed to readers. */
    ghost var delivered: seq<byte>
    /** No refill has yet published more bytes than the filter wrote (see
        `DoneResult`): while this holds, a filter stage has produced exactly
        what its filter emitted. */
    ghost var exact: bool
    /** The objects the stage owns besides itself. */
    ghost const Repr: set<object>

    /** The stage owns its buffer, upstream and filter, and the filter has
        accounted for every byte taken from upstream. */
    ghost predicate Wired()
      reads Repr
    {
      buf in Repr && buf.data in Repr && upstream in Repr
      && (codec != null ==>
            codec in Repr && codec.input in Repr && codec.input.data in Repr
            && codec.input != buf && codec.input.data != buf.data
            && codec.Valid() && codec.Conserves(upstream))
      && buf.Valid()
    }

    /** Besides the wiring: a source has produced exactly what its device
        handed out, an exact filter stage exactly what its filter emitted,
        and what was produced is what was delivered followed by the unread
        part of the get window. */
    ghost predicate Valid()
      reads this`produced, this`delivered, this`exact, Repr
    {
      Wired()
      && (codec == null ==> produced == upstream.taken)
      && (codec != null && exact ==> produced == codec.emitted)
      && delivered + buf.data[buf.gptr..buf.egptr] == produced
    }

    /** `source_wrapper(t, buffer_size)`. */
    constructor Source(script: seq<ReadOutcome>, bufferSize: nat)
      ensures Valid() && fresh(Repr) && this !in Repr && codec == null && next == null
      ensures upstream.script == script && buf.data.Length == bufferSize
      ensures produced == [] && delivered == []
    {
      var b := new MiniBuffer(bufferSize);
      var u := new Upstream(script);
      buf, codec, upstream, next := b, null, u, null;
      produced, delivered, exact := [], [], true;
      Repr := {b, b.data, u};
    }

    /** `filter_wrapper(t, buffer_size)` around a symmetric filter. */
    constructor Filter(transform: Transform, codecBufferSize: nat, script: seq<ReadOutcome>, bufferSize: nat)
      requires Conforms(transform)
      ensures Valid() && fresh(Repr) && this !in Repr && codec != null && next == null
      ensures codec.transform == transform && codec.state == 0
      ensures upstream.script == script && buf.data.Length == bufferSize
      ensures produced == [] && delivered == []
    {
      var b := new MiniBuffer(bufferSize);
      var c := new SymmetricFilter(transform, codecBufferSize);
      var u := new Upstream(script);
      buf, codec, upstream, next := b, c, u, null;
      produced, delivered, exact := [], [], true;
      Repr := {b, b.data, u, c, c.input, c.input.data};
    }

    /** The bytes of the get window not yet handed out. */
    ghost function Unread(): seq<byte>
      reads this, buf, buf.data
      requires buf.Valid()
    {
      buf.data[buf.gptr..buf.egptr]
    }

    /** `readmore(data(), size())`: the device's `read` for a source, the
        filter's `read(_next, ...)` for a filter. A filter's new output is
        placed at the start of the buffer; the count returned covers exactly
        that output, except when the filter is done after a partial output
        (`overstates`), where it claims the whole buffer. */
    method ReadMore() returns (chars: int, ghost overstates: bool)
      requires Valid()
      modifies buf.data, upstream, if codec == null then {} else {codec, codec.input, codec.input.data}
      ensures -1 <= chars <= buf.data.Length
      ensures codec != null ==> codec.Valid() && codec.Conserves(upstream)
      ensures codec == null ==>
        var p := Pull(old(upstream.script), buf.data.Length);
        chars == p.count && upstream.taken == old(upstream.taken) + p.bytes
        && buf.data[..] == Overwrite(old(buf.data[..]), 0, p.bytes) && !overstates
      ensures codec != null ==>
        |old(codec.emitted)| <= |codec.emitted| && codec.emitted[..|old(codec.emitted)|] == old(codec.emitted)
        && (var output := codec.emitted[|old(codec.emitted)|..];
            |output| <= buf.data.Length && buf.data[..] == Overwrite(old(buf.data[..]), 0, output)
            && (overstates <==> chars > |output|)
            && (overstates ==> chars == buf.data.Length && 0 < |output|)
            && (!overstates ==> chars == |output| || (chars == -1 && output == [])))
      ensures codec == null ==> upstream.taken == old(upstream.taken) + buf.data[..if chars == -1 then 0 else chars]
      ensures codec != null && !overstates ==>
        codec.emitted == old(codec.emitted) + buf.data[..if chars == -1 then 0 else chars]
    {
      ghost var data0 := buf.data[..];
      if codec == null {
        ghost var taken0 := upstream.taken;
        chars := upstream.Read(buf.data, 0, buf.data.Length);
        overstates := false;
        GrownByPrefix(taken0, upstream.taken, data0, buf.data[..]);
      } else {
        ghost var emitted0 := codec.emitted;
        var r, produced, done, exit := codec.Read(upstream, buf.data, 0, buf.data.Length);
        chars := r;
        overstates := r > produced;
        if !overstates {
          GrownByPrefix(emitted0, codec.emitted, data0, buf.data[..]);
        }
      }
    }

    /** `underflow()`: with unread bytes left it only reports the next one;
        otherwise (nothing is kept for putback) it refills the whole buffer
        from `readmore`, and a result of -1 sets the end-of-data flag. */
    method Underflow() returns (c: int, ghost chars: int, ghost overstates: bool)
      requires Valid()
      modifies this`produced, this`exact, Repr
      ensures Valid() && next == old(next) && delivered == old(delivered)
      ensures exact == (old(exact) && !overstates)
      ensures buf.ptr == old(buf.ptr) && buf.eptr == old(buf.eptr)
      ensures old(buf.eof) ==> buf.eof
      ensures old(buf.gptr < buf.egptr) ==>
        c == old(buf.data[buf.gptr]) as int && unchanged(buf, buf.data, upstream) && produced == old(produced)
      ensures !old(buf.gptr < buf.egptr) ==>
        buf.eback == 0 && buf.gptr == 0 && buf.egptr == (if chars == -1 then 0 else chars)
        && buf.eof == (old(buf.eof) || chars == -1)
        && (c == -1 <==> buf.egptr == 0)
        && (c != -1 ==> c == buf.data[0] as int)
        && (codec == null ==> chars == Pull(old(upstream.script), buf.data.Length).count)
    {
      if buf.gptr < buf.egptr {
        return buf.data[buf.gptr] as int, 0, false;
      }
      c, chars, overstates := Refill();
    }

    /** The refilling half of `underflow`, entered with an empty window. */
    method Refill() returns (c: int, ghost chars: int, ghost overstates: bool)
      requires Valid() && buf.gptr == buf.egptr
      modifies this`produced, this`exact, Repr
      ensures Valid() && next == old(next) && delivered == old(delivered)
      ensures exact == (old(exact) && !overstates)
      ensures overstates ==> codec != null && chars == buf.data.Length
      ensures buf.ptr == old(buf.ptr) && buf.eptr == old(buf.eptr)
      ensures buf.eback == 0 && buf.gptr == 0 && buf.egptr == (if chars == -1 then 0 else chars)
      ensures buf.eof == (old(buf.eof) || chars == -1)
      ensures c == -1 <==> buf.egptr == 0
      ensures c != -1 ==> c == buf.data[0] as int
      ensures codec == null ==> chars == Pull(old(upstream.script), buf.data.Length).count
    {
      assert produced == delivered;
      buf.eback, buf.gptr, buf.egptr := 0, 0, 0;
      var got;
      got, overstates := ReadMore();
      chars := got;
      c := Publish(got, overstates);
    }

    /** The end of `underflow`: the get window becomes the bytes `readmore`
        placed at the start of the buffer (none for -1, which also records
        the end of the data). */
    method Publish(chars: int, ghost overstates: bool) returns (c: int)
      requires Wired() && -1 <= chars <= buf.data.Length
      requires buf.eback == 0 && buf.gptr == 0 && buf.egptr == 0 && delivered == produced
      requires codec == null ==> upstream.taken == produced + buf.data[..if chars == -1 then 0 else chars]
      requires codec != null && exact && !overstates ==>
        codec.emitted == produced + buf.data[..if chars == -1 then 0 else chars]
      modifies this`produced, this`exact, buf
      ensures Valid()
      ensures exact == (old(exact) && !overstates)
      ensures buf.eback == 0 && buf.gptr == 0 && buf.egptr == (if chars == -1 then 0 else chars)
      ensures buf.ptr == old(buf.ptr) && buf.eptr == old(buf.eptr)
      ensures buf.eof == (old(buf.eof) || chars == -1)
      ensures c == -1 <==> buf.egptr == 0
      ensures c != -1 ==> c == buf.data[0] as int
    {
      var got := chars;
      if got == -1 {
        buf.eof := true;
        got := 0;
      }
      buf.egptr := got;
      produced := produced + buf.data[..got];
      exact := exact && !overstates;
      c := if got != 0 then buf.data[0] as int else -1;
    }

    /** `sbumpc()`: the next byte, advancing past it, or -1 when
        `underflow` finds nothing. */
    method Get() returns (c: int)
      requires Valid()
      modifies this`produced, this`delivered, this`exact, Repr
      ensures Valid() && next == old(next) && (exact ==> old(exact))
      ensures c == -1 ==> delivered == old(delivered) && buf.gptr == buf.egptr
      ensures c != -1 ==> 0 <= c < 256 && delivered == old(delivered) + [c as byte]
      ensures old(buf.eof) ==> buf.eof
    {
      ghost var ch, over;
      c, ch, over := Underflow();
      if c != -1 {
        var b := Advance();
      }
    }

    /** Hands out the byte at `gptr` and moves past it. */
    method Advance() returns (b: byte)
      requires Valid() && buf.gptr < buf.egptr
      modifies this`delivered, buf`gptr
      ensures Valid() && b == old(buf.data[buf.gptr])
      ensures delivered == old(delivered) + [b] && buf.gptr == old(buf.gptr) + 1
    {
      b := buf.data[buf.gptr];
      assert buf.data[buf.gptr..buf.egptr] == [b] + buf.data[buf.gptr + 1..buf.egptr];
      delivered := delivered + [b];
      buf.gptr := buf.gptr + 1;
    }

    /** Copies up to `want` bytes out of the get window. */
    method Drain(dest: array<byte>, at: nat, want: nat) returns (k: nat, ghost chunk: seq<byte>)
      requires Valid() && at + want <= dest.Length && dest !in Repr
      modifies this`delivered, buf, dest
      ensures Valid() && next == old(next) && buf.eof == old(buf.eof)
      ensures k == |chunk| <= want && delivered == old(delivered) + chunk
      ensures dest[..] == Overwrite(old(dest[..]), at, chunk)
      ensures k < want ==> buf.gptr == buf.egptr
    {
      k := Min(buf.egptr - buf.gptr, want);
      var bytes := buf.data[buf.gptr..buf.gptr + k];
      chunk := bytes;
      assert buf.data[buf.gptr..buf.egptr] == chunk + buf.data[buf.gptr + k..buf.egptr];
      CopyInto(dest, at, bytes);
      delivered := delivered + chunk;
      buf.gptr := buf.gptr + k;
    }

    /** The `uflow` step of `sgetn`: one more byte through `underflow`,
        stored at `dest[at]`. */
    method Bump(dest: array<byte>, at: nat) returns (got: bool, ghost one: seq<byte>)
      requires Valid() && at < dest.Length && dest !in Repr
      modifies this`produced, this`delivered, this`exact, Repr, dest
      ensures Valid() && next == old(next) && (exact ==> old(exact))
      ensures got ==> |one| == 1
      ensures !got ==> one == [] && buf.gptr == buf.egptr
      ensures delivered == old(delivered) + one
      ensures dest[..] == Overwrite(old(dest[..]), at, one)
      ensures old(buf.eof) ==> buf.eof
    {
      var c := Get();
      got := c != -1;
      if !got {
        return got, [];
      }
      CopyInto(dest, at, [c as byte]);
      one := [c as byte];
    }

    /** One pass of the `sgetn` loop: copy what the get window holds (at
        most `want` bytes), then, if more is wanted, take one byte through
        `underflow`; `stop` reports that `underflow` found nothing. */
    method SgetnPass(dest: array<byte>, at: nat, want: nat) returns (k: nat, stop: bool, ghost chunk: seq<byte>)
      requires Valid() && at + want <= dest.Length && dest !in Repr && want > 0
      modifies this`produced, this`delivered, this`exact, Repr, dest
      ensures Valid() && next == old(next) && (exact ==> old(exact))
      ensures k == |chunk| <= want && delivered == old(delivered) + chunk
      ensures dest[..] == Overwrite(old(dest[..]), at, chunk)
      ensures stop ==> buf.gptr == buf.egptr
      ensures !stop ==> k > 0
      ensures old(buf.eof) ==> buf.eof
    {
      ghost var d0 := dest[..];
      ghost var first;
      k, first := Drain(dest, at, want);
      chunk := first;
      stop := false;
      if k < want {
        var got;
        ghost var one;
        got, one := Bump(dest, at + k);
        OverwriteTwice(d0, at, first, one);
        stop := !got;
        chunk := first + one;
        if got {
          k := k + 1;
        }
      }
    }

    /** `sgetn(dest, n)`: copies out of the get window and refills it
        through `underflow` until `n` bytes are copied or `underflow` finds
        nothing. */
    method Sgetn(dest: array<byte>, off: nat, n: nat) returns (r: nat)
      requires Valid() && off + n <= dest.Length && dest !in Repr
      modifies this`produced, this`delivered, this`exact, Repr, dest
      ensures Valid() && next == old(next) && (exact ==> old(exact))
      ensures r <= n && |delivered| == |old(delivered)| + r && delivered[..|old(delivered)|] == old(delivered)
      ensures dest[..] == Overwrite(old(dest[..]), off, delivered[|old(delivered)|..])
      ensures r < n ==> buf.gptr == buf.egptr
      ensures old(buf.eof) ==> buf.eof
    {
      r := 0;
      ghost var d0 := dest[..];
      ghost var out: seq<byte> := [];
      var stop := false;
      while r < n && !stop
        invariant Valid() && next == old(next) && (exact ==> old(exact))
        invariant r == |out| <= n && delivered == old(delivered) + out
        invariant dest[..] == Overwrite(d0, off, out)
        invariant stop ==> buf.gptr == buf.egptr
        invariant old(buf.eof) ==> buf.eof
        decreases n - r, if stop then 0 else 1
      {
        var k;
        ghost var chunk;
        k, stop, chunk := SgetnPass(dest, off + r, n - r);
        OverwriteTwice(d0, off, out, chunk);
        out, r := out + chunk, r + k;
      }
      assert delivered[|old(delivered)|..] == out;
    }

    /** `read(dest, n)`: what `sgetn` copies, except that nothing copied at
        the end of the data is reported as -1. */
    method Read(dest: array<byte>, off: nat, n: nat) returns (r: int)
      requires Valid() && off + n <= dest.Length && dest !in Repr
      modifies this`produced, this`delivered, this`exact, Repr, dest
      ensures Valid() && next == old(next) && (exact ==> old(exact))
      ensures |old(delivered)| <= |delivered| && delivered[..|old(delivered)|] == old(delivered)
      ensures var k := |delivered| - |old(delivered)|;
        k <= n && (r == -1 <==> k == 0 && buf.eof) && (r != -1 ==> r == k)
      ensures dest[..] == Overwrite(old(dest[..]), off, delivered[|old(delivered)|..])
      ensures codec == null ==> delivered <= upstream.taken
      ensures codec != null && exact ==> delivered <= codec.emitted
      ensures old(buf.eof) ==> buf.eof
    {
      var got := Sgetn(dest, off, n);
      if got == 0 && buf.eof {
        return -1;
      }
      r := got;
    }
  }

  // ------------------------------------------------------------------ chain

  /** What `push` wraps: a source (anything convertible to `source`, such
      as `restrict`) gets a `source_wrapper`; a symmetric filter gets a
      `filter_wrapper`. */
  datatype StageKind = SourceStage | FilterStage(transform: Transform, codecBufferSize: nat)

  ghost predicate Wrappable(kind: StageKind)
  {
    kind.FilterStage? ==> Conforms(kind.transform)
  }

  /** `_total_read` after `read(dest, n)`: an empty chain leaves it alone,
      otherwise the request `n` is added, whatever the stage returns. */
  function CounterAfterRead(total: int, n: nat, empty: bool): (t: int)
    ensures empty ==> t == total
    ensures !empty ==> t - total == n
  {
    if empty then total else total + n
  }

  /** `_total_read` after `xsgetn(s, count)` as written: `count` is added
      before the call to `read`, which adds it again. */
  function CounterAfterXsgetn(total: int, count: nat, empty: bool): (t: int)
    ensures t == total + count + (if empty then 0 else count)
  {
    CounterAfterRead(total + count, count, empty)
  }

  /** `_total_read` after `xsgetn(s, count)` counting the request once, as
      `read` does. */
  function CounterAfterXsgetnCorrected(total: int, count: nat, empty: bool): (t: int)
    ensures t == total + (if empty then 0 else count)
  {
    CounterAfterRead(total, count, empty)
  }

  /** On a non-empty chain, `xsgetn` counts every requested byte twice, so
      the counter runs ahead of the position in the stream. */
  lemma XsgetnCountsTwice(total: int, count: nat)
    requires count > 0
    ensures CounterAfterXsgetn(total, count, false) == total + 2 * count
    ensures CounterAfterXsgetn(total, count, false) != CounterAfterRead(total, count, false)
  {
  }

  /** The corrected `xsgetn` moves the counter exactly as `read` does: by
      the request on a non-empty chain, not at all on an empty one. */
  lemma XsgetnCorrectedCountsOnce(total: int, count: nat, empty: bool)
    ensures CounterAfterXsgetnCorrected(total, count, empty) - total == (if empty then 0 else count)
  {
  }

  /** `chain`: the stages in the order they were pushed and the read
      counter. A read is served by the first stage pushed, which pulls from
      the next one, and so on. */
  class Chain {
    var stages: seq<LinkedFilter>
    var totalRead: int
    ghost var Repr: set<object>

    /** The stages are distinct and linked in push order through `_next`;
        the first stage, the one reads go to, is valid and owns none of the
        others. */
    ghost predicate Valid()
      reads this, Repr
    {
      (forall i :: 0 <= i < |stages| ==> stages[i] in Repr)
      && (forall i, j :: 0 <= i < j < |stages| ==> stages[i] != stages[j])
      && (forall i :: 0 <= i < |stages| - 1 ==> stages[i].next == stages[i + 1])
      && (stages != [] ==> stages[|stages| - 1].next == null)
      && (stages != [] ==>
            stages[0].Repr <= Repr && this !in stages[0].Repr && stages[0].Valid()
            && forall i :: 0 < i < |stages| ==> stages[i] !in stages[0].Repr)
    }

    constructor ()
      ensures Valid() && fresh(Repr) && stages == [] && totalRead == 0
    {
      stages, totalRead := [], 0;
      Repr := {};
    }

    /** `push(t, buffer_size)`: wraps `t` in a new stage, links the
        previous last stage to it through `_next`, and appends it. */
    method Push(kind: StageKind, script: seq<ReadOutcome>, bufferSize: nat)
      requires Valid() && Wrappable(kind)
      modifies this, if stages == [] then {} else {stages[|stages| - 1]}
      ensures Valid() && fresh(Repr - old(Repr)) && totalRead == old(totalRead)
      ensures |stages| == |old(stages)| + 1 && stages[..|old(stages)|] == old(stages)
      ensures var s := stages[|stages| - 1];
        fresh(s) && s.next == null && (s.codec == null <==> kind.SourceStage?)
        && s.upstream.script == script && s.buf.data.Length == bufferSize
        && s.delivered == []
        && (old(stages) != [] ==> old(stages)[|old(stages)| - 1].next == s)
    {
      var s := NewStage(kind, script, bufferSize);
      if stages == [] {
        Start(s);
      } else {
        Extend(s);
      }
    }

    /** The first push: `s` becomes the only stage. */
    method Start(s: LinkedFilter)
      requires stages == [] && s.Valid() && s.next == null && this !in s.Repr
      modifies this
      ensures Valid() && stages == [s] && Repr == old(Repr) + {s} + s.Repr && totalRead == old(totalRead)
    {
      stages := [s];
      Repr := Repr + {s} + s.Repr;
    }

    /** A later push: the last stage's `_next` becomes `s`, which is
        appended. */
    method Extend(s: LinkedFilter)
      requires Valid() && stages != [] && s !in Repr && s.next == null
      modifies this, stages[|stages| - 1]
      ensures Valid() && stages == old(stages) + [s] && Repr == old(Repr) + {s} + s.Repr
      ensures totalRead == old(totalRead) && old(stages)[|old(stages)| - 1].next == s
    {
      Link(s);
      stages := stages + [s];
      Repr := Repr + {s} + s.Repr;
    }

    /** The wrapper `push` creates for `kind`. */
    static method NewStage(kind: StageKind, script: seq<ReadOutcome>, bufferSize: nat) returns (s: LinkedFilter)
      requires Wrappable(kind)
      ensures s.Valid() && fresh(s) && fresh(s.Repr) && s !in s.Repr && s.next == null
      ensures (s.codec == null <==> kind.SourceStage?)
      ensures s.upstream.script == script && s.buf.data.Length == bufferSize && s.delivered == []
    {
      if kind.SourceStage? {
        s := new LinkedFilter.Source(script, bufferSize);
      } else {
        s := new LinkedFilter.Filter(kind.transform, kind.codecBufferSize, script, bufferSize);
      }
    }

    /** Points the `_next` of the last stage at `s`. */
    method Link(s: LinkedFilter)
      requires stages != [] && stages[0].Valid()
      requires forall i, j :: 0 <= i < j < |stages| ==> stages[i] != stages[j]
      requires forall i :: 0 <= i < |stages| - 1 ==> stages[i].next == stages[i + 1]
      modifies stages[|stages| - 1]
      ensures stages[|stages| - 1].next == s
      ensures stages[0].Valid()
      ensures forall i :: 0 <= i < |stages| - 1 ==> stages[i].next == stages[i + 1]
    {
      stages[|stages| - 1].next := s;
    }

    /** `read(dest, n)`: 0 from an empty chain; otherwise the request is
        added to `_total_read` and the first stage pushed serves it. */
    method Read(dest: array<byte>, off: nat, n: nat) returns (r: int)
      requires Valid() && off + n <= dest.Length && dest !in Repr
      modifies this, Repr, dest
      ensures Valid() && stages == old(stages) && Repr == old(Repr)
      ensures totalRead == CounterAfterRead(old(totalRead), n, stages == [])
      ensures stages == [] ==> r == 0 && dest[..] == old(dest[..])
      ensures stages != [] ==>
        var f := stages[0];
        |old(f.delivered)| <= |f.delivered| && f.delivered[..|old(f.delivered)|] == old(f.delivered)
        && (var k := |f.delivered| - |old(f.delivered)|;
            k <= n && (r == -1 <==> k == 0 && f.buf.eof) && (r != -1 ==> r == k))
        && dest[..] == Overwrite(old(dest[..]), off, f.delivered[|old(f.delivered)|..])
    {
      if stages == [] {
        return 0;
      }
      totalRead := totalRead + n;
      r := stages[0].Read(dest, off, n);
    }

    /** `xsgetn(s, count)`: the `streambuf` entry point, which adds `count`
        to `_total_read` and then calls `read`. */
    method Xsgetn(dest: array<byte>, off: nat, count: nat) returns (r: int)
      requires Valid() && off + count <= dest.Length && dest !in Repr
      modifies this, Repr, dest
      ensures Valid() && stages == old(stages) && Repr == old(Repr)
      ensures totalRead == CounterAfterXsgetn(old(totalRead), count, stages == [])
      ensures stages == [] ==> r == 0 && dest[..] == old(dest[..])
      ensures stages != [] ==>
        var f := stages[0];
        |old(f.delivered)| <= |f.delivered| && f.delivered[..|old(f.delivered)|] == old(f.delivered)
        && (var k := |f.delivered| - |old(f.delivered)|;
            k <= count && (r == -1 <==> k == 0 && f.buf.eof) && (r != -1 ==> r == k))
        && dest[..] == Overwrite(old(dest[..]), off, f.delivered[|old(f.delivered)|..])
    {
      totalRead := totalRead + count;
      r := Read(dest, off, count);
    }

    /** `TotalRead()`. */
    function TotalRead(): int
      reads this
    {
      totalRead
    }
  }

  // --------------------------------------------------------------- restrict

  /** The `k` bytes of `s` from position `pos`, of which there must be
      that many (none are asked for at or past the end). */
  function Take(s: seq<byte>, pos: nat, k: nat): (t: seq<byte>)
    requires pos + k <= |s| || k == 0
    ensures |t| == k
  {
    if k == 0 then [] else s[pos..pos + k]
  }

  /** The `std::istream` a `restrict` reads from: the bytes of the
      underlying file, the read position and whether the stream has failed
      (its failbit or badbit is set). */
  class InputStream {
    const content: seq<byte>
    var pos: nat
    var failed: bool

    constructor (content: seq<byte>, pos: nat)
      ensures this.content == content && this.pos == pos && !failed
    {
      this.content, this.pos, failed := content, pos, false;
    }

    /** Bytes between the position and the end of the data. */
    function Available(): nat
      reads this
    {
      if pos < |content| then |content| - pos else 0
    }

    /** `tellg()`: -1 once the stream has failed, the position otherwise. */
    function Tellg(): int
      reads this
    {
      if failed then -1 else pos
    }

    /** `seekg(off, cur)`: nothing on a failed stream; a target before the
        start fails the stream. */
    method SeekCur(off: int)
      modifies this
      ensures old(failed) ==> failed && pos == old(pos)
      ensures !old(failed) && old(pos) + off < 0 ==> failed && pos == old(pos)
      ensures !old(failed) && old(pos) + off >= 0 ==> !failed && pos == old(pos) + off
    {
      if !failed {
        if pos + off < 0 {
          failed := true;
        } else {
          pos := pos + off;
        }
      }
    }

    /** `read(dest, k)`: copies what is available up to `k` bytes; a short
        read sets failbit (with eofbit). A failed stream copies nothing. */
    method Read(dest: array<byte>, off: nat, k: nat)
      modifies this, dest
      requires off + k <= dest.Length
      ensures old(failed) ==> failed && pos == old(pos) && dest[..] == old(dest[..])
      ensures !old(failed) ==>
        var got := Min(k, old(Available()));
        pos == old(pos) + got && failed == (got < k)
        && dest[..] == Overwrite(old(dest[..]), off, Take(content, old(pos), got))
    {
      if failed {
        return;
      }
      var got := Min(k, Available());
      CopyInto(dest, off, Take(content, pos, got));
      pos := pos + got;
      failed := got < k;
    }
  }

  /** What a `restrict::read` sees and changes: the stream's bytes,
      position and failure state, and the `_consumed` and `_len` counters. */
  datatype RestrictView = RestrictView(content: seq<byte>, pos: nat, failed: bool, consumed: int, len: int)

  /** The answer of one `restrict::read`, the bytes it placed in the
      destination and the state after it. */
  datatype RestrictOutcome = RestrictOutcome(r: int, bytes: seq<byte>, after: RestrictView)

  function Avail(v: RestrictView): nat
  {
    if v.pos < |v.content| then |v.content| - v.pos else 0
  }

  /** The request clamped to what the limit still allows. */
  function Remaining(v: RestrictView, n: nat): int
  {
    if v.len - v.consumed < n then v.len - v.consumed else n
  }

  /** The bytes the stream hands out for a request of `k` bytes. */
  function Got(v: RestrictView, k: nat): (g: nat)
    ensures g <= k && g <= Avail(v)
  {
    if v.failed then 0 else Min(k, Avail(v))
  }

  /** `restrict::read(dest, n)` as written: the count is the difference
      of two `tellg()` results, and a short read fails the stream so that
      the second `tellg()` is -1. */
  function RestrictRead(v: RestrictView, n: nat): (o: RestrictOutcome)
    ensures n == 0 ==> o == RestrictOutcome(0, [], v)
    ensures n > 0 && Remaining(v, n) <= 0 ==> o == RestrictOutcome(-1, [], v)
  {
    if n == 0 then RestrictOutcome(0, [], v)
    else
      var remaining := Remaining(v, n);
      if remaining <= 0 then RestrictOutcome(-1, [], v)
      else
        var got := Got(v, remaining);
        var pre := if v.failed then -1 else v.pos;
        var failed' := v.failed || got < remaining;
        var post := if failed' then -1 else v.pos + got;
        var d := post - pre;
        RestrictOutcome(if d != 0 then d else -1, Take(v.content, v.pos, got),
                        v.(pos := v.pos + got, failed := failed', consumed := v.consumed + d))
  }

  /** `restrict::read` counting what the stream actually delivered
      (`gcount()`) instead of differencing `tellg()`. */
  function RestrictReadCorrected(v: RestrictView, n: nat): (o: RestrictOutcome)
  {
    if n == 0 then RestrictOutcome(0, [], v)
    else
      var remaining := Remaining(v, n);
      if remaining <= 0 then RestrictOutcome(-1, [], v)
      else
        var got := Got(v, remaining);
        RestrictOutcome(if got != 0 then got else -1, Take(v.content, v.pos, got),
                        v.(pos := v.pos + got, failed := v.failed || got < remaining,
                           consumed := v.consumed + got))
  }

  /** While the stream is healthy and holds enough bytes, `restrict::read`
      hands out exactly the clamped request, which `_consumed` records. */
  lemma RestrictReadHealthy(v: RestrictView, n: nat)
    requires n > 0 && !v.failed && 0 < Remaining(v, n) <= Avail(v)
    ensures var o := RestrictRead(v, n);
      o.r == Remaining(v, n) == |o.bytes| && o.bytes == v.content[v.pos..v.pos + o.r]
      && o.after.consumed == v.consumed + o.r && !o.after.failed && o.after.pos == v.pos + o.r
  {
  }

  /** `_consumed` never passes `_len`, and a non-negative answer other than
      -1 is what `_consumed` grew by. */
  lemma RestrictReadBounds(v: RestrictView, n: nat)
    requires v.consumed <= v.len
    ensures var o := RestrictRead(v, n);
      o.after.consumed <= v.len && |o.bytes| <= n
      && (o.r != -1 ==> o.after.consumed == v.consumed + o.r)
  {
  }

  /** A short read as written: with one byte before the position and two
      left of the data, a request for ten bytes copies the two bytes but
      answers -2 and moves `_consumed` back by two. */
  lemma RestrictShortReadAsWritten()
    ensures var v := RestrictView([7, 8, 9], 1, false, 0, 4096);
      var o := RestrictRead(v, 10);
      o.bytes == [8, 9] && o.r == -2 && o.after.consumed == -2
  {
    var v := RestrictView([7, 8, 9], 1, false, 0, 4096);
    assert Got(v, 10) == 2;
  }

  /** The corrected read: `_consumed` never passes `_len` and grows by
      exactly the bytes handed out; -1 means nothing was handed out (for a
      non-empty request); the bytes are the next ones of the stream. */
  lemma RestrictReadCorrectedSound(v: RestrictView, n: nat)
    requires v.consumed <= v.len
    ensures var o := RestrictReadCorrected(v, n);
      o.after.consumed == v.consumed + |o.bytes| <= v.len
      && |o.bytes| <= n
      && (n > 0 ==> (o.r == -1 <==> o.bytes == []))
      && (o.r != -1 ==> o.r == |o.bytes|)
      && o.bytes == Take(v.content, v.pos, |o.bytes|)
  {
  }

  /** Without a short read, the corrected read and the read as written
      agree. */
  lemma RestrictReadCorrectedAgrees(v: RestrictView, n: nat)
    requires !v.failed && (n == 0 || Remaining(v, n) <= Avail(v))
    ensures RestrictReadCorrected(v, n) == RestrictRead(v, n)
  {
  }

  /** `restrict`: a source that reads at most `_len` bytes of a stream,
      starting `off` bytes past the stream's position when it was made. */
  class Restrict {
    const stream: InputStream
    var consumed: int
    const len: int

    function View(): RestrictView
      reads this, stream
    {
      RestrictView(stream.content, stream.pos, stream.failed, consumed, len)
    }

    /** `restrict(is, off, len)`: seeks `off` bytes forward. */
    constructor (stream: InputStream, off: int, len: int)
      modifies stream
      ensures this.stream == stream && this.len == len && consumed == 0
      ensures old(stream.failed) ==> stream.failed && stream.pos == old(stream.pos)
      ensures !old(stream.failed) && old(stream.pos) + off < 0 ==> stream.failed && stream.pos == old(stream.pos)
      ensures !old(stream.failed) && old(stream.pos) + off >= 0 ==> !stream.failed && stream.pos == old(stream.pos) + off
    {
      this.stream, consumed, this.len := stream, 0, len;
      new;
      stream.SeekCur(off);
    }

    /** `read(dest, n)`. */
    method Read(dest: array<byte>, off: nat, n: nat) returns (r: int)
      requires off + n <= dest.Length
      modifies this, stream, dest
      ensures var o := RestrictRead(old(View()), n);
        r == o.r && View() == o.after && dest[..] == Overwrite(old(dest[..]), off, o.bytes)
    {
      if n == 0 {
        return 0;
      }
      var remaining := if len - consumed < n then len - consumed else n;
      if remaining <= 0 {
        return -1;
      }
      var pre := stream.Tellg();
      stream.Read(dest, off, remaining);
      var post := stream.Tellg();
      consumed := consumed + (post - pre);
      r := if post - pre != 0 then post - pre else -1;
    }
  }
}

=== FILE: text.dfy ===
/**
 * Narrow-string helpers of minihead.cpp and the C-locale character classes
 * used by the cleaning routines. Only the ASCII letters have a case in the
 * "C" locale, so `tolower`/`toupper` leave every other character alone.
 */
module Text {
  import opened Common

  predicate IsUpper(c: char) { 'A' <= c <= 'Z' }
  predicate IsLower(c: char) { 'a' <= c <= 'z' }
  predicate IsDigit(c: char) { '0' <= c <= '9' }

  /** `isalnum` in the C locale. */
  predicate IsAlnum(c: char) { IsDigit(c) || IsUpper(c) || IsLower(c) }

  /** `tolower` in the C locale. */
  function LowerChar(c: char): char
  {
    if IsUpper(c) then (c as int + 32) as char else c
  }

  /** `toupper` in the C locale. */
  function UpperChar(c: char): char
  {
    if IsLower(c) then (c as int - 32) as char else c
  }

  /** The lower-cased copy of a string, character by character. */
  function Lower(s: string): string
  {
    seq(|s|, i requires 0 <= i < |s| => LowerChar(s[i]))
  }

  /** `to_lower_copy`: copies the argument and overwrites each position of
      the copy with its lower-case form. */
  method ToLowerCopy(str: string) returns (res: string)
    ensures |res| == |str|
    ensures forall i :: 0 <= i < |str| ==> res[i] == LowerChar(str[i])
  {
    res := str;
    var i := 0;
    while i < |res|
      invariant 0 <= i <= |res| == |str|
      invariant forall k :: 0 <= k < i ==> res[k] == LowerChar(str[k])
      invariant forall k :: i <= k < |res| ==> res[k] == str[k]
    {
      res := res[i := LowerChar(res[i])];
      i := i + 1;
    }
  }

  /** Lower-casing twice is lower-casing once. */
  lemma LowerIdempotent(s: string)
    ensures Lower(Lower(s)) == Lower(s)
  {
    assert forall i :: 0 <= i < |s| ==> LowerChar(LowerChar(s[i])) == LowerChar(s[i]);
  }

  /** True when `right` sits in `left` starting at position `k`. */
  predicate OccursAt(left: string, right: string, k: nat)
  {
    k + |right| <= |left| && left[k..k + |right|] == right
  }

  /** `std::string::find(right, from)`: the first position at or after `from`
      where `right` occurs. */
  function Find(left: string, right: string, from: nat): (r: Option<nat>)
    decreases |left| - from
    ensures r.Some? ==> from <= r.value && OccursAt(left, right, r.value)
    ensures r.Some? ==> forall k :: from <= k < r.value ==> !OccursAt(left, right, k)
    ensures r.None? ==> forall k :: from <= k ==> !OccursAt(left, right, k)
  {
    if from + |right| > |left| then None
    else if left[from..from + |right|] == right then Some(from)
    else Find(left, right, from + 1)
  }

  /** `contains(left, right)`: `left.find(right) != npos`. */
  function Contains(left: string, right: string): (r: bool)
    ensures r <==> exists k: nat :: OccursAt(left, right, k)
  {
    Find(left, right, 0).Some?
  }

  /** `iequals`: the lower-cased copies are equal, which is equality of the
      lengths and of every position after lower-casing. */
  function Iequals(left: string, right: string): (r: bool)
    ensures r <==> |left| == |right| && forall i :: 0 <= i < |left| ==> LowerChar(left[i]) == LowerChar(right[i])
  {
    assert Lower(left) == Lower(right) ==> |left| == |right| && forall i :: 0 <= i < |left| ==>
      Lower(left)[i] == LowerChar(left[i]) && Lower(right)[i] == LowerChar(right[i]);
    Lower(left) == Lower(right)
  }

  /** Case-insensitive equality is an equivalence. */
  lemma IequalsEquivalence(a: string, b: string, c: string)
    ensures Iequals(a, a)
    ensures Iequals(a, b) ==> Iequals(b, a)
    ensures Iequals(a, b) && Iequals(b, c) ==> Iequals(a, c)
  {
  }
}

=== FILE: tristate.dfy ===
/**
 * The three-valued latch `state3` (InnoUtils.h): it starts unsure, takes the
 * first boolean assigned to it, and falls back to unsure when a later
 * assignment contradicts the value it holds.
 */
module Tristate {

  datatype Latch = Unsure | Yes | No

  /** The definite latch for a boolean. */
  function Definite(value: bool): Latch { if value then Yes else No }

  /** The state after `state3 = value` (the merge rule of `operator=`). */
  function Merge(l: Latch, value: bool): Latch
  {
    match l
    case Unsure => Definite(value)
    case Yes => if value then Yes else Unsure
    case No => if value then Unsure else No
  }

  /** The state after assigning each of `values` in turn, starting from `l`. */
  function Settle(l: Latch, values: seq<bool>): Latch
  {
    if values == [] then l else Merge(Settle(l, values[..|values| - 1]), values[|values| - 1])
  }

  /** A latch object: the `_` field of `state3`, updated in place by assignment. */
  class State3 {
    var latch: Latch

    /** `state3()`: a fresh latch is unsure and reads as false. */
    constructor ()
      ensures latch == Unsure && !AsBool()
    {
      latch := Unsure;
    }

    /** `operator=(bool)`. */
    method Assign(value: bool)
      modifies this
      ensures latch == Merge(old(latch), value)
    {
      if latch == Unsure {
        latch := if value then Yes else No;
      } else if latch == Yes && !value {
        latch := Unsure;
      } else if latch == No && value {
        latch := Unsure;
      }
    }

    /** `operator bool()`: only a definite yes reads as true. */
    function AsBool(): (b: bool)
      reads this
      ensures b <==> latch == Yes
    {
      latch == Yes
    }
  }

  /** From unsure, an assignment decides the latch; assigning the value a
      definite latch already holds changes nothing; assigning the opposite
      value reverts it to unsure. */
  lemma MergeRule(l: Latch, value: bool)
    ensures l == Unsure ==> Merge(l, value) == Definite(value)
    ensures l == Definite(value) ==> Merge(l, value) == l
    ensures l == Definite(!value) ==> Merge(l, value) == Unsure
  {
  }

  /** A latch reads yes only if the last value assigned to it was true (or,
      with nothing assigned, if it started as yes). */
  lemma {:induction false} YesNeedsTrueLast(l: Latch, values: seq<bool>)
    requires Settle(l, values) == Yes
    ensures values == [] ==> l == Yes
    ensures values != [] ==> values[|values| - 1]
  {
    if values != [] {
      var prev := Settle(l, values[..|values| - 1]);
      assert Merge(prev, values[|values| - 1]) == Yes;
    }
  }

  /** After a contradiction the next assignment starts afresh: two equal
      assignments in a row leave the latch definite whatever came before. */
  lemma {:induction false} TwoAgreeingAssignmentsDecide(l: Latch, values: seq<bool>, v: bool)
    requires |values| >= 2 && values[|values| - 1] == v && values[|values| - 2] == v
    ensures Settle(l, values) == Definite(v)
  {
    var init := values[..|values| - 1];
    assert init[..|init| - 1] == values[..|values| - 2];
    var before := Settle(l, values[..|values| - 2]);
    assert Settle(l, init) == Merge(before, v);
  }

  /** Assigning the same value one or more times to a fresh latch decides it. */
  lemma {:induction false} UniformAssignmentsDecide(values: seq<bool>, v: bool)
    requires values != [] && forall i :: 0 <= i < |values| ==> values[i] == v
    ensures Settle(Unsure, values) == Definite(v)
  {
    if |values| > 1 {
      UniformAssignmentsDecide(values[..|values| - 1], v);
    }
  }
}
